=== FILE: README.md ===
# interval-timer-web: the workout-session data layer in Dafny

This project models the data layer of interval-timer-web, a Next.js app for
planning treadmill interval sessions. A session is a list of workout items
(warm-up, action, cool-down). Each item has a timer in seconds, a number of
sets and optional sub-items. A sub-item may be marked "omit for last set".
It covers:

- the duration arithmetic and the "mm:ss" codecs of `lib/utils.ts` and
  `lib/time-utils.ts`, and the local copies of the parser in the item forms
  and in `TimeInput`;
- the play order that the edit-session end-to-end test builds from a
  session, and the proof that its durations add up to `calculateTotalTime`;
- the session store of `lib/storage.ts`, with browser storage as a value;
- the editing handlers of `SessionForm`, `WorkoutItemForm` and
  `SubItemForm`, and the list view of `WorkoutSessionList` (sort,
  duplicate, delete, pace toggle);
- the older pages `app/create-session/page.tsx` and `app/page.tsx`. They
  keep their own session shape, with durations as "mm:ss" text and
  `repetitions`;
- the `useSession` load effect, the `NumberStepper` and `TimeInput`
  steppers, and the `t` lookup of `LanguageProvider`.

Every handler is a pure function from the state before to the state after.
Clocks, random numbers, `confirm` and `parseFloat` results are parameters.

JavaScript's partial conversions are modelled exactly where the code relies
on them:

- `Number(text)`: trimmed, empty text is 0, an optional sign and then digits.
- `parseInt(text, 10)`: leading blanks, a sign and a digit prefix.
- `x || 0`, truncating `%`, `Number.prototype.toString`, `padStart(2, '0')`,
  `split`, and the first-occurrence `replace` with its `$` replacement patterns.

`NaN` is `None` of an `Option`.

Modules, one per file: `Wrappers`, `Decimal`, `JsString`, `JsNumber`,
`TimeCodec`, `Types`, `Colors`, `Totals`, `Pace`, `Flatten`, `IdList`,
`Storage`, `ItemForm`, `SessionForm`, `SessionList`, `Legacy`,
`UseSession`, `Steppers`, `Language`.

## Model

| member | source | states |
|---|---|---|
| TimeCodec.FormatTimeSpec | interval-timer-web/src/lib/time-utils.ts:1-5 | for a non-negative count the output is a canonical clock: minutes padded to at least two digits and never truncated, holding `seconds / 60`; seconds exactly two digits holding `seconds % 60 < 60` |
| TimeCodec.ParseTimeToSecondsSpec | interval-timer-web/src/lib/time-utils.ts:7-10 | a "digits:digits" string reads as minutes × 60 + seconds; a string without ':' has no seconds part and reads as `NaN` |
| TimeCodec.ParseFormatRoundTrip | interval-timer-web/src/lib/time-utils.ts:1-10 | `parseTimeToSeconds(formatTime(s)) == s` for every natural `s` |
| TimeCodec.FormatParseRoundTrip | interval-timer-web/src/lib/time-utils.ts:1-10 | every canonical clock string parses, and formatting the result gives the string back |
| TimeCodec.JsRem60 | interval-timer-web/src/lib/time-utils.ts:3 | JavaScript's `%` by 60 equals the Euclidean remainder for a non-negative dividend; for a negative one it is non-positive, with magnitude below 60 |
| TimeCodec.ParseEditedTime | interval-timer-web/src/components/WorkoutItemForm.tsx:49-53 | a digit clock reads as its value; without ':' the minutes alone count (missing seconds become 0); the result is `NaN` exactly when the minutes part is not a number |
| TimeCodec.EditedFormatRoundTrip | interval-timer-web/src/components/SubItemForm.tsx:22-37 | the item and sub-item forms read back every duration they display |
| TimeCodec.ParseSteppedTime | interval-timer-web/src/components/ui/TimeInput.tsx:26-29 | a digit clock reads as its value; the result is a number exactly when the text contains ':' |
| TimeCodec.SteppedFormatRoundTrip | interval-timer-web/src/components/ui/TimeInput.tsx:26-35 | `TimeInput` reads back every non-negative value it displays |
| JsNumber.Number | interval-timer-web/src/lib/time-utils.ts:8 | `Number` reads blank text as 0 and a non-empty digit string as its decimal value |
| JsNumber.ParseInt | interval-timer-web/src/components/ui/TimeInput.tsx:27 | `parseInt(_, 10)` of a non-empty digit string is its decimal value |
| Decimal.NatToStringOfValue | interval-timer-web/src/lib/time-utils.ts:4 | printing the value of a digit string with no leading zero gives the string back |
| Decimal.PadStart2Value | interval-timer-web/src/lib/time-utils.ts:4 | `padStart(2, '0')` keeps the value of a decimal numeral and only pads it to two characters |
| JsString.SplitJoin | interval-timer-web/src/lib/time-utils.ts:8 | joining the parts of `split(sep)` with `sep` gives the text back, and no part contains `sep` |
| JsString.Expand | interval-timer-web/src/components/LanguageProvider.tsx:30 | the replacement text `replace` inserts: `$$`, `$&`, `` $` `` and `$'` expand, and a value without `$` is inserted literally |
| JsString.ExpandLiteralPrefix | interval-timer-web/src/components/LanguageProvider.tsx:30 | text without `$` passes through unchanged in front of whatever follows |
| JsString.ExpandPatterns | interval-timer-web/src/components/LanguageProvider.tsx:30 | `$$` gives `$`, `$&` the match, `` $` `` the text before it, `$'` the text after it; `$1` and a lone `$` stay literal, as there are no capture groups |
| JsString.ReplaceFirst | interval-timer-web/src/components/LanguageProvider.tsx:30 | only the first occurrence of the pattern is replaced, by the expanded replacement; the text before and after it is kept; text without the pattern is unchanged |
| JsString.LaterOccurrenceSurvives | interval-timer-web/src/components/LanguageProvider.tsx:30 | `replace` changes only the first occurrence of a placeholder: a later one survives, shifted by the inserted text's length less the placeholder's, or by the value's own length when it holds no `$` |
| Types.LabelRoundTrip | interval-timer-web/src/types.ts:16 | the item type is exactly one of 'Warm-up', 'Action', 'Cool-down', and the labels read back as their types |
| Types.LabelInjective | interval-timer-web/src/types.ts:16 | distinct item types have distinct labels |
| Totals.TotalAppend | interval-timer-web/src/lib/utils.ts:10-31 | the total of a concatenation is the sum of the totals (the fold is additive) |
| Totals.TotalFromFront | interval-timer-web/src/lib/utils.ts:11-30 | a non-empty list totals its first item's time plus the rest's total |
| Totals.ItemTimeBySets | interval-timer-web/src/lib/utils.ts:13-25 | an item's contribution equals playing its sets one by one, each set being the timer plus the sub-items, with omitted sub-items skipped in the last set |
| Totals.SetsTimeBeforeLast | interval-timer-web/src/lib/utils.ts:18-25 | every set before the last costs the timer plus all sub-item timers |
| Totals.PlayedSumSplit | interval-timer-web/src/lib/utils.ts:18-23 | a set plays all sub-items, and the last set plays all of them minus the omitted ones |
| Totals.OmittedSubs | interval-timer-web/src/lib/utils.ts:21-22 | the omitted sub-items are exactly those marked `omitForLastSet`, in order |
| Totals.OmittedBounded | interval-timer-web/src/lib/utils.ts:21-25 | with non-negative timers the omitted sum lies between 0 and the per-set sum |
| Totals.ItemTimeNonNegative | interval-timer-web/src/lib/utils.ts:13-29 | an item with non-negative timers and sets contributes a non-negative time |
| Totals.TotalNonNegative | interval-timer-web/src/lib/utils.ts:10-31 | a list of such items never totals below 0 |
| Totals.ZeroSetsContributeNothing | interval-timer-web/src/lib/utils.ts:20-26 | an item with zero sets contributes nothing, sub-items included |
| Totals.FormatReadRoundTrip | interval-timer-web/src/lib/utils.ts:38-45 | reading "Mm Ss" back gives the count, and 0 for a negative count (the '0m 0s' guard) |
| Totals.ReadFormatRoundTrip | interval-timer-web/src/lib/utils.ts:42-44 | every well-formed "Mm Ss" with seconds below 60 is what formatting its value prints |
| Totals.FormatTotalTime | interval-timer-web/src/lib/utils.ts:38-45 | the output always ends in 's' and has at least five characters |
| Totals.FormatTotalNumber | interval-timer-web/src/lib/utils.ts:38-41 | a `NaN` total prints "0m 0s"; every output reads back as its total, or 0 for `NaN` and negative totals |
| Pace.PaceAsWritten | interval-timer-web/src/lib/utils.ts:52-58 | a speed of 0 or less has no pace; any other speed gives whole minutes and rounded seconds of at most 60 |
| Pace.FormatPace | interval-timer-web/src/lib/utils.ts:53-60 | the output is '--:--' exactly when there is no pace |
| Pace.PaceAsWrittenIsNearest | interval-timer-web/src/lib/utils.ts:56-58 | the pace, in seconds, is within half a second of 3600 / speed: the nearest whole second |
| Pace.SixtySecondsAtTenPointZeroOne | interval-timer-web/src/lib/utils.ts:56-60 | at 10.01 km/h the code as written prints "05:60" |
| Pace.PaceCorrected | interval-timer-web/src/lib/utils.ts:52-61 | the corrected pace keeps the guard and always has fewer than 60 seconds |
| Pace.PaceCorrectedKeepsTotal | interval-timer-web/src/lib/utils.ts:56-58 | the corrected pace stands for the same number of seconds as the one as written, and equals it whenever that one has fewer than 60 seconds |
| Pace.CalculatePaceIsClock | interval-timer-web/src/lib/utils.ts:52-61 | the corrected pace prints as `formatTime` of its seconds and parses back to them |
| Colors.PaletteByKey | interval-timer-web/src/colors.ts:33-37 | the palette table holds the 'Warm-up', 'Work-out' and 'Cool-down' keys and nothing else |
| Colors.ActionTypeLosesPalette | interval-timer-web/src/components/WorkoutItemForm.tsx:40-44 | looking up the 'Action' label finds no palette, so the code as written paints an Action item '#FFFFFF' |
| Colors.PaletteAgreesWhereKeysMatch | interval-timer-web/src/colors.ts:33-37 | the corrected palette agrees with the table for warm-up and cool-down and reads 'Work-out' for Action |
| Colors.FirstColor | interval-timer-web/src/components/WorkoutItemForm.tsx:40-44 | a chosen type takes the first colour of its palette, never the white fallback |
| Colors.SubItemColorOf | interval-timer-web/src/components/WorkoutItemForm.tsx:73 | the second palette colour, else the first, else grey '#888888'; the colour is always one of the palette's or the grey fallback |
| Colors.SubItemColorAsWritten | interval-timer-web/src/components/WorkoutItemForm.tsx:73 | as written, the new sub-item colour looked up by the type label is grey '#888888' whenever the table has no such key |
| Colors.AsWrittenDiffersOnlyForAction | interval-timer-web/src/colors.ts:33-37 | the written table paints warm-up and cool-down items like the corrected one; for Action it gives white to the item and grey to a new sub-item |
| Flatten.SubTasksShape | interval-timer-web/e2e/edit-workout-session.spec.ts:90-100 | every sub-item task belongs to the current repetition, is marked as a sub-item, counts once and wears the item's colour |
| Flatten.RepetitionShape | interval-timer-web/e2e/edit-workout-session.spec.ts:87-101 | each repetition starts with the item itself, followed only by sub-item tasks of that repetition |
| Flatten.RepetitionsInOrder | interval-timer-web/e2e/edit-workout-session.spec.ts:87-103 | repetitions 1..R appear in increasing order, and every task names its repetition |
| Flatten.SubTasksCount | interval-timer-web/e2e/edit-workout-session.spec.ts:90-93 | a repetition plays every sub-item except, in the last repetition only, the disregarded ones |
| Flatten.ItemTasksCount | interval-timer-web/e2e/edit-workout-session.spec.ts:86-105 | an item yields R·(1 + #sub) − #disregarded tasks, and none when R ≤ 0 |
| Flatten.FlattenAppend | interval-timer-web/e2e/edit-workout-session.spec.ts:86-105 | the play list of a session is its items' play lists, in item order |
| Flatten.FiveTasksScenario | interval-timer-web/e2e/edit-workout-session.spec.ts:108-113 | the default session, with a twice-repeated warm-up holding one disregarded sub-item, plays exactly five tasks in the expected order |
| Flatten.WarmUpPlaysThreeTasks | interval-timer-web/e2e/edit-workout-session.spec.ts:86-105 | that warm-up plays itself, its sub-item, then itself again without the sub-item |
| Flatten.PlayedIsTotalTime | interval-timer-web/src/lib/utils.ts:10-31 | playing a stored session task by task lasts exactly `calculateTotalTime` of its items, for non-negative timers and sets |
| Flatten.PlayedWithIsTotalTime | interval-timer-web/e2e/edit-workout-session.spec.ts:86-105 | the same for any duration writer and reader that read back what is written |
| IdList.FindIndex | interval-timer-web/src/lib/storage.ts:52 | the result is the first position holding the id, or -1 exactly when none does |
| IdList.Find | interval-timer-web/src/lib/storage.ts:47 | the result is the first record with the id, and absent exactly when no record has it |
| IdList.RemovePartition | interval-timer-web/src/lib/storage.ts:65 | the records kept and those dropped together rearrange the list; the kept ones are exactly those with another id |
| IdList.RemoveAppend | interval-timer-web/src/components/SessionForm.tsx:35 | filtering distributes over concatenation, so the kept records stay in order |
| IdList.Upsert | interval-timer-web/src/lib/storage.ts:50-60 | a present id keeps the length, a new id is appended, and the record is then found by its id |
| IdList.UpsertReplaces | interval-timer-web/src/lib/storage.ts:52-56 | an existing id's first position is overwritten and nothing else changes |
| IdList.UpsertIdempotent | interval-timer-web/src/lib/storage.ts:50-61 | upserting twice equals upserting once |
| IdList.UpsertKeepsOthers | interval-timer-web/src/lib/storage.ts:50-61 | every other id finds the record it found before |
| IdList.ReplaceThenFind | interval-timer-web/src/components/SessionForm.tsx:27-32 | after replacing by id, the id finds the new record and every other id finds what it found before |
| IdList.Move | interval-timer-web/src/components/SessionForm.tsx:55-65 | a move keeps length and multiset, and an unknown id changes nothing |
| IdList.MoveEffect | interval-timer-web/src/components/SessionForm.tsx:57-63 | the record trades places with its upper or lower neighbour; at either end the list is unchanged |
| IdList.MoveUpThenDown | interval-timer-web/src/components/SessionForm.tsx:55-65 | moving a record that is not first up and then down restores the list |
| IdList.InsertAfterEffect | interval-timer-web/src/components/SessionForm.tsx:76-81 | the copy lands right after the first record with the id, with the records around them untouched |
| Storage.GetWorkoutSessions | interval-timer-web/src/lib/storage.ts:19-35 | the stored list, and [] when storage is unavailable, the key absent or empty, or the text malformed |
| Storage.SaveWorkoutSessions | interval-timer-web/src/lib/storage.ts:37-43 | a no-op without storage; otherwise the list is what is read back |
| Storage.GetWorkoutSession | interval-timer-web/src/lib/storage.ts:45-48 | a found session is the first stored session with the id; nothing is found exactly when no stored session has the id |
| Storage.SaveThenGet | interval-timer-web/src/lib/storage.ts:45-61 | with storage available, a saved session is what a lookup of its id returns |
| Storage.SaveReplacesOrAppends | interval-timer-web/src/lib/storage.ts:50-60 | an existing id is replaced in place at its first index; a new id is appended |
| Storage.SaveIdempotent | interval-timer-web/src/lib/storage.ts:50-61 | saving the same session twice stores what saving it once stores |
| Storage.SaveKeepsOthers | interval-timer-web/src/lib/storage.ts:50-61 | saving leaves the lookup of every other id as it was |
| Storage.SaveOverUnreadable | interval-timer-web/src/lib/storage.ts:27-34 | an empty or malformed entry reads as empty, so the first save stores only the new session |
| Storage.DeleteRemovesAll | interval-timer-web/src/lib/storage.ts:63-67 | afterwards the id is not found; exactly the sessions with other ids remain, in order; deleting an absent id rewrites the same list |
| Storage.UnavailableIsInert | interval-timer-web/src/lib/storage.ts:37-43 | without storage nothing is saved or deleted and nothing is found |
| ItemForm.HandleChange | interval-timer-web/src/components/WorkoutItemForm.tsx:27-47 | as written: the edited field shows the new value (a non-numeric number becomes 0); a chosen type also takes `COLOR_PALETTES[label][0]`, or '#FFFFFF' when the table has no such key; every other field is unchanged |
| ItemForm.HandleChangeCorrected | interval-timer-web/src/components/WorkoutItemForm.tsx:40-44 | corrected: a chosen type takes the first colour of its own palette and is never white; on every other edit it agrees with the handler as written |
| ItemForm.ItemEditsCommute | interval-timer-web/src/components/WorkoutItemForm.tsx:27-47 | edits of different fields commute (except type against colour), and repeating an edit changes nothing more |
| ItemForm.ChosenTypeAsWritten | interval-timer-web/src/components/WorkoutItemForm.tsx:40-44 | as written, choosing "Action" paints the item '#FFFFFF'; warm-up and cool-down get the first colour of their palettes |
| ItemForm.ChosenTypeIsPainted | interval-timer-web/src/components/WorkoutItemForm.tsx:40-44 | under the corrected handler a chosen type gets the first colour of its palette, never '#FFFFFF' |
| ItemForm.AdjustTimer | interval-timer-web/src/components/WorkoutItemForm.tsx:56 | `Math.max(0, timer + amount)`: never negative, never below `timer + amount`, and one of the two |
| ItemForm.AdjustTimerInverse | interval-timer-web/src/components/WorkoutItemForm.tsx:55-58 | −30 then +30 restores a timer of at least 30; +30 then −30 restores any non-negative one; −30 below 30 gives 0 |
| ItemForm.HandleDurationChange | interval-timer-web/src/components/WorkoutItemForm.tsx:55-58 | the timer becomes `max(0, timer + amount)` and nothing else changes |
| ItemForm.HandleTimeChange | interval-timer-web/src/components/WorkoutItemForm.tsx:49-53 | a digit clock sets the timer to its value; only the timer changes |
| ItemForm.DisplayedTimeReadsBack | interval-timer-web/src/components/WorkoutItemForm.tsx:49-64 | retyping the displayed duration leaves the item unchanged |
| ItemForm.NewSubItem | interval-timer-web/src/components/WorkoutItemForm.tsx:66-78 | as written: a new sub-item is described "New Sub-Item", lasts 30 s, has zero speed and incline, is not omitted, and wears the second colour of its item's palette, or grey '#888888' under an Action item |
| ItemForm.NewSubItemCorrected | interval-timer-web/src/components/WorkoutItemForm.tsx:73 | corrected: the second colour of the item type's own palette; otherwise the sub-item as written, identical to it for warm-up and cool-down |
| ItemForm.HandleAddSubItem | interval-timer-web/src/components/WorkoutItemForm.tsx:66-78 | exactly the new sub-item as written is appended; the existing ones and the other fields are unchanged |
| ItemForm.HandleUpdateSubItem | interval-timer-web/src/components/WorkoutItemForm.tsx:80-85 | only sub-items with the updated id are replaced; length and the rest are kept |
| ItemForm.HandleDeleteSubItem | interval-timer-web/src/components/WorkoutItemForm.tsx:87-90 | the sub-items become the old sub-items without those carrying the id, in their original order: exactly the others remain, and the other fields are unchanged |
| ItemForm.AddThenDeleteSubItem | interval-timer-web/src/components/WorkoutItemForm.tsx:66-90 | deleting a freshly added sub-item restores the item |
| ItemForm.HandleSubChange | interval-timer-web/src/components/SubItemForm.tsx:15-20 | the edited field shows the new value (a checkbox its `checked` state, a non-numeric number 0); the id, the timer and every other field are unchanged |
| ItemForm.SubEditsCommute | interval-timer-web/src/components/SubItemForm.tsx:15-20 | edits of different fields commute, and repeating an edit changes nothing more |
| ItemForm.OmitToggleRestores | interval-timer-web/src/components/SubItemForm.tsx:15-20 | checking then unchecking "omit for last set" restores the sub-item |
| ItemForm.HandleSubDurationChange | interval-timer-web/src/components/SubItemForm.tsx:28-31 | the timer becomes `max(0, timer + amount)` and nothing else changes |
| ItemForm.HandleSubTimeChange | interval-timer-web/src/components/SubItemForm.tsx:22-26 | a digit clock sets the timer to its value; only the timer changes |
| ItemForm.DisplayedSubTimeReadsBack | interval-timer-web/src/components/SubItemForm.tsx:22-37 | retyping the displayed duration leaves the sub-item unchanged |
| SessionForm.SyncTotal | interval-timer-web/src/components/SessionForm.tsx:16-21 | after the effect the total equals `calculateTotalTime` of the items; only the total changes, and an in-sync draft is left alone |
| SessionForm.HandleNameChange | interval-timer-web/src/components/SessionForm.tsx:23-25 | only the name changes, and a draft in sync stays in sync |
| SessionForm.HandleItemUpdate | interval-timer-web/src/components/SessionForm.tsx:27-32 | only items with the updated id are replaced; length and order are kept |
| SessionForm.HandleItemDelete | interval-timer-web/src/components/SessionForm.tsx:34-37 | the items become the old items without those carrying the id, in their original order: exactly the others remain, and only the items change |
| SessionForm.NewItem | interval-timer-web/src/components/SessionForm.tsx:39-53 | a new item is an Action described "New Item", of 60 s, one set, zero speed and incline, no sub-items, and the first Action colour |
| SessionForm.HandleAddItem | interval-timer-web/src/components/SessionForm.tsx:39-53 | the new item is appended and the existing ones are unchanged |
| SessionForm.AddItemAddsAMinute | interval-timer-web/src/components/SessionForm.tsx:16-53 | adding an item raises the synced total by exactly 60 s |
| SessionForm.HandleMoveItem | interval-timer-web/src/components/SessionForm.tsx:55-65 | a move rearranges the items, leaves other fields alone, and an unknown id changes nothing |
| SessionForm.MoveUpThenDownRestores | interval-timer-web/src/components/SessionForm.tsx:55-65 | moving an item that is not first up then down restores the draft |
| SessionForm.MoveKeepsTotal | interval-timer-web/src/components/SessionForm.tsx:55-65 | moving an item never changes the total time |
| SessionForm.ReIdSubItems | interval-timer-web/src/components/SessionForm.tsx:73 | each copied sub-item is the original with the id `sub-<newId>-<random>` |
| SessionForm.HandleItemDuplicate | interval-timer-web/src/components/SessionForm.tsx:67-85 | the list grows by the copy alone; an unknown original appends it at the end |
| SessionForm.DuplicateEffect | interval-timer-web/src/components/SessionForm.tsx:67-85 | the copy lands right after the original; it carries the new id, re-id'd sub-items and every other field of the original |
| SessionForm.DuplicateAddsItemTime | interval-timer-web/src/components/SessionForm.tsx:67-85 | duplicating adds exactly the original's time to the total |
| SessionForm.HandlersThenSyncAgree | interval-timer-web/src/components/SessionForm.tsx:16-21 | after every handler the effect brings the total in line, and a move keeps a synced draft synced |
| SessionList.Compare | interval-timer-web/src/components/WorkoutSessionList.tsx:58-73 | the comparator yields -1, 0 or 1: when a's key is below b's it yields -1 ascending and 1 descending, the reverse when above, and 0 exactly when neither key is below the other |
| SessionList.CompareSymmetries | interval-timer-web/src/components/WorkoutSessionList.tsx:69-71 | equal keys compare 0; swapping the arguments or the direction negates the result |
| SessionList.StrLessTransitive | interval-timer-web/src/components/WorkoutSessionList.tsx:69-70 | string order on keys is transitive |
| SessionList.StrLessTotal | interval-timer-web/src/components/WorkoutSessionList.tsx:69-70 | string order on keys is asymmetric and total on distinct strings |
| SessionList.NotAfterTransitive | interval-timer-web/src/components/WorkoutSessionList.tsx:58-73 | the "sorts no later than" relation is transitive, so sorting is well defined |
| SessionList.SortSessions | interval-timer-web/src/components/WorkoutSessionList.tsx:58-73 | the sorted list is a permutation of the sessions, ordered by the chosen key and direction |
| SessionList.SortedPairwise | interval-timer-web/src/components/WorkoutSessionList.tsx:58-73 | in a sorted list every earlier session sorts no later than every later one |
| SessionList.NeverUsedSortsLast | interval-timer-web/src/components/WorkoutSessionList.tsx:13-14 | under the default "last used, descending" order a never-used session comes after every session used since the epoch |
| SessionList.Load | interval-timer-web/src/components/WorkoutSessionList.tsx:16-18 | the view shows what the store holds |
| SessionList.CopyOf | interval-timer-web/src/components/WorkoutSessionList.tsx:24-29 | a copy differs from the original only in id, createdAt and name, whose suffix is " (Copy)" |
| SessionList.HandleDuplicate | interval-timer-web/src/components/WorkoutSessionList.tsx:20-34 | an unknown id changes nothing; otherwise the store is the old store with the copy saved through `saveWorkoutSession`, and the view shows what is stored |
| SessionList.DuplicateKeepsOthers | interval-timer-web/src/components/WorkoutSessionList.tsx:20-34 | duplicating touches only the copy: every other id finds in the store what it found before |
| SessionList.DuplicateIsStored | interval-timer-web/src/components/WorkoutSessionList.tsx:20-34 | the copy is stored and can be looked up by its id |
| SessionList.HandleDelete | interval-timer-web/src/components/WorkoutSessionList.tsx:36-41 | nothing happens without confirmation; otherwise the store is `deleteWorkoutSession` applied to the old store, and, with storage available, the view shows the stored sessions before the delete without those carrying the id, in order |
| SessionList.HandleTogglePace | interval-timer-web/src/components/WorkoutSessionList.tsx:43-56 | every session with the id becomes the first such session with `showPace` flipped, as the `map` writes it; other sessions are unchanged; an unknown id changes nothing |
| SessionList.TogglePaceTwice | interval-timer-web/src/components/WorkoutSessionList.tsx:43-56 | toggling twice restores the sessions |
| SessionList.TogglePaceKeepsViewInSync | interval-timer-web/src/components/WorkoutSessionList.tsx:43-56 | after a toggle the view shows exactly what is stored |
| Legacy.HomeSkipsEmpty | interval-timer-web/src/app/page.tsx:20-27 | the home page's total is the create page's total over the items with a non-empty duration |
| Legacy.CreateTotalAppend | interval-timer-web/src/app/create-session/page.tsx:63-68 | the running sum is additive over concatenation, `NaN` absorbing |
| Legacy.CreateTotalIsNumber | interval-timer-web/src/app/create-session/page.tsx:63-68 | the sum is a number exactly when every item's duration reads as one |
| Legacy.DisplayedTotalReadsBack | interval-timer-web/src/app/create-session/page.tsx:70-73 | a non-negative total displays as a canonical clock that parses back to it |
| Legacy.FormatTotalDuration | interval-timer-web/src/app/page.tsx:29-32 | a `NaN` total displays as "NaN:NaN" |
| Legacy.DefaultItemsTotalFiftyMinutes | interval-timer-web/src/app/create-session/page.tsx:25-29 | the default items total 3000 s and display as "50:00" |
| Legacy.NoColonIsNaN | interval-timer-web/src/app/create-session/page.tsx:66-67 | one duration without ':' turns the total into `NaN` |
| Legacy.ApplyEdit | interval-timer-web/src/app/create-session/page.tsx:40-44 | only the edited field changes; a repetitions entry that parses to `NaN` or 0 becomes 1 |
| Legacy.HandleItemChange | interval-timer-web/src/app/create-session/page.tsx:40-44 | only items with the id are edited; length and the rest are kept |
| Legacy.AddItem | interval-timer-web/src/app/create-session/page.tsx:46-57 | one item titled "New Item" is appended, with duration "00:00", one repetition and colour '#cccccc', after the unchanged items |
| Legacy.AddItemKeepsTotal | interval-timer-web/src/app/create-session/page.tsx:46-74 | adding an item leaves the total unchanged |
| Legacy.DeleteItem | interval-timer-web/src/app/create-session/page.tsx:59-61 | no item with the id remains; exactly the items with other ids are kept |
| Legacy.HandleSave | interval-timer-web/src/app/create-session/page.tsx:76-96 | saving is refused exactly for a blank name and fails for malformed stored text; otherwise the new session is appended to the stored list |
| Legacy.DeleteSession | interval-timer-web/src/app/page.tsx:35-43 | nothing happens without confirmation; otherwise no session with the id remains and the shown list equals the stored one |
| Legacy.DeleteSessionKeepsOthers | interval-timer-web/src/app/page.tsx:37-40 | every session with another id is kept, in order |
| UseSession.LoadEffect | interval-timer-web/src/hooks/use-session.ts:9-35 | without a window nothing happens; otherwise loading ends; with an id, a stored id shows its first match, a readable list without it sets "Session not found.", and malformed text sets "Failed to load session data."; the field an outcome does not name keeps its previous value |
| UseSession.FirstLoadOutcomes | interval-timer-web/src/hooks/use-session.ts:4-35 | on first load: a session exactly when the id is non-empty and stored; "Session not found." exactly when the list reads but lacks the id; "Failed to load session data." exactly for malformed text |
| UseSession.AbsentEntryIsNotFound | interval-timer-web/src/hooks/use-session.ts:17-24 | an absent entry reads as an empty list, so every non-empty id is not found |
| UseSession.StaleSessionSurvives | interval-timer-web/src/hooks/use-session.ts:18-24 | switching to a missing id keeps the session found before and adds "Session not found." |
| Steppers.DefaultStepper | interval-timer-web/src/components/ui/NumberStepper.tsx:17-19 | the default step is 1 and both limits are infinite |
| Steppers.Increment | interval-timer-web/src/components/ui/NumberStepper.tsx:22-24 | the result never exceeds the maximum or value + step, and is one of the two |
| Steppers.Decrement | interval-timer-web/src/components/ui/NumberStepper.tsx:26-28 | the result never falls below the minimum or value − step, and is one of the two |
| Steppers.StepsStayInRange | interval-timer-web/src/components/ui/NumberStepper.tsx:22-28 | from a value within the limits both buttons stay within them |
| Steppers.DisabledExactlyWhenStuck | interval-timer-web/src/components/ui/NumberStepper.tsx:36-52 | with a positive step, a button is disabled exactly when pressing it would not change the value |
| Steppers.TypedValueNotClamped | interval-timer-web/src/components/ui/NumberStepper.tsx:43 | a typed value beyond the maximum is handed on unclamped |
| Steppers.TimeDecrement | interval-timer-web/src/components/ui/TimeInput.tsx:22-24 | one step down, never below 0 |
| Steppers.DecrementThenIncrement | interval-timer-web/src/components/ui/TimeInput.tsx:18-24 | from a value of at least one step, down then up returns to it |
| Steppers.IncrementThenDecrement | interval-timer-web/src/components/ui/TimeInput.tsx:18-24 | from a non-negative value, up then down returns to it |
| Steppers.ShownTimeReadsBack | interval-timer-web/src/components/ui/TimeInput.tsx:26-35 | the field shows a canonical clock, and typing it back gives the value |
| Language.NewProvider | interval-timer-web/src/components/LanguageProvider.tsx:22 | a fresh provider speaks Norwegian |
| Language.TableOf | interval-timer-web/src/components/LanguageProvider.tsx:25 | the current language's table, or the English one when it is missing |
| Language.Lookup | interval-timer-web/src/components/LanguageProvider.tsx:26 | a missing or empty entry gives the key itself |
| Language.MissingTableFallsBack | interval-timer-web/src/components/LanguageProvider.tsx:25 | without a Norwegian table, Norwegian lookups equal English ones |
| Language.NoOptionsNoChange | interval-timer-web/src/components/LanguageProvider.tsx:28-34 | without options the looked-up string is returned as it is |
| Language.SubstituteAppend | interval-timer-web/src/components/LanguageProvider.tsx:29-31 | options apply one after another, each to the text its predecessors left |
| Language.NoPlaceholderNoChange | interval-timer-web/src/components/LanguageProvider.tsx:29-31 | a text without any option's placeholder comes back unchanged, so unmatched placeholders stay literal |
| Language.SubstituteOne | interval-timer-web/src/components/LanguageProvider.tsx:29-31 | a single option is a single first-occurrence `replace` of its placeholder |
| Language.MatchPatternKeepsPlaceholder | interval-timer-web/src/components/LanguageProvider.tsx:30 | the value `$&` inserts the placeholder itself: "Hi {name}" stays "Hi {name}" |
| Language.UseLanguage | interval-timer-web/src/components/LanguageProvider.tsx:45-51 | inside a provider the context is returned; outside, the error with the source's message |

## Left out

- Browser storage and JSON are abstract. A stored entry is absent, empty, malformed, or a list of records. Non-array JSON and records of the wrong shape count as malformed or are not modelled. The `isLocalStorageAvailable` probe is a choice between two constructors.
- `Date.now()`, `new Date().toISOString()`, `Math.random()` and `confirm` are inputs.
- `parseFloat` is not modelled. For speed, incline and the stepper its result arrives as an `Option<real>` (`None` for `NaN`).
- ItemForm.HandleChange: the sets field is an `<input type="number">` read with `parseFloat`, so the source can store a fractional number of sets such as 2.5. The model keeps `sets` an integer, as `calculateTotalTime` and the play order treat it, and the sets edit arrives as an `Option<int>`.
- `Number` and `parseInt` are modelled for signed decimal integers. Fractions, exponents, hexadecimal and `Infinity` read as `NaN` in the model.
- Floating point is replaced by exact rationals: `60 / speedKph` in `calculatePace` and the speeds, inclines and stepper values.
- Strings are sequences of characters. JavaScript's `<` compares UTF-16 code units; the model compares characters, so the two agree below U+10000.
- Totals.FormatTotalTime: takes an integer total. The `isNaN` guard is modelled by `FormatTotalNumber`, but item timers are integers in the totals, so a `NaN` timer stored by the item form (`None` from `HandleTimeChange`) does not flow into `calculateTotalTime` here.
- `Object.keys(options)` is given as an ordered sequence of option pairs, and the options' values arrive as text.
- The two storage keys are kept apart. `lib/storage.ts` uses 'workout-sessions'; the pages, `useSession` and the end-to-end test use 'intervalTimerSessions'. So `Storage` and `Legacy`/`UseSession` read different slots.
- `types.ts` exports no `Session` type, although `app/page.tsx` and `use-session.ts` import one. The older pages' shape (`duration` text, `repetitions`) is used for both.
- The end-to-end test conflicts with itself on colour: the flattening gives sub-item tasks the parent's colour (line 99), and a later check expects the sub-item's own colour (lines 141-143). The model follows the flattening.
- React rendering, effects as a mechanism, `alert`, and the `setTimeout` redirect after saving are not modelled. Each handler and effect is a function from the old state to the new one.
- The translation JSON files are abstract maps.
- The countdown and playback screens are not part of this model.
- Steppers.StepsStayInRange: requires a non-negative step. With a negative step the buttons can leave the range, and the source does not rule that out.
- SessionList.TogglePaceTwice: requires the id to be held by exactly one session. With duplicate ids, the source's `map` overwrites every match with the flipped first match, so a second toggle need not restore them.
- UseSession.LoadEffect: the stale-session behaviour (a session found earlier survives a later "not found") is modelled as written, not corrected.

## Findings

| source | as written | input that shows it | evidently intended | confidence | as-written member | corrected member |
|---|---|---|---|---|---|---|
| interval-timer-web/src/lib/utils.ts:56-60 | seconds are `Math.round` of the fractional minute × 60, which can reach 60 | speed 10.01 km/h: 60 / 10.01 = 5.994 min, and the seconds round to 60, printing "05:60" | carry a rounded 60 into the minutes, printing "06:00" | medium (not executed) | Pace.SixtySecondsAtTenPointZeroOne | Pace.PaceCorrected |
| interval-timer-web/src/components/WorkoutItemForm.tsx:40-44 | the palette is looked up by the type label, but `COLOR_PALETTES` has the key 'Work-out', not 'Action' (colors.ts:35) | choosing the type "Action" finds no palette and paints the item '#FFFFFF' | Action items take `ACTION_COLORS[0]`, as `handleAddItem` does, and a new sub-item under one (line 73) takes `ACTION_COLORS[1]` instead of grey | high (not executed) | ItemForm.ChosenTypeAsWritten | ItemForm.HandleChangeCorrected |

=== FILE: colors.dfy ===
/** The colour palettes of `src/colors.ts` and the lookups the item forms
    make in them. */
module Colors {
  import opened Types

  const WarmUpColors: seq<string> :=
    ["#FBBF24", "#F59E0B", "#D97706", "#FB923C", "#F97316", "#EA580C"]

  const ActionColors: seq<string> :=
    ["#74A257", "#36903D", "#007C28", "#00681A", "#00550E", "#004200",
     "#C45151", "#B52F2F", "#A00000", "#8B0000", "#760000", "#610000"]

  const CoolDownColors: seq<string> :=
    ["#60A5FA", "#3B82F6", "#2563EB"]

  /** `COLOR_PALETTES[label]` exactly as the table is written: its keys are
      "Warm-up", "Work-out" and "Cool-down", so the "Action" label finds no
      palette and `|| []` supplies an empty one. */
  function PaletteByKey(key: string): (p: seq<string>)
    ensures key == "Warm-up" ==> p == WarmUpColors
    ensures key == "Cool-down" ==> p == CoolDownColors
    ensures key !in {"Warm-up", "Work-out", "Cool-down"} ==> p == []
  {
    if key == "Warm-up" then WarmUpColors
    else if key == "Work-out" then ActionColors
    else if key == "Cool-down" then CoolDownColors
    else []
  }

  /** `palette[0] || '#FFFFFF'`: the colour an item gets when its type is
      chosen. */
  function FirstColorOf(p: seq<string>): (c: string)
    ensures |p| > 0 && p[0] != "" ==> c == p[0]
    ensures (|p| == 0 || p[0] == "") ==> c == "#FFFFFF"
  {
    if |p| > 0 && p[0] != "" then p[0] else "#FFFFFF"
  }

  /** `palette[1] || palette[0] || '#888888'`: the colour of a new sub-item. */
  function SubItemColorOf(p: seq<string>): (c: string)
    ensures |p| > 1 && p[1] != "" ==> c == p[1]
    ensures (|p| <= 1 || p[1] == "") && |p| > 0 && p[0] != "" ==> c == p[0]
    ensures c in p || c == "#888888"
  {
    if |p| > 1 && p[1] != "" then p[1]
    else if |p| > 0 && p[0] != "" then p[0]
    else "#888888"
  }

  /** The colour `handleChange` gives an item whose type was just chosen,
      with the table as written. */
  function FirstColorAsWritten(t: ItemType): (c: string)
    ensures PaletteByKey(Label(t)) == [] ==> c == "#FFFFFF"
  {
    FirstColorOf(PaletteByKey(Label(t)))
  }

  /** With the table as written, choosing "Action" in the type selector
      paints the item white instead of the first action colour. */
  lemma ActionTypeLosesPalette()
    ensures PaletteByKey(Label(Action)) == []
    ensures FirstColorAsWritten(Action) == "#FFFFFF"
    ensures FirstColorAsWritten(WarmUp) == WarmUpColors[0]
  {
  }

  /** The palette of each item type, keyed by the type itself, so the
      action palette is found for "Action" items. */
  function Palette(t: ItemType): (p: seq<string>)
    ensures |p| >= 3
    ensures t == Action ==> p == ActionColors
  {
    match t
    case WarmUp => WarmUpColors
    case Action => ActionColors
    case CoolDown => CoolDownColors
  }

  /** The corrected table agrees with the written one on every key that the
      written one spells like the type's label. */
  lemma PaletteAgreesWhereKeysMatch(t: ItemType)
    ensures t != Action ==> Palette(t) == PaletteByKey(Label(t))
    ensures t == Action ==> Palette(t) == PaletteByKey("Work-out")
  {
  }

  /** The colour a newly chosen type gets: the first of its palette. */
  function FirstColor(t: ItemType): (c: string)
    ensures c == Palette(t)[0] && c != "#FFFFFF"
  {
    FirstColorOf(Palette(t))
  }

  /** The colour of a new sub-item: the second of its item's palette. */
  function SubItemColor(t: ItemType): (c: string)
    ensures c == Palette(t)[1] && c in Palette(t)
  {
    SubItemColorOf(Palette(t))
  }

  /** The colour `handleAddSubItem` gives a new sub-item, with the table as
      written. */
  function SubItemColorAsWritten(t: ItemType): (c: string)
    ensures PaletteByKey(Label(t)) == [] ==> c == "#888888"
  {
    SubItemColorOf(PaletteByKey(Label(t)))
  }

  /** The written table and the corrected one paint warm-up and cool-down
      items alike; only an "Action" item differs, getting white as its own
      colour and grey for a new sub-item. */
  lemma AsWrittenDiffersOnlyForAction(t: ItemType)
    ensures t != Action ==> FirstColorAsWritten(t) == FirstColor(t)
    ensures t != Action ==> SubItemColorAsWritten(t) == SubItemColor(t)
    ensures FirstColorAsWritten(Action) == "#FFFFFF" != FirstColor(Action)
    ensures SubItemColorAsWritten(Action) == "#888888" != SubItemColor(Action)
  {
    PaletteAgreesWhereKeysMatch(t);
  }
}

=== FILE: decimal.dfy ===
/** Decimal digit strings: JavaScript's `Number.prototype.toString` on
    integers and `String.prototype.padStart(2, '0')`, with their inverse. */
module Decimal {

  predicate IsDigit(c: char) {
    '0' <= c <= '9'
  }

  predicate AllDigits(s: string) {
    forall i :: 0 <= i < |s| ==> IsDigit(s[i])
  }

  /** A non-empty digit string without superfluous leading zeros. */
  predicate Canonical(s: string) {
    AllDigits(s) && |s| >= 1 && (|s| == 1 || s[0] != '0')
  }

  function DigitChar(d: nat): (c: char)
    requires d < 10
    ensures IsDigit(c)
    ensures (c as int) - ('0' as int) == d
  {
    (('0' as int) + d) as char
  }

  function DigitValue(c: char): (d: nat)
    requires IsDigit(c)
    ensures d < 10
  {
    (c as int) - ('0' as int)
  }

  /** The number a digit string denotes; leading zeros are allowed. */
  function Value(s: string): nat
    requires AllDigits(s)
  {
    if |s| == 0 then 0 else Value(s[..|s| - 1]) * 10 + DigitValue(s[|s| - 1])
  }

  /** Shortest decimal representation of `n`, as `n.toString()` prints it. */
  function NatToString(n: nat): (s: string)
    ensures Canonical(s)
    ensures Value(s) == n
  {
    if n < 10 then [DigitChar(n)]
    else
      var p := NatToString(n / 10);
      assert (p + [DigitChar(n % 10)])[..|p|] == p;
      p + [DigitChar(n % 10)]
  }

  /** `i.toString()` for an integer `i`: a minus sign for negatives. */
  function IntToString(i: int): (s: string)
    ensures i >= 0 ==> Canonical(s) && Value(s) == i
    ensures i < 0 ==> |s| >= 2 && s[0] == '-' && Canonical(s[1..]) && Value(s[1..]) == -i
  {
    if i >= 0 then NatToString(i) else "-" + NatToString(-i)
  }

  /** `s.padStart(2, '0')`: left-pads with zeros to length 2, never truncates. */
  function PadStart2(s: string): (r: string)
    ensures |r| == if |s| >= 2 then |s| else 2
    ensures r[|r| - |s|..] == s
    ensures forall i :: 0 <= i < |r| - |s| ==> r[i] == '0'
  {
    if |s| >= 2 then s else if |s| == 1 then "0" + s else "00"
  }

  lemma {:induction false} ValueOfCanonicalIsPositive(s: string)
    requires Canonical(s) && s[0] != '0'
    ensures Value(s) >= 1
  {
    if |s| > 1 {
      var p := s[..|s| - 1];
      assert p[0] == s[0];
      ValueOfCanonicalIsPositive(p);
    }
  }

  /** NatToString inverts Value on canonical strings. */
  lemma {:induction false} NatToStringOfValue(s: string)
    requires Canonical(s)
    ensures NatToString(Value(s)) == s
  {
    if |s| > 1 {
      var p := s[..|s| - 1];
      assert p[0] == s[0];
      assert Canonical(p);
      ValueOfCanonicalIsPositive(p);
      NatToStringOfValue(p);
      assert Value(s) / 10 == Value(p);
      assert Value(s) % 10 == DigitValue(s[|s| - 1]);
      assert s == p + [s[|s| - 1]];
    }
  }

  /** A leading zero does not change the value of a digit string. */
  lemma {:induction false} ValueLeadingZero(s: string)
    requires AllDigits(s)
    ensures AllDigits("0" + s) && Value("0" + s) == Value(s)
  {
    if |s| > 0 {
      var p := s[..|s| - 1];
      assert ("0" + s)[..|s|] == "0" + p;
      ValueLeadingZero(p);
    }
  }

  /** Zero-padding keeps a digit string a digit string with the same value. */
  lemma PadStart2Value(s: string)
    requires AllDigits(s)
    ensures AllDigits(PadStart2(s)) && Value(PadStart2(s)) == Value(s)
  {
    if |s| == 1 {
      ValueLeadingZero(s);
    } else if |s| == 0 {
      assert Value("0") == 0;
      ValueLeadingZero("0");
    }
  }

  /** A count of seconds made of whole minutes and fewer than 60 seconds
      divides back into them. */
  lemma MinutesAndSeconds(m: nat, s: nat, n: nat)
    requires s < 60 && n == m * 60 + s
    ensures n / 60 == m && n % 60 == s
  {
  }
}

=== FILE: flatten.dfy ===
/** The play order of a session as the edit-session end-to-end test computes
    it (`e2e/edit-workout-session.spec.ts`): each item is repeated
    `repetitions` times; every repetition plays the item, then its
    sub-items, except that a sub-item marked `disregardInLastRepetition` is
    skipped in the last repetition. Sub-item tasks take the item's colour. */
module Flatten {
  import opened Wrappers
  import opened TimeCodec
  import opened Types
  import opened Totals

  /** A sub-item in the stored run format: duration as "mm:ss". */
  datatype RunSubItem = RunSubItem(
    id: string,
    title: string,
    duration: string,
    color: string,
    disregardInLastRepetition: bool)

  /** An item in the stored run format; `subItems` may be missing. */
  datatype RunItem = RunItem(
    id: string,
    title: string,
    duration: string,
    color: string,
    repetitions: int,
    subItems: Option<seq<RunSubItem>>)

  /** One entry of the play list: the fields of the item or sub-item it came
      from, with the repetition it belongs to. */
  datatype Task = Task(
    id: string,
    title: string,
    duration: string,
    color: string,
    repetitions: int,
    repetition: nat,
    totalRepetitions: int,
    fromSubItem: bool)

  /** `{...item, repetition: i, totalRepetitions: item.repetitions}`. */
  function ItemTask(item: RunItem, i: nat): Task {
    Task(item.id, item.title, item.duration, item.color, item.repetitions, i, item.repetitions, false)
  }

  /** `{...sub, repetitions: 1, repetition: i, totalRepetitions, color: item.color}`. */
  function SubTask(item: RunItem, sub: RunSubItem, i: nat): Task {
    Task(sub.id, sub.title, sub.duration, item.color, 1, i, item.repetitions, true)
  }

  function Skipped(item: RunItem, sub: RunSubItem, i: nat): bool {
    sub.disregardInLastRepetition && i == item.repetitions
  }

  /** The sub-item tasks of repetition `i`, in the sub-items' order. */
  function SubTasks(item: RunItem, subs: seq<RunSubItem>, i: nat): (ts: seq<Task>)
    ensures |ts| <= |subs|
  {
    if |subs| == 0 then []
    else
      var last := subs[|subs| - 1];
      SubTasks(item, subs[..|subs| - 1], i) + (if Skipped(item, last, i) then [] else [SubTask(item, last, i)])
  }

  /** Repetition `i`: the item, then its sub-items if it has any. */
  function RepetitionTasks(item: RunItem, i: nat): (ts: seq<Task>)
    ensures |ts| >= 1 && ts[0] == ItemTask(item, i)
  {
    [ItemTask(item, i)] + (if item.subItems.Some? then SubTasks(item, item.subItems.value, i) else [])
  }

  /** Repetitions 1 to `n`, one after the other. */
  function RepetitionsUpTo(item: RunItem, n: nat): seq<Task> {
    if n == 0 then [] else RepetitionsUpTo(item, n - 1) + RepetitionTasks(item, n)
  }

  /** `for (let i = 1; i <= item.repetitions; i++)`. */
  function ItemTasks(item: RunItem): seq<Task> {
    if item.repetitions <= 0 then [] else RepetitionsUpTo(item, item.repetitions)
  }

  /** `sessionToRun.items.forEach(...)`: the play list of a whole session. */
  function FlattenItems(items: seq<RunItem>): seq<Task> {
    if |items| == 0 then [] else FlattenItems(items[..|items| - 1]) + ItemTasks(items[|items| - 1])
  }

  /** Every task of `ts` belongs to repetition `i` of `item`. */
  predicate InRepetition(ts: seq<Task>, item: RunItem, i: nat) {
    forall k :: 0 <= k < |ts| ==> ts[k].repetition == i && ts[k].totalRepetitions == item.repetitions
  }

  /** Every task of `ts` comes from a sub-item of `item`: it is marked as
      such, counts once and wears the item's colour. */
  predicate FromSubItems(ts: seq<Task>, item: RunItem) {
    forall k :: 0 <= k < |ts| ==> ts[k].fromSubItem && ts[k].repetitions == 1 && ts[k].color == item.color
  }

  /** Every task of `ts` belongs to one of repetitions 1 to `n`, and the
      repetitions never go back. */
  predicate RepetitionsOrdered(ts: seq<Task>, n: nat) {
    && (forall k :: 0 <= k < |ts| ==> 1 <= ts[k].repetition <= n)
    && (forall j, k :: 0 <= j < k < |ts| ==> ts[j].repetition <= ts[k].repetition)
  }

  /** The sub-item tasks of repetition `i` belong to that repetition and
      wear the item's colour. */
  lemma {:induction false} SubTasksShape(item: RunItem, subs: seq<RunSubItem>, i: nat)
    ensures InRepetition(SubTasks(item, subs, i), item, i)
    ensures FromSubItems(SubTasks(item, subs, i), item)
  {
    if |subs| > 0 {
      var last := subs[|subs| - 1];
      SubTasksShape(item, subs[..|subs| - 1], i);
      var before := SubTasks(item, subs[..|subs| - 1], i);
      var ts := SubTasks(item, subs, i);
      if Skipped(item, last, i) {
        assert ts == before + [] == before;
      } else {
        assert ts == before + [SubTask(item, last, i)];
        assert forall k :: 0 <= k < |before| ==> ts[k] == before[k];
      }
    }
  }

  /** Repetition `i` starts with the item itself, holds only tasks of
      repetition `i`, and every task after the first is a sub-item task. */
  lemma RepetitionShape(item: RunItem, i: nat)
    ensures !RepetitionTasks(item, i)[0].fromSubItem
    ensures InRepetition(RepetitionTasks(item, i), item, i)
    ensures FromSubItems(RepetitionTasks(item, i)[1..], item)
  {
    var ts := RepetitionTasks(item, i);
    var rest := if item.subItems.Some? then SubTasks(item, item.subItems.value, i) else [];
    if item.subItems.Some? {
      SubTasksShape(item, item.subItems.value, i);
    }
    assert ts == [ItemTask(item, i)] + rest;
    assert ts[1..] == rest;
    assert forall k :: 1 <= k < |ts| ==> ts[k] == rest[k - 1];
  }

  /** Repetitions 1 to `n` hold only tasks of those repetitions, in
      increasing order of repetition. */
  lemma {:induction false} RepetitionsInOrder(item: RunItem, n: nat)
    ensures RepetitionsOrdered(RepetitionsUpTo(item, n), n)
  {
    if n > 0 {
      RepetitionsInOrder(item, n - 1);
      RepetitionShape(item, n);
      OrderedJoin(item, RepetitionsUpTo(item, n - 1), RepetitionTasks(item, n), RepetitionsUpTo(item, n), n);
    }
  }

  lemma OrderedJoin(item: RunItem, a: seq<Task>, b: seq<Task>, ts: seq<Task>, n: nat)
    requires n > 0 && RepetitionsOrdered(a, n - 1) && InRepetition(b, item, n)
    requires ts == a + b
    ensures RepetitionsOrdered(ts, n)
  {
    assert forall k :: 0 <= k < |a| ==> ts[k] == a[k];
    assert forall k :: |a| <= k < |ts| ==> ts[k] == b[k - |a|];
  }

  // ---------------------------------------------------------------------
  // Counting

  function SkippedCount(subs: seq<RunSubItem>): (n: nat)
    ensures n <= |subs|
  {
    if |subs| == 0 then 0
    else SkippedCount(subs[..|subs| - 1]) + (if subs[|subs| - 1].disregardInLastRepetition then 1 else 0)
  }

  lemma {:induction false} SubTasksCount(item: RunItem, subs: seq<RunSubItem>, i: nat)
    ensures |SubTasks(item, subs, i)| == |subs| - (if i == item.repetitions then SkippedCount(subs) else 0)
  {
    if |subs| > 0 {
      SubTasksCount(item, subs[..|subs| - 1], i);
    }
  }

  function SubCount(item: RunItem): nat {
    if item.subItems.Some? then |item.subItems.value| else 0
  }

  function SkippedSubCount(item: RunItem): nat {
    if item.subItems.Some? then SkippedCount(item.subItems.value) else 0
  }

  lemma RepetitionTasksCount(item: RunItem, i: nat)
    ensures |RepetitionTasks(item, i)| ==
      1 + SubCount(item) - (if i == item.repetitions then SkippedSubCount(item) else 0)
  {
    if item.subItems.Some? {
      SubTasksCount(item, item.subItems.value, i);
    }
  }

  lemma {:induction false} RepetitionsUpToCount(item: RunItem, n: nat)
    requires n <= item.repetitions
    ensures |RepetitionsUpTo(item, n)| ==
      n * (1 + SubCount(item)) - (if 0 < n == item.repetitions then SkippedSubCount(item) else 0)
  {
    if n > 0 {
      RepetitionsUpToCount(item, n - 1);
      RepetitionTasksCount(item, n);
      var k := 1 + SubCount(item);
      assert |RepetitionsUpTo(item, n)| == |RepetitionsUpTo(item, n - 1)| + |RepetitionTasks(item, n)|;
      assert (n - 1) * k + k == n * k;
    }
  }

  /** An item yields one task per repetition plus one per sub-item and
      repetition, less the sub-items skipped in the last repetition; an item
      with no repetitions yields none. */
  lemma ItemTasksCount(item: RunItem)
    ensures |ItemTasks(item)| ==
      if item.repetitions <= 0 then 0
      else item.repetitions * (1 + SubCount(item)) - SkippedSubCount(item)
  {
    if item.repetitions > 0 {
      RepetitionsUpToCount(item, item.repetitions);
    }
  }

  /** The play list of a session is the play lists of its items, in order. */
  lemma {:induction false} FlattenAppend(a: seq<RunItem>, b: seq<RunItem>)
    ensures FlattenItems(a + b) == FlattenItems(a) + FlattenItems(b)
    decreases |b|
  {
    if |b| > 0 {
      var b' := b[..|b| - 1];
      assert (a + b)[..|a + b| - 1] == a + b';
      FlattenAppend(a, b');
    } else {
      assert a + b == a;
    }
  }

  // ---------------------------------------------------------------------
  // The scenario of the test

  const WarmUpWithSub := RunItem("1", "Warm-up", "10:00", "#ffcc00", 2,
    Some([RunSubItem("s1", "My Sub-item", "01:30", "#cccccc", true)]))
  const ActionsItem := RunItem("2", "Actions", "30:00", "#66cc33", 1, None)
  const CooldownItem := RunItem("3", "Cooldown", "10:00", "#3399ff", 1, None)

  /** The default session with a skipped-in-last-repetition sub-item under a
      twice-repeated warm-up plays five tasks: warm-up, sub-item, warm-up,
      actions, cool-down. */
  lemma FiveTasksScenario()
    ensures var ts := FlattenItems([WarmUpWithSub, ActionsItem, CooldownItem]);
      && |ts| == 5
      && ts[0].title == "Warm-up" && ts[0].repetition == 1
      && ts[1].title == "My Sub-item" && ts[1].repetition == 1 && ts[1].color == "#ffcc00"
      && ts[2].title == "Warm-up" && ts[2].repetition == 2
      && ts[3].title == "Actions" && ts[4].title == "Cooldown"
  {
    var w := WarmUpWithSub;
    var first, sub, second := ItemTask(w, 1), SubTask(w, w.subItems.value[0], 1), ItemTask(w, 2);
    WarmUpPlaysThreeTasks();
    var action, cool := ItemTask(ActionsItem, 1), ItemTask(CooldownItem, 1);
    assert ItemTasks(ActionsItem) == [action];
    assert ItemTasks(CooldownItem) == [cool];
    var items := [w, ActionsItem, CooldownItem];
    assert items[..2] == [w, ActionsItem] && items[..2][..1] == [w] && items[..2][..1][..0] == [];
    assert FlattenItems([w]) == [first, sub, second];
    assert FlattenItems([w, ActionsItem]) == [first, sub, second, action];
    assert FlattenItems(items) == [first, sub, second, action, cool];
  }

  /** The warm-up plays itself, its sub-item, then itself again without the
      sub-item. */
  lemma WarmUpPlaysThreeTasks()
    ensures var w := WarmUpWithSub;
      ItemTasks(w) == [ItemTask(w, 1), SubTask(w, w.subItems.value[0], 1), ItemTask(w, 2)]
  {
    var w := WarmUpWithSub;
    var subs := w.subItems.value;
    var first, sub, second := ItemTask(w, 1), SubTask(w, subs[0], 1), ItemTask(w, 2);
    assert subs[..0] == [];
    assert SubTasks(w, subs, 1) == [sub];
    assert SubTasks(w, subs, 2) == [];
    assert RepetitionsUpTo(w, 1) == [first, sub];
  }

  // ---------------------------------------------------------------------
  // Agreement with calculateTotalTime

  /** A sub-item written in the run format, its timer printed by `write`. */
  function RunSubItemWith(write: int -> string, s: SubItem): RunSubItem {
    RunSubItem(s.id, s.description, write(s.timer), s.color, s.omitForLastSet)
  }

  function RunSubItemsWith(write: int -> string, subs: seq<SubItem>): (r: seq<RunSubItem>)
    ensures |r| == |subs|
  {
    if |subs| == 0 then []
    else RunSubItemsWith(write, subs[..|subs| - 1]) + [RunSubItemWith(write, subs[|subs| - 1])]
  }

  /** An item written in the run format: sets become repetitions,
      `omitForLastSet` becomes `disregardInLastRepetition`. */
  function RunItemWith(write: int -> string, w: WorkoutItem): RunItem {
    RunItem(w.id, w.description, write(w.timer), w.color, w.sets, Some(RunSubItemsWith(write, w.subItems)))
  }

  function RunItemsWith(write: int -> string, items: seq<WorkoutItem>): (r: seq<RunItem>)
    ensures |r| == |items|
  {
    if |items| == 0 then []
    else RunItemsWith(write, items[..|items| - 1]) + [RunItemWith(write, items[|items| - 1])]
  }

  /** A session's items in the run format, every timer printed as "mm:ss". */
  function ToRunItems(items: seq<WorkoutItem>): (r: seq<RunItem>)
    ensures |r| == |items|
  {
    RunItemsWith(FormatTime, items)
  }

  /** The seconds a play list lasts when every duration is read by `read`;
      `None` (the sum would be `NaN`) as soon as one duration does not read
      as a number. */
  function PlayedWith(read: string -> Option<int>, ts: seq<Task>): Option<int> {
    if |ts| == 0 then Some(0)
    else
      var before := PlayedWith(read, ts[..|ts| - 1]);
      var last := read(ts[|ts| - 1].duration);
      if before.Some? && last.Some? then Some(before.value + last.value) else None
  }

  /** The seconds a play list lasts, its durations read as "mm:ss". */
  function PlayedSeconds(ts: seq<Task>): Option<int> {
    PlayedWith(ParseTimeToSeconds, ts)
  }

  /** `read` reads back every duration `write` writes. */
  ghost predicate ReadsBack(read: string -> Option<int>, write: int -> string) {
    forall n: int :: n >= 0 ==> read(write(n)) == Some(n)
  }

  lemma ParseReadsFormatted()
    ensures ReadsBack(ParseTimeToSeconds, FormatTime)
  {
    forall n: int | n >= 0
      ensures ParseTimeToSeconds(FormatTime(n)) == Some(n)
    {
      ParseFormatRoundTrip(n);
    }
  }

  lemma {:induction false} PlayedAppend(read: string -> Option<int>, a: seq<Task>, b: seq<Task>, x: int, y: int)
    requires PlayedWith(read, a) == Some(x) && PlayedWith(read, b) == Some(y)
    ensures PlayedWith(read, a + b) == Some(x + y)
    decreases |b|
  {
    if |b| > 0 {
      var b' := b[..|b| - 1];
      assert (a + b)[..|a + b| - 1] == a + b';
      assert (a + b)[|a + b| - 1] == b[|b| - 1];
      PlayedAppend(read, a, b', x, PlayedWith(read, b').value);
    } else {
      assert a + b == a;
    }
  }

  /** `PlayedAppend` with the concatenation and the sum named, so that a
      caller states them as plain equations. */
  lemma PlayedJoin(read: string -> Option<int>, a: seq<Task>, b: seq<Task>, ts: seq<Task>, x: int, y: int, z: int)
    requires PlayedWith(read, a) == Some(x) && PlayedWith(read, b) == Some(y)
    requires ts == a + b && z == x + y
    ensures PlayedWith(read, ts) == Some(z)
  {
    PlayedAppend(read, a, b, x, y);
  }

  lemma PlayedSnoc(read: string -> Option<int>, before: seq<Task>, t: Task, x: int, n: int)
    requires PlayedWith(read, before) == Some(x) && read(t.duration) == Some(n)
    ensures PlayedWith(read, before + [t]) == Some(x + n)
  {
    assert (before + [t])[..|before|] == before;
  }

  lemma {:induction false} SubTasksPlayed(read: string -> Option<int>, write: int -> string, w: WorkoutItem, subs: seq<SubItem>, i: nat)
    requires ReadsBack(read, write) && NonNegativeTimers(subs)
    ensures PlayedWith(read, SubTasks(RunItemWith(write, w), RunSubItemsWith(write, subs), i)) == Some(PlayedSum(subs, i == w.sets))
  {
    var lastSet := i == w.sets;
    if |subs| > 0 {
      var init, last := subs[..|subs| - 1], subs[|subs| - 1];
      var run := RunItemWith(write, w);
      var rs := RunSubItemsWith(write, subs);
      assert rs[..|rs| - 1] == RunSubItemsWith(write, init);
      assert rs[|rs| - 1] == RunSubItemWith(write, last);
      SubTasksPlayed(read, write, w, init, i);
      var before := SubTasks(run, RunSubItemsWith(write, init), i);
      var x := PlayedSum(init, lastSet);
      if !Skipped(run, RunSubItemWith(write, last), i) {
        var t := SubTask(run, RunSubItemWith(write, last), i);
        assert SubTasks(run, rs, i) == before + [t];
        assert read(t.duration) == Some(last.timer);
        assert PlayedSum(subs, lastSet) == x + last.timer;
        PlayedSnoc(read, before, t, x, last.timer);
      } else {
        assert SubTasks(run, rs, i) == before + [] == before;
        assert PlayedSum(subs, lastSet) == x;
      }
    } else {
      assert RunSubItemsWith(write, subs) == [];
    }
  }

  lemma RepetitionPlayed(read: string -> Option<int>, write: int -> string, w: WorkoutItem, i: nat)
    requires ReadsBack(read, write) && w.timer >= 0 && NonNegativeTimers(w.subItems)
    ensures PlayedWith(read, RepetitionTasks(RunItemWith(write, w), i)) == Some(SetTime(w, i == w.sets))
  {
    var run := RunItemWith(write, w);
    var head := ItemTask(run, i);
    var lastSet := i == w.sets;
    var rest := SubTasks(run, RunSubItemsWith(write, w.subItems), i);
    HeadPlayed(read, write, w, i);
    SubTasksPlayed(read, write, w, w.subItems, i);
    PlayedJoin(read, [head], rest, RepetitionTasks(run, i), w.timer, PlayedSum(w.subItems, lastSet), SetTime(w, lastSet));
  }

  lemma HeadPlayed(read: string -> Option<int>, write: int -> string, w: WorkoutItem, i: nat)
    requires ReadsBack(read, write) && w.timer >= 0
    ensures PlayedWith(read, [ItemTask(RunItemWith(write, w), i)]) == Some(w.timer)
  {
    var head := ItemTask(RunItemWith(write, w), i);
    assert read(head.duration) == Some(w.timer);
    PlayedSnoc(read, [], head, 0, w.timer);
    assert [] + [head] == [head];
  }

  lemma {:induction false} RepetitionsPlayed(read: string -> Option<int>, write: int -> string, w: WorkoutItem, n: nat)
    requires ReadsBack(read, write) && w.timer >= 0 && NonNegativeTimers(w.subItems)
    ensures PlayedWith(read, RepetitionsUpTo(RunItemWith(write, w), n)) == Some(SetsTime(w, n))
  {
    if n > 0 {
      RepetitionsPlayed(read, write, w, n - 1);
      RepetitionsStep(read, write, w, n);
    } else {
    }
  }

  lemma RepetitionsStep(read: string -> Option<int>, write: int -> string, w: WorkoutItem, n: nat)
    requires ReadsBack(read, write) && w.timer >= 0 && NonNegativeTimers(w.subItems)
    requires n > 0
    requires PlayedWith(read, RepetitionsUpTo(RunItemWith(write, w), n - 1)) == Some(SetsTime(w, n - 1))
    ensures PlayedWith(read, RepetitionsUpTo(RunItemWith(write, w), n)) == Some(SetsTime(w, n))
  {
    var run := RunItemWith(write, w);
    RepetitionPlayed(read, write, w, n);
    PlayedJoin(read, RepetitionsUpTo(run, n - 1), RepetitionTasks(run, n), RepetitionsUpTo(run, n),
      SetsTime(w, n - 1), SetTime(w, n == w.sets), SetsTime(w, n));
  }

  predicate Playable(w: WorkoutItem) {
    w.timer >= 0 && w.sets >= 0 && NonNegativeTimers(w.subItems)
  }

  lemma ItemPlayedIsItemTime(read: string -> Option<int>, write: int -> string, w: WorkoutItem)
    requires ReadsBack(read, write) && Playable(w)
    ensures PlayedWith(read, ItemTasks(RunItemWith(write, w))) == Some(ItemTime(w))
  {
    ItemTimeBySets(w);
    if w.sets > 0 {
      RepetitionsPlayed(read, write, w, w.sets);
    }
  }

  lemma {:induction false} PlayedWithIsTotalTime(read: string -> Option<int>, write: int -> string, items: seq<WorkoutItem>)
    requires ReadsBack(read, write)
    requires forall i :: 0 <= i < |items| ==> Playable(items[i])
    ensures PlayedWith(read, FlattenItems(RunItemsWith(write, items))) == Some(CalculateTotalTime(items))
  {
    if |items| > 0 {
      var init, last := items[..|items| - 1], items[|items| - 1];
      var runs := RunItemsWith(write, items);
      assert runs[..|runs| - 1] == RunItemsWith(write, init);
      assert runs[|runs| - 1] == RunItemWith(write, last);
      PlayedWithIsTotalTime(read, write, init);
      ItemPlayedIsItemTime(read, write, last);
      var before, now := FlattenItems(RunItemsWith(write, init)), ItemTasks(RunItemWith(write, last));
      assert FlattenItems(runs) == before + now;
      PlayedJoin(read, before, now, FlattenItems(runs), CalculateTotalTime(init), ItemTime(last), CalculateTotalTime(items));
    } else {
      assert FlattenItems(RunItemsWith(write, items)) == [];
    }
  }

  /** Playing a whole session, stored in the run format, takes exactly
      `calculateTotalTime` of its items, when no timer or set count is
      negative. */
  lemma PlayedIsTotalTime(items: seq<WorkoutItem>)
    requires forall i :: 0 <= i < |items| ==> Playable(items[i])
    ensures PlayedSeconds(FlattenItems(ToRunItems(items))) == Some(CalculateTotalTime(items))
  {
    ParseReadsFormatted();
    PlayedWithIsTotalTime(ParseTimeToSeconds, FormatTime, items);
  }
}

=== FILE: id_list.dfy ===
/** The array idioms the forms and the store apply to lists of records that
    carry a string id: `findIndex`, `find`, a `map` that replaces matches, a
    `filter` that drops them, the upsert of `saveWorkoutSession`, the
    neighbour swap of the move buttons and the `splice` that inserts a copy.
    `key` reads a record's id. */
module IdList {
  import opened Wrappers

  /** `findIndex(x => key(x) === id)`: the first position whose id matches,
      or -1 when none does. */
  function FindIndex<T>(s: seq<T>, key: T -> string, id: string): (r: int)
    ensures -1 <= r < |s|
    ensures r >= 0 ==> key(s[r]) == id
    ensures forall j :: 0 <= j < |s| && (r == -1 || j < r) ==> key(s[j]) != id
  {
    if |s| == 0 then -1
    else if key(s[0]) == id then 0
    else
      var r := FindIndex(s[1..], key, id);
      assert forall j :: 1 <= j < |s| ==> s[1..][j - 1] == s[j];
      if r == -1 then -1 else r + 1
  }

  /** Position `i` holds the first record with the id. */
  predicate FirstAt<T>(s: seq<T>, key: T -> string, id: string, i: int) {
    0 <= i < |s| && key(s[i]) == id && forall k :: 0 <= k < i ==> key(s[k]) != id
  }

  /** The first match is unique, so `FindIndex` finds it. */
  lemma FindIndexIsFirst<T>(s: seq<T>, key: T -> string, id: string, i: int)
    requires FirstAt(s, key, id, i)
    ensures FindIndex(s, key, id) == i
  {
  }

  /** Some record of `s` has the id. */
  predicate Contains<T>(s: seq<T>, key: T -> string, id: string) {
    exists j :: 0 <= j < |s| && key(s[j]) == id
  }

  /** `find(x => key(x) === id)`: the first record whose id matches. */
  function Find<T>(s: seq<T>, key: T -> string, id: string): (r: Option<T>)
    ensures r.None? <==> !Contains(s, key, id)
    ensures r.Some? ==> key(r.value) == id
    ensures r.Some? ==> exists j :: 0 <= j < |s| && s[j] == r.value && FirstAt(s, key, id, j)
  {
    var i := FindIndex(s, key, id);
    if i == -1 then None else Some(s[i])
  }

  /** `map(x => key(x) === id ? y : x)`. */
  function ReplaceWhere<T>(s: seq<T>, key: T -> string, id: string, y: T): (r: seq<T>)
    ensures |r| == |s|
    ensures forall i :: 0 <= i < |s| ==> r[i] == (if key(s[i]) == id then y else s[i])
  {
    if |s| == 0 then []
    else [if key(s[0]) == id then y else s[0]] + ReplaceWhere(s[1..], key, id, y)
  }

  /** After replacing the records with an id by `y`, which has that id,
      looking the id up finds `y` whenever it was there, and every record
      with another id is where it was. */
  lemma ReplaceThenFind<T>(s: seq<T>, key: T -> string, id: string, y: T, other: string)
    requires key(y) == id && other != id
    ensures Contains(s, key, id) ==> Find(ReplaceWhere(s, key, id, y), key, id) == Some(y)
    ensures Find(ReplaceWhere(s, key, id, y), key, other) == Find(s, key, other)
  {
    var r := ReplaceWhere(s, key, id, y);
    assert forall j :: 0 <= j < |s| ==> (key(r[j]) == other <==> key(s[j]) == other);
    var i := FindIndex(s, key, other);
    if i >= 0 {
      assert FirstAt(r, key, other, i);
      FindIndexIsFirst(r, key, other, i);
    } else {
      assert !Contains(r, key, other);
    }
    if Contains(s, key, id) {
      var k := FindIndex(s, key, id);
      assert FirstAt(r, key, id, k);
      FindIndexIsFirst(r, key, id, k);
    }
  }

  /** `filter(x => key(x) !== id)`. */
  function RemoveWhere<T>(s: seq<T>, key: T -> string, id: string): (r: seq<T>)
    ensures |r| <= |s|
    ensures !Contains(r, key, id)
  {
    if |s| == 0 then []
    else
      var rest := RemoveWhere(s[1..], key, id);
      if key(s[0]) == id then rest else [s[0]] + rest
  }

  /** The records `RemoveWhere` drops, in order. */
  function Matching<T>(s: seq<T>, key: T -> string, id: string): (r: seq<T>)
    ensures forall i :: 0 <= i < |r| ==> key(r[i]) == id
  {
    if |s| == 0 then []
    else
      var rest := Matching(s[1..], key, id);
      if key(s[0]) == id then [s[0]] + rest else rest
  }

  /** Filtering distributes over concatenation, so the records kept stay in
      their original order. */
  lemma {:induction false} RemoveAppend<T>(a: seq<T>, b: seq<T>, key: T -> string, id: string)
    ensures RemoveWhere(a + b, key, id) == RemoveWhere(a, key, id) + RemoveWhere(b, key, id)
  {
    if |a| > 0 {
      assert (a + b)[1..] == a[1..] + b;
      RemoveAppend(a[1..], b, key, id);
    } else {
      assert a + b == b;
    }
  }

  /** Every record is either kept or dropped: the two together are a
      rearrangement of the list, and the kept ones are exactly those whose
      id differs. */
  lemma {:induction false} RemovePartition<T>(s: seq<T>, key: T -> string, id: string)
    ensures multiset(RemoveWhere(s, key, id)) + multiset(Matching(s, key, id)) == multiset(s)
    ensures forall x :: x in s && key(x) != id <==> x in RemoveWhere(s, key, id)
  {
    if |s| > 0 {
      RemovePartition(s[1..], key, id);
      assert s == [s[0]] + s[1..];
      assert multiset(s) == multiset([s[0]]) + multiset(s[1..]);
    }
  }

  /** Removing an id that no record has changes nothing. */
  lemma {:induction false} RemoveAbsent<T>(s: seq<T>, key: T -> string, id: string)
    requires !Contains(s, key, id)
    ensures RemoveWhere(s, key, id) == s
  {
    if |s| > 0 {
      assert !Contains(s[1..], key, id) by {
        forall j | 0 <= j < |s[1..]| ensures key(s[1..][j]) != id {
          assert s[1..][j] == s[j + 1];
        }
      }
      RemoveAbsent(s[1..], key, id);
      assert s == [s[0]] + s[1..];
    }
  }

  /** `saveWorkoutSession`'s list step: the first record with `y`'s id is
      overwritten in place; without one, `y` is appended. */
  function Upsert<T>(s: seq<T>, key: T -> string, y: T): (r: seq<T>)
    ensures Contains(s, key, key(y)) ==> |r| == |s|
    ensures !Contains(s, key, key(y)) ==> r == s + [y]
    ensures Find(r, key, key(y)) == Some(y)
  {
    var i := FindIndex(s, key, key(y));
    if i > -1 then
      var r := s[i := y];
      assert FirstAt(r, key, key(y), i) by {
        assert forall j :: 0 <= j < i ==> r[j] == s[j];
      }
      FindIndexIsFirst(r, key, key(y), i);
      r
    else
      var r := s + [y];
      assert FirstAt(r, key, key(y), |s|) by {
        assert forall j :: 0 <= j < |s| ==> r[j] == s[j];
      }
      FindIndexIsFirst(r, key, key(y), |s|);
      r
  }

  /** Upserting a record whose id is present overwrites the position of its
      first occurrence and nothing else. */
  lemma UpsertReplaces<T>(s: seq<T>, key: T -> string, y: T, i: int)
    requires i == FindIndex(s, key, key(y)) && i >= 0
    ensures Upsert(s, key, y) == s[i := y]
  {
  }

  /** Upserting the same record twice leaves what upserting it once left. */
  lemma UpsertIdempotent<T>(s: seq<T>, key: T -> string, y: T)
    ensures Upsert(Upsert(s, key, y), key, y) == Upsert(s, key, y)
  {
    var r := Upsert(s, key, y);
    var i := FindIndex(r, key, key(y));
    assert i >= 0 && r[i] == y;
    assert r[i := y] == r;
  }

  /** Upserting leaves every other id's first record where it was. */
  lemma UpsertKeepsOthers<T>(s: seq<T>, key: T -> string, y: T, id: string)
    requires id != key(y)
    ensures Find(Upsert(s, key, y), key, id) == Find(s, key, id)
  {
    var r := Upsert(s, key, y);
    var i := FindIndex(s, key, id);
    if Contains(s, key, key(y)) {
      var k := FindIndex(s, key, key(y));
      assert r == s[k := y];
      assert forall j :: 0 <= j < |s| ==> (key(r[j]) == id <==> key(s[j]) == id);
      assert FindIndex(r, key, id) == i;
    } else {
      assert r == s + [y];
      assert forall j :: 0 <= j < |s| ==> r[j] == s[j];
      assert FindIndex(r, key, id) == i;
    }
  }

  /** No two records share an id. */
  predicate UniqueIds<T>(s: seq<T>, key: T -> string) {
    forall i, j :: 0 <= i < j < |s| ==> key(s[i]) != key(s[j])
  }

  /** Position `k` is the only one that holds the id. */
  predicate OnlyAt<T>(s: seq<T>, key: T -> string, id: string, k: int) {
    0 <= k < |s| && forall j :: 0 <= j < |s| ==> (key(s[j]) == id <==> j == k)
  }

  /** Where one position holds the id, replacing by id touches only it. */
  lemma ReplaceWhereOnly<T>(s: seq<T>, key: T -> string, id: string, y: T, k: int)
    requires OnlyAt(s, key, id, k)
    ensures ReplaceWhere(s, key, id, y) == s[k := y]
  {
  }

  /** With unique ids, the position of an id is the only one holding it. */
  lemma UniqueIsOnlyAt<T>(s: seq<T>, key: T -> string, k: int)
    requires UniqueIds(s, key) && 0 <= k < |s|
    ensures OnlyAt(s, key, key(s[k]), k)
  {
  }

  /** Where ids are unique, overwriting the first match is overwriting every
      match. */
  lemma UpsertIsReplaceWhenUnique<T>(s: seq<T>, key: T -> string, y: T)
    requires UniqueIds(s, key) && Contains(s, key, key(y))
    ensures Upsert(s, key, y) == ReplaceWhere(s, key, key(y), y)
  {
    var i := FindIndex(s, key, key(y));
    var r, q := Upsert(s, key, y), ReplaceWhere(s, key, key(y), y);
    assert r == s[i := y];
    assert forall j :: 0 <= j < |s| && j != i ==> key(s[j]) != key(s[i]);
  }

  /** Exchanges two positions. */
  function Swap<T>(s: seq<T>, i: nat, j: nat): (r: seq<T>)
    requires i < |s| && j < |s|
    ensures |r| == |s| && r[i] == s[j] && r[j] == s[i]
    ensures forall k :: 0 <= k < |s| && k != i && k != j ==> r[k] == s[k]
    ensures multiset(r) == multiset(s)
  {
    s[i := s[j]][j := s[i]]
  }

  /** `handleMoveItem(id, up ? 'up' : 'down')`: the first record with the id
      changes places with its neighbour above or below. An unknown id, the
      first record moving up and the last moving down leave the list as it
      is. */
  function Move<T>(s: seq<T>, key: T -> string, id: string, up: bool): (r: seq<T>)
    ensures |r| == |s| && multiset(r) == multiset(s)
    ensures !Contains(s, key, id) ==> r == s
  {
    var i := FindIndex(s, key, id);
    if i == -1 then s
    else
      var j := if up then i - 1 else i + 1;
      if j < 0 || j >= |s| then s else Swap(s, i, j)
  }

  /** Where a move happens, the record with the id and its neighbour trade
      places and every other position keeps its record; at either end the
      list is unchanged. */
  lemma MoveEffect<T>(s: seq<T>, key: T -> string, id: string, up: bool, i: int)
    requires i == FindIndex(s, key, id) && i >= 0
    ensures up && i == 0 ==> Move(s, key, id, up) == s
    ensures !up && i == |s| - 1 ==> Move(s, key, id, up) == s
    ensures up && i > 0 ==> Move(s, key, id, up) == Swap(s, i, i - 1)
    ensures !up && i < |s| - 1 ==> Move(s, key, id, up) == Swap(s, i, i + 1)
  {
  }

  /** Moving a record that is not first up and then down again restores the
      list. */
  lemma MoveUpThenDown<T>(s: seq<T>, key: T -> string, id: string)
    requires FindIndex(s, key, id) > 0
    ensures Move(Move(s, key, id, true), key, id, false) == s
  {
    var i := FindIndex(s, key, id);
    var r := Swap(s, i, i - 1);
    assert Move(s, key, id, true) == r;
    assert FirstAt(r, key, id, i - 1) by {
      forall j | 0 <= j < i - 1 ensures key(r[j]) != id {
        assert r[j] == s[j];
      }
    }
    FindIndexIsFirst(r, key, id, i - 1);
    assert Move(r, key, id, false) == Swap(r, i - 1, i);
    assert Swap(r, i - 1, i) == s;
  }

  /** `splice(k, 0, y)`: `y` enters at position `k`. */
  function InsertAt<T>(s: seq<T>, k: nat, y: T): (r: seq<T>)
    requires k <= |s|
    ensures |r| == |s| + 1 && r[k] == y
    ensures r[..k] == s[..k] && r[k + 1..] == s[k..]
    ensures multiset(r) == multiset(s) + multiset{y}
  {
    assert s == s[..k] + s[k..];
    s[..k] + [y] + s[k..]
  }

  /** The copy step of `handleItemDuplicate`: `y` goes right after the first
      record with id `id`, or at the end when there is none. */
  function InsertAfter<T>(s: seq<T>, key: T -> string, id: string, y: T): (r: seq<T>)
    ensures |r| == |s| + 1 && multiset(r) == multiset(s) + multiset{y}
    ensures !Contains(s, key, id) ==> r == s + [y]
  {
    var i := FindIndex(s, key, id);
    if i != -1 then InsertAt(s, i + 1, y) else InsertAt(s, |s|, y)
  }

  /** After an insertion behind the first record with the id, that record
      is followed by the copy and the records around them are untouched. */
  lemma InsertAfterEffect<T>(s: seq<T>, key: T -> string, id: string, y: T, i: int)
    requires i == FindIndex(s, key, id) && i >= 0
    ensures InsertAfter(s, key, id, y)[..i + 1] == s[..i + 1]
    ensures InsertAfter(s, key, id, y)[i + 1] == y
    ensures InsertAfter(s, key, id, y)[i + 2..] == s[i + 1..]
  {
  }
}

=== FILE: item_form.dfy ===
/** The editing handlers of `WorkoutItemForm.tsx` and `SubItemForm.tsx`, as
    functions from the record before an edit to the record the form passes
    to `onUpdate`. What `parseFloat` makes of a typed number is an input
    (`None` for `NaN`); the current time used in a new sub-item's id is an
    input too. */
module ItemForm {
  import opened Wrappers
  import opened Decimal
  import opened JsNumber
  import opened TimeCodec
  import opened Types
  import opened Colors
  import opened IdList

  // ---------------------------------------------------------------------
  // Field edits

  /** One `onChange` of an item's input, named by the field it targets. A
      typed number arrives as what `parseFloat` made of it. */
  datatype ItemEdit =
    | ChooseType(t: ItemType)
    | TypeDescription(text: string)
    | TypeSpeed(speed: Option<real>)
    | TypeIncline(incline: Option<real>)
    | TypeSets(sets: Option<int>)
    | PickColor(color: string)

  /** The field an edit writes. */
  datatype ItemField = TypeField | DescriptionField | SpeedField | InclineField | SetsField | ColorField

  function ItemFieldOf(e: ItemEdit): ItemField {
    match e
    case ChooseType(_) => TypeField
    case TypeDescription(_) => DescriptionField
    case TypeSpeed(_) => SpeedField
    case TypeIncline(_) => InclineField
    case TypeSets(_) => SetsField
    case PickColor(_) => ColorField
  }

  /** Whether `item` shows `e`'s value in `e`'s field; a non-numeric number
      shows as 0, and a chosen type also shows the colour `paint` gives it. */
  predicate ShowsItemEdit(item: WorkoutItem, e: ItemEdit, paint: ItemType -> string) {
    match e
    case ChooseType(t) => item.itemType == t && item.color == paint(t)
    case TypeDescription(text) => item.description == text
    case TypeSpeed(v) => item.speed == v.GetOr(0.0)
    case TypeIncline(v) => item.incline == v.GetOr(0.0)
    case TypeSets(v) => item.sets == v.GetOr(0)
    case PickColor(c) => item.color == c
  }

  /** `r` differs from `item` at most in the field `e` writes, and in the
      colour when `e` chooses a type. */
  predicate KeepsOtherFields(item: WorkoutItem, r: WorkoutItem, e: ItemEdit) {
    && r.id == item.id && r.timer == item.timer && r.subItems == item.subItems
    && (ItemFieldOf(e) != TypeField ==> r.itemType == item.itemType)
    && (ItemFieldOf(e) != DescriptionField ==> r.description == item.description)
    && (ItemFieldOf(e) != SpeedField ==> r.speed == item.speed)
    && (ItemFieldOf(e) != InclineField ==> r.incline == item.incline)
    && (ItemFieldOf(e) != SetsField ==> r.sets == item.sets)
    && (ItemFieldOf(e) !in {TypeField, ColorField} ==> r.color == item.color)
  }

  /** One field edit, a newly chosen type being painted by `paint`. */
  function EditItem(item: WorkoutItem, e: ItemEdit, paint: ItemType -> string): WorkoutItem {
    match e
    case ChooseType(t) => item.(itemType := t, color := paint(t))
    case TypeDescription(text) => item.(description := text)
    case TypeSpeed(v) => item.(speed := OrZeroReal(v))
    case TypeIncline(v) => item.(incline := OrZeroReal(v))
    case TypeSets(v) => item.(sets := OrZero(v))
    case PickColor(c) => item.(color := c)
  }

  /** `handleChange` and the colour picker's `onSelect`, as written: the
      named field takes the new value (`parseFloat(value) || 0` for a
      number), and a newly chosen type resets the colour to
      `COLOR_PALETTES[type][0] || '#FFFFFF'`, which is white for "Action"
      because the table has no such key. The id, the timer and the
      sub-items are never touched. */
  function HandleChange(item: WorkoutItem, e: ItemEdit): (r: WorkoutItem)
    ensures ShowsItemEdit(r, e, FirstColorAsWritten)
    ensures KeepsOtherFields(item, r, e)
  {
    EditItem(item, e, FirstColorAsWritten)
  }

  /** `handleChange` with the palette looked up under the type itself, so
      that a chosen type is painted with its own first colour. It agrees
      with the handler as written on every edit but choosing "Action". */
  function HandleChangeCorrected(item: WorkoutItem, e: ItemEdit): (r: WorkoutItem)
    ensures ShowsItemEdit(r, e, FirstColor)
    ensures KeepsOtherFields(item, r, e)
    ensures e.ChooseType? ==> r.color != "#FFFFFF"
    ensures !(e.ChooseType? && e.t == Action) ==> r == HandleChange(item, e)
  {
    if e.ChooseType? then
      AsWrittenDiffersOnlyForAction(e.t);
      EditItem(item, e, FirstColor)
    else
      EditItem(item, e, FirstColor)
  }

  /** Edits of different fields do not interfere: either order gives the
      same item, except that choosing a type and picking a colour both write
      the colour. Repeating an edit changes nothing more. */
  lemma ItemEditsCommute(item: WorkoutItem, a: ItemEdit, b: ItemEdit)
    requires ItemFieldOf(a) != ItemFieldOf(b)
    requires {ItemFieldOf(a), ItemFieldOf(b)} != {TypeField, ColorField}
    ensures HandleChange(HandleChange(item, a), b) == HandleChange(HandleChange(item, b), a)
    ensures HandleChange(HandleChange(item, a), a) == HandleChange(item, a)
  {
    var ab, ba := HandleChange(HandleChange(item, a), b), HandleChange(HandleChange(item, b), a);
    assert ShowsItemEdit(ab, b, FirstColorAsWritten) && ShowsItemEdit(ba, a, FirstColorAsWritten);
  }

  /** As written, choosing "Action" paints the item white; choosing either
      other type paints it with the first colour of its palette. */
  lemma ChosenTypeAsWritten(item: WorkoutItem, t: ItemType)
    ensures t == Action ==> HandleChange(item, ChooseType(t)).color == "#FFFFFF"
    ensures t != Action ==> HandleChange(item, ChooseType(t)).color == Palette(t)[0]
  {
    AsWrittenDiffersOnlyForAction(t);
  }

  /** With the colour table keyed by type, choosing a type paints the item
      with the first colour of its palette and never white. */
  lemma ChosenTypeIsPainted(item: WorkoutItem, t: ItemType)
    ensures HandleChangeCorrected(item, ChooseType(t)).color == Palette(t)[0]
    ensures HandleChangeCorrected(item, ChooseType(t)).color != "#FFFFFF"
  {
  }

  // ---------------------------------------------------------------------
  // Duration

  /** `Math.max(0, timer + amount)`, the ▲/▼ buttons' step. */
  function AdjustTimer(timer: int, amount: int): (r: int)
    ensures r >= 0
    ensures r >= timer + amount
    ensures r == 0 || r == timer + amount
  {
    if timer + amount > 0 then timer + amount else 0
  }

  /** The ▲ and ▼ buttons step by 30 seconds. */
  const DurationStep: int := 30

  /** A step down that does not hit 0 is undone by a step up, and a step up
      from a non-negative timer is undone by a step down. */
  lemma AdjustTimerInverse(timer: int)
    ensures timer >= DurationStep ==> AdjustTimer(AdjustTimer(timer, -DurationStep), DurationStep) == timer
    ensures timer >= 0 ==> AdjustTimer(AdjustTimer(timer, DurationStep), -DurationStep) == timer
    ensures 0 <= timer < DurationStep ==> AdjustTimer(timer, -DurationStep) == 0
  {
  }

  /** `handleDurationChange(amount)` of an item. */
  function HandleDurationChange(item: WorkoutItem, amount: int): (r: WorkoutItem)
    ensures r.timer == AdjustTimer(item.timer, amount)
    ensures r.(timer := item.timer) == item
  {
    item.(timer := AdjustTimer(item.timer, amount))
  }

  /** `handleTimeChange` of an item: the typed "m:s" text becomes the timer;
      text whose minutes part is not a number makes the timer `NaN`, which is
      `None` here. */
  function HandleTimeChange(item: WorkoutItem, text: string): (r: Option<WorkoutItem>)
    ensures r.Some? ==> r.value.(timer := item.timer) == item
    ensures DigitClock(text) ==> r == Some(item.(timer := ClockValue(text)))
  {
    match ParseEditedTime(text)
    case None => None
    case Some(v) => Some(item.(timer := v))
  }

  /** Re-entering the duration an item displays leaves the item unchanged. */
  lemma DisplayedTimeReadsBack(item: WorkoutItem)
    requires item.timer >= 0
    ensures HandleTimeChange(item, FormatTime(item.timer)) == Some(item)
  {
    EditedFormatRoundTrip(item.timer);
  }

  // ---------------------------------------------------------------------
  // Sub-items of an item

  /** The id a sub-item is found by. */
  function SubId(s: SubItem): string {
    s.id
  }

  /** The text of `new Date().getTime()`. */
  function TimeText(now: int): string {
    IntToString(now)
  }

  /** The sub-item `handleAddSubItem` creates at time `now`, coloured
      `palette[1] || palette[0] || '#888888'` from the table as written, so
      grey under an "Action" item. */
  function NewSubItem(item: WorkoutItem, now: int): (s: SubItem)
    ensures s.timer == 30 && !s.omitForLastSet && s.speed == 0.0 && s.incline == 0.0
    ensures s.description == "New Sub-Item"
    ensures item.itemType == Action ==> s.color == "#888888"
    ensures item.itemType != Action ==> s.color == Palette(item.itemType)[1]
    ensures s.id == "sub-" + item.id + "-" + TimeText(now)
  {
    AsWrittenDiffersOnlyForAction(item.itemType);
    SubItem("sub-" + item.id + "-" + TimeText(now), "New Sub-Item", 0.0, 0.0, 30,
            SubItemColorAsWritten(item.itemType), false)
  }

  /** The new sub-item with the palette looked up under the item's type:
      the second colour of its palette, and otherwise the sub-item as
      written. */
  function NewSubItemCorrected(item: WorkoutItem, now: int): (s: SubItem)
    ensures s.color == Palette(item.itemType)[1] && s.color in Palette(item.itemType)
    ensures s.(color := NewSubItem(item, now).color) == NewSubItem(item, now)
    ensures item.itemType != Action ==> s == NewSubItem(item, now)
  {
    AsWrittenDiffersOnlyForAction(item.itemType);
    NewSubItem(item, now).(color := SubItemColor(item.itemType))
  }

  /** `handleAddSubItem`: one new sub-item at the end; everything else is
      kept. */
  function HandleAddSubItem(item: WorkoutItem, now: int): (r: WorkoutItem)
    ensures |r.subItems| == |item.subItems| + 1
    ensures r.subItems[..|item.subItems|] == item.subItems
    ensures r.subItems[|item.subItems|] == NewSubItem(item, now)
    ensures r.(subItems := item.subItems) == item
  {
    var subItems := item.subItems + [NewSubItem(item, now)];
    assert subItems[..|item.subItems|] == item.subItems;
    item.(subItems := subItems)
  }

  /** `handleUpdateSubItem`: every sub-item with the updated one's id is
      replaced by it. */
  function HandleUpdateSubItem(item: WorkoutItem, updated: SubItem): (r: WorkoutItem)
    ensures |r.subItems| == |item.subItems|
    ensures forall i :: 0 <= i < |item.subItems| && item.subItems[i].id != updated.id
              ==> r.subItems[i] == item.subItems[i]
    ensures forall i :: 0 <= i < |item.subItems| && item.subItems[i].id == updated.id
              ==> r.subItems[i] == updated
    ensures r.(subItems := item.subItems) == item
  {
    item.(subItems := ReplaceWhere(item.subItems, SubId, updated.id, updated))
  }

  /** `handleDeleteSubItem`: the sub-items with the id are gone; the others
      stay, in order. */
  function HandleDeleteSubItem(item: WorkoutItem, id: string): (r: WorkoutItem)
    ensures forall i :: 0 <= i < |r.subItems| ==> r.subItems[i].id != id
    ensures forall s :: s in item.subItems && s.id != id <==> s in r.subItems
    ensures r.subItems == RemoveWhere(item.subItems, SubId, id)
    ensures r.(subItems := item.subItems) == item
  {
    var subs := RemoveWhere(item.subItems, SubId, id);
    assert forall i :: 0 <= i < |subs| ==> SubId(subs[i]) != id;
    RemovePartition(item.subItems, SubId, id);
    item.(subItems := subs)
  }

  /** A sub-item just added is deleted again by its id, provided no older
      sub-item shares that id. */
  lemma AddThenDeleteSubItem(item: WorkoutItem, now: int)
    requires forall i :: 0 <= i < |item.subItems| ==> item.subItems[i].id != NewSubItem(item, now).id
    ensures HandleDeleteSubItem(HandleAddSubItem(item, now), NewSubItem(item, now).id) == item
  {
    var s := NewSubItem(item, now);
    assert !Contains(item.subItems, SubId, s.id);
    RemoveAppend(item.subItems, [s], SubId, s.id);
    RemoveAbsent(item.subItems, SubId, s.id);
    assert RemoveWhere([s], SubId, s.id) == [];
  }

  // ---------------------------------------------------------------------
  // The sub-item form

  /** One `onChange` of a sub-item's input. */
  datatype SubEdit =
    | TypeSubDescription(text: string)
    | TypeSubSpeed(speed: Option<real>)
    | TypeSubIncline(incline: Option<real>)
    | CheckOmit(checked: bool)
    | PickSubColor(color: string)

  /** The field a sub-item edit writes. */
  datatype SubField = SubDescriptionField | SubSpeedField | SubInclineField | OmitField | SubColorField

  function SubFieldOf(e: SubEdit): SubField {
    match e
    case TypeSubDescription(_) => SubDescriptionField
    case TypeSubSpeed(_) => SubSpeedField
    case TypeSubIncline(_) => SubInclineField
    case CheckOmit(_) => OmitField
    case PickSubColor(_) => SubColorField
  }

  /** Whether `sub` shows `e`'s value in `e`'s field; a non-numeric number
      shows as 0. */
  predicate ShowsSubEdit(sub: SubItem, e: SubEdit) {
    match e
    case TypeSubDescription(text) => sub.description == text
    case TypeSubSpeed(v) => sub.speed == v.GetOr(0.0)
    case TypeSubIncline(v) => sub.incline == v.GetOr(0.0)
    case CheckOmit(c) => sub.omitForLastSet == c
    case PickSubColor(c) => sub.color == c
  }

  /** `SubItemForm`'s `handleChange`: a checkbox stores its `checked` state, a
      number field `parseFloat(value) || 0`, a text field its text. Only the
      named field changes. */
  function HandleSubChange(sub: SubItem, e: SubEdit): (r: SubItem)
    ensures ShowsSubEdit(r, e)
    ensures r.id == sub.id && r.timer == sub.timer
    ensures SubFieldOf(e) != SubDescriptionField ==> r.description == sub.description
    ensures SubFieldOf(e) != SubSpeedField ==> r.speed == sub.speed
    ensures SubFieldOf(e) != SubInclineField ==> r.incline == sub.incline
    ensures SubFieldOf(e) != OmitField ==> r.omitForLastSet == sub.omitForLastSet
    ensures SubFieldOf(e) != SubColorField ==> r.color == sub.color
  {
    match e
    case TypeSubDescription(text) => sub.(description := text)
    case TypeSubSpeed(v) => sub.(speed := OrZeroReal(v))
    case TypeSubIncline(v) => sub.(incline := OrZeroReal(v))
    case CheckOmit(c) => sub.(omitForLastSet := c)
    case PickSubColor(c) => sub.(color := c)
  }

  /** Edits of different fields of a sub-item commute, and repeating an
      edit changes nothing more. */
  lemma SubEditsCommute(sub: SubItem, a: SubEdit, b: SubEdit)
    requires SubFieldOf(a) != SubFieldOf(b)
    ensures HandleSubChange(HandleSubChange(sub, a), b) == HandleSubChange(HandleSubChange(sub, b), a)
    ensures HandleSubChange(HandleSubChange(sub, a), a) == HandleSubChange(sub, a)
  {
    var ab, ba := HandleSubChange(HandleSubChange(sub, a), b), HandleSubChange(HandleSubChange(sub, b), a);
    assert ShowsSubEdit(ab, b) && ShowsSubEdit(ba, a);
  }

  /** Ticking and then clearing the "omit last" box restores a sub-item that
      was not marked. */
  lemma OmitToggleRestores(sub: SubItem)
    requires !sub.omitForLastSet
    ensures HandleSubChange(HandleSubChange(sub, CheckOmit(true)), CheckOmit(false)) == sub
    ensures HandleSubChange(sub, CheckOmit(true)).omitForLastSet
  {
  }

  /** `handleDurationChange(amount)` of a sub-item. */
  function HandleSubDurationChange(sub: SubItem, amount: int): (r: SubItem)
    ensures r.timer == AdjustTimer(sub.timer, amount)
    ensures r.(timer := sub.timer) == sub
  {
    sub.(timer := AdjustTimer(sub.timer, amount))
  }

  /** `handleTimeChange` of a sub-item, with `NaN` as `None`. */
  function HandleSubTimeChange(sub: SubItem, text: string): (r: Option<SubItem>)
    ensures r.Some? ==> r.value.(timer := sub.timer) == sub
    ensures DigitClock(text) ==> r == Some(sub.(timer := ClockValue(text)))
  {
    match ParseEditedTime(text)
    case None => None
    case Some(v) => Some(sub.(timer := v))
  }

  /** Re-entering the duration a sub-item displays leaves it unchanged. */
  lemma DisplayedSubTimeReadsBack(sub: SubItem)
    requires sub.timer >= 0
    ensures HandleSubTimeChange(sub, FormatTime(sub.timer)) == Some(sub)
  {
    EditedFormatRoundTrip(sub.timer);
  }
}

=== FILE: js_number.dfy ===
/** JavaScript's string-to-number conversions on the integer inputs the
    forms accept. `None` stands for `NaN`. */
module JsNumber {
  import opened Wrappers
  import opened Decimal
  import opened JsString

  /** `Number(s)`: surrounding white space is ignored, a blank string is 0,
      an optionally signed run of decimal digits is its value, and anything
      else is `NaN`. */
  function Number(s: string): (r: Option<int>)
    ensures |Trim(s)| == 0 ==> r == Some(0)
    ensures AllDigits(s) && |s| >= 1 ==> r == Some(Value(s))
  {
    NumberOfDigits(s);
    var t := Trim(s);
    if |t| == 0 then Some(0)
    else if AllDigits(t) then Some(Value(t))
    else if |t| >= 2 && t[0] == '-' && AllDigits(t[1..]) then Some(-(Value(t[1..]) as int))
    else if |t| >= 2 && t[0] == '+' && AllDigits(t[1..]) then Some(Value(t[1..]))
    else None
  }

  /** `Number` reads a non-empty digit string as its decimal value. */
  lemma NumberOfDigits(s: string)
    ensures AllDigits(s) && |s| >= 1 ==> Trim(s) == s
  {
    if AllDigits(s) && |s| >= 1 {
      TrimNoSpace(s);
    }
  }

  /** The longest leading run of decimal digits. */
  function DigitPrefix(s: string): (d: string)
    ensures |d| <= |s|
  {
    if |s| > 0 && IsDigit(s[0]) then [s[0]] + DigitPrefix(s[1..]) else []
  }

  /** `DigitPrefix` is a prefix made of digits that stops at the first
      non-digit. */
  lemma {:induction false} DigitPrefixSpec(s: string)
    ensures var d := DigitPrefix(s);
      && d == s[..|d|] && AllDigits(d)
      && (|d| < |s| ==> !IsDigit(s[|d|]))
  {
    if |s| > 0 && IsDigit(s[0]) {
      DigitPrefixSpec(s[1..]);
      var rest := DigitPrefix(s[1..]);
      assert [s[0]] + rest == s[..|rest| + 1];
    }
  }

  /** `t` without its leading sign, if it has one. */
  function Unsigned(t: string): (r: string)
    ensures |r| <= |t|
  {
    if |t| > 0 && (t[0] == '-' || t[0] == '+') then t[1..] else t
  }

  /** `parseInt(s, 10)`: leading white space and one sign are skipped, then
      the longest run of digits is read; no digits at all is `NaN`. */
  function ParseInt(s: string): (r: Option<int>)
    ensures AllDigits(s) && |s| >= 1 ==> r == Some(Value(s))
  {
    ParseIntOfDigits(s);
    var t := TrimStart(s);
    var u := Unsigned(t);
    DigitPrefixSpec(u);
    var d := DigitPrefix(u);
    if |d| == 0 then None
    else if |t| > 0 && t[0] == '-' then Some(-(Value(d) as int))
    else Some(Value(d))
  }

  /** `parseInt` reads a non-empty digit string as its decimal value. */
  lemma ParseIntOfDigits(s: string)
    ensures AllDigits(s) && |s| >= 1 ==> TrimStart(s) == s && Unsigned(s) == s && DigitPrefix(s) == s
  {
    if AllDigits(s) && |s| >= 1 {
      assert !IsJsSpace(s[0]);
      DigitPrefixSpec(s);
    }
  }

  /** `x || d` on a parsed number: `NaN` and `0` are falsy and give `d`. */
  function OrDefault(x: Option<int>, d: int): (r: int)
    ensures x.None? ==> r == d
    ensures x.Some? && x.value != 0 ==> r == x.value
    ensures r == 0 || r == d || (x.Some? && r == x.value)
  {
    match x
    case None => d
    case Some(v) => if v == 0 then d else v
  }

  /** `x || 0`: a number, with `NaN` read as 0. */
  function OrZero(x: Option<int>): (r: int)
    ensures r == x.GetOr(0)
  {
    OrDefault(x, 0)
  }

  /** `x || 0` on a parsed decimal number (speed, incline). */
  function OrZeroReal(x: Option<real>): (r: real)
    ensures r == x.GetOr(0.0)
  {
    match x
    case None => 0.0
    case Some(v) => if v == 0.0 then 0.0 else v
  }
}

=== FILE: js_string.dfy ===
/** The JavaScript string primitives the forms rely on: `trim`,
    `split` on a one-character separator, and `replace` with a string
    pattern (first occurrence only, `$` patterns expanded). */
module JsString {
  import opened Wrappers

  /** The characters `String.prototype.trim` removes: ECMAScript WhiteSpace
      (including the Unicode space separators) and LineTerminator. */
  predicate IsJsSpace(c: char) {
    || 0x09 <= c as int <= 0x0D
    || c == ' ' || c == '\U{00A0}' || c == '\U{1680}'
    || 0x2000 <= c as int <= 0x200A
    || c == '\U{2028}' || c == '\U{2029}' || c == '\U{202F}'
    || c == '\U{205F}' || c == '\U{3000}' || c == '\U{FEFF}'
  }

  function TrimStart(s: string): (r: string)
    ensures |r| <= |s|
  {
    if |s| > 0 && IsJsSpace(s[0]) then TrimStart(s[1..]) else s
  }

  function TrimEnd(s: string): (r: string)
    ensures |r| <= |s|
  {
    if |s| > 0 && IsJsSpace(s[|s| - 1]) then TrimEnd(s[..|s| - 1]) else s
  }

  /** `trimStart` drops exactly the leading white space. */
  lemma {:induction false} TrimStartSpec(s: string)
    ensures var r := TrimStart(s);
      && r == s[|s| - |r|..]
      && (forall i :: 0 <= i < |s| - |r| ==> IsJsSpace(s[i]))
      && (|r| > 0 ==> !IsJsSpace(r[0]))
  {
    if |s| > 0 && IsJsSpace(s[0]) {
      TrimStartSpec(s[1..]);
    }
  }

  /** `trimEnd` drops exactly the trailing white space. */
  lemma {:induction false} TrimEndSpec(s: string)
    ensures var r := TrimEnd(s);
      && r == s[..|r|]
      && (forall i :: |r| <= i < |s| ==> IsJsSpace(s[i]))
      && (|r| > 0 ==> !IsJsSpace(r[|r| - 1]))
  {
    if |s| > 0 && IsJsSpace(s[|s| - 1]) {
      TrimEndSpec(s[..|s| - 1]);
    }
  }

  /** `s.trim()`. */
  function Trim(s: string): string {
    TrimEnd(TrimStart(s))
  }

  /** A string none of whose characters `trim` would remove is its own trim. */
  lemma TrimNoSpace(s: string)
    requires |s| == 0 || (!IsJsSpace(s[0]) && !IsJsSpace(s[|s| - 1]))
    ensures Trim(s) == s
  {
  }

  /** `trim` leaves nothing exactly when every character is white space. */
  lemma TrimIsEmpty(s: string)
    ensures Trim(s) == "" <==> forall i :: 0 <= i < |s| ==> IsJsSpace(s[i])
  {
    var r := TrimStart(s);
    TrimStartSpec(s);
    TrimEndSpec(r);
    if |r| > 0 {
      assert !IsJsSpace(s[|s| - |r|]);
    }
  }

  /** Position of the first `c` in `s`. */
  function IndexOfChar(s: string, c: char): (i: nat)
    requires c in s
    ensures i < |s| && s[i] == c && c !in s[..i]
  {
    if s[0] == c then 0
    else
      var i := 1 + IndexOfChar(s[1..], c);
      assert s[..i] == [s[0]] + s[1..][..i - 1];
      i
  }

  /** The inverse of `Split`: the parts glued back with the separator. */
  function Join(parts: seq<string>, sep: char): string
    requires |parts| >= 1
  {
    if |parts| == 1 then parts[0] else parts[0] + [sep] + Join(parts[1..], sep)
  }

  /** `s.split(sep)` for a one-character separator; never empty. */
  function Split(s: string, sep: char): (parts: seq<string>)
    ensures |parts| >= 1
    decreases |s|
  {
    if sep !in s then [s]
    else
      var i := IndexOfChar(s, sep);
      [s[..i]] + Split(s[i + 1..], sep)
  }

  /** One step of `Split`: the text up to the first separator, then the
      parts of the rest. */
  lemma SplitStep(s: string, sep: char)
    requires sep in s
    ensures var i := IndexOfChar(s, sep);
      Split(s, sep) == [s[..i]] + Split(s[i + 1..], sep)
  {
  }

  /** No part of `Split` holds the separator. */
  lemma {:induction false} SplitPartsFree(s: string, sep: char)
    ensures forall k :: 0 <= k < |Split(s, sep)| ==> sep !in Split(s, sep)[k]
    decreases |s|
  {
    if sep in s {
      var i := IndexOfChar(s, sep);
      var rest := Split(s[i + 1..], sep);
      var parts := [s[..i]] + rest;
      SplitPartsFree(s[i + 1..], sep);
      forall k | 0 <= k < |parts| ensures sep !in parts[k] {
        if k == 0 {
          assert parts[0] == s[..i];
        } else {
          assert parts[k] == rest[k - 1];
        }
      }
      SplitStep(s, sep);
    }
  }

  /** Joining the parts of `Split` gives the text back. */
  lemma {:induction false} SplitJoinBack(s: string, sep: char)
    ensures Join(Split(s, sep), sep) == s
    decreases |s|
  {
    if sep in s {
      var i := IndexOfChar(s, sep);
      var rest := Split(s[i + 1..], sep);
      var parts := [s[..i]] + rest;
      SplitStep(s, sep);
      SplitJoinBack(s[i + 1..], sep);
      assert parts[0] == s[..i] && parts[1..] == rest;
      calc {
        Join(parts, sep);
        parts[0] + [sep] + Join(parts[1..], sep);
        s[..i] + [sep] + s[i + 1..];
        { assert s == s[..i] + [sep] + s[i + 1..]; }
        s;
      }
    }
  }

  /** No part holds the separator, and joining the parts gives `s` back. */
  lemma {:induction false} SplitJoin(s: string, sep: char)
    ensures forall k :: 0 <= k < |Split(s, sep)| ==> sep !in Split(s, sep)[k]
    ensures Join(Split(s, sep), sep) == s
  {
    SplitPartsFree(s, sep);
    SplitJoinBack(s, sep);
  }

  /** Splitting `a sep b`, where neither side holds the separator, gives the two sides. */
  lemma SplitTwo(a: string, b: string, sep: char)
    requires sep !in a && sep !in b
    ensures Split(a + [sep] + b, sep) == [a, b]
  {
    var s := a + [sep] + b;
    assert s[|a|] == sep;
    assert s[..|a|] == a;
    assert s[|a| + 1..] == b;
  }

  predicate OccursAt(s: string, pat: string, i: nat) {
    i + |pat| <= |s| && s[i..i + |pat|] == pat
  }

  function IndexFrom(s: string, pat: string, k: nat): (r: Option<nat>)
    requires k <= |s|
    ensures r.Some? ==> k <= r.value && OccursAt(s, pat, r.value)
    ensures r.Some? ==> forall j :: k <= j < r.value ==> !OccursAt(s, pat, j)
    ensures r.None? ==> forall j :: k <= j <= |s| ==> !OccursAt(s, pat, j)
    decreases |s| - k
  {
    if OccursAt(s, pat, k) then Some(k)
    else if k == |s| then None
    else IndexFrom(s, pat, k + 1)
  }

  /** `s.indexOf(pat)`: the first position where `pat` occurs, if any. */
  function IndexOf(s: string, pat: string): (r: Option<nat>)
    ensures r.Some? ==> OccursAt(s, pat, r.value)
    ensures r.Some? ==> forall j :: 0 <= j < r.value ==> !OccursAt(s, pat, j)
    ensures r.None? ==> forall j :: 0 <= j <= |s| ==> !OccursAt(s, pat, j)
  {
    IndexFrom(s, pat, 0)
  }

  /** The text `replace` inserts for a string pattern: ECMAScript's
      GetSubstitution operation of ECMA-262 with no capture groups. `$$` is one `$`, `$&` the matched text, `` $` `` the text
      before the match and `$'` the text after it; every other `$`,
      including `$1` and `$<`, stands for itself. */
  function Expand(rep: string, matched: string, before: string, after: string): (r: string)
    ensures '$' !in rep ==> r == rep
    decreases |rep|
  {
    if |rep| == 0 then ""
    else if rep[0] == '$' && |rep| >= 2 && rep[1] == '$' then "$" + Expand(rep[2..], matched, before, after)
    else if rep[0] == '$' && |rep| >= 2 && rep[1] == '&' then matched + Expand(rep[2..], matched, before, after)
    else if rep[0] == '$' && |rep| >= 2 && rep[1] == '`' then before + Expand(rep[2..], matched, before, after)
    else if rep[0] == '$' && |rep| >= 2 && rep[1] == '\'' then after + Expand(rep[2..], matched, before, after)
    else
      assert '$' !in rep ==> '$' !in rep[1..] by {
        assert forall k :: 0 <= k < |rep[1..]| ==> rep[1..][k] == rep[k + 1];
      }
      [rep[0]] + Expand(rep[1..], matched, before, after)
  }

  /** A first character other than `$` is copied as it is. */
  lemma ExpandPlainHead(rep: string, matched: string, before: string, after: string)
    requires |rep| > 0 && rep[0] != '$'
    ensures Expand(rep, matched, before, after) == [rep[0]] + Expand(rep[1..], matched, before, after)
  {
  }

  /** Text without `$` passes through literally, whatever follows it. */
  lemma {:induction false} ExpandLiteralPrefix(lit: string, rep: string, matched: string, before: string, after: string)
    requires '$' !in lit
    ensures Expand(lit + rep, matched, before, after) == lit + Expand(rep, matched, before, after)
    decreases |lit|
  {
    if |lit| == 0 {
      assert lit + rep == rep;
    } else {
      var s := lit + rep;
      var t := lit[1..];
      assert '$' !in t by {
        forall k | 0 <= k < |t| ensures t[k] != '$' {
          assert t[k] == lit[k + 1];
        }
      }
      calc {
        Expand(s, matched, before, after);
      == { assert s[0] == lit[0]; ExpandPlainHead(s, matched, before, after); }
        [lit[0]] + Expand(s[1..], matched, before, after);
      == { assert s[1..] == t + rep; ExpandLiteralPrefix(t, rep, matched, before, after); }
        [lit[0]] + (t + Expand(rep, matched, before, after));
      == { assert lit == [lit[0]] + t; }
        lit + Expand(rep, matched, before, after);
      }
    }
  }

  /** Each of the four patterns, and a `$` that starts none of them. */
  lemma ExpandPatterns(rest: string, matched: string, before: string, after: string)
    ensures Expand("$$" + rest, matched, before, after) == "$" + Expand(rest, matched, before, after)
    ensures Expand("$&" + rest, matched, before, after) == matched + Expand(rest, matched, before, after)
    ensures Expand("$`" + rest, matched, before, after) == before + Expand(rest, matched, before, after)
    ensures Expand("$'" + rest, matched, before, after) == after + Expand(rest, matched, before, after)
    ensures Expand("$1", matched, before, after) == "$1"
    ensures Expand("$", matched, before, after) == "$"
  {
    assert ("$$" + rest)[2..] == rest;
    assert ("$&" + rest)[2..] == rest;
    assert ("$`" + rest)[2..] == rest;
    assert ("$'" + rest)[2..] == rest;
    assert "$1"[1..] == "1";
  }

  /** `s.replace(pat, rep)` with a string pattern: only the first occurrence
      of `pat` is replaced, by `rep` with its `$` patterns expanded;
      everything before and after it is kept. */
  function ReplaceFirst(s: string, pat: string, rep: string): (r: string)
    ensures IndexOf(s, pat).None? ==> r == s
    ensures IndexOf(s, pat).Some? ==>
      var i := IndexOf(s, pat).value;
      var e := InsertedText(s, pat, rep);
      && |r| == |s| - |pat| + |e|
      && r[..i] == s[..i]
      && r[i..i + |e|] == e
      && r[i + |e|..] == s[i + |pat|..]
    ensures IndexOf(s, pat).Some? && '$' !in rep ==>
      var i := IndexOf(s, pat).value;
      r == s[..i] + rep + s[i + |pat|..]
  {
    match IndexOf(s, pat)
    case None => s
    case Some(i) => s[..i] + InsertedText(s, pat, rep) + s[i + |pat|..]
  }

  /** When `r` ends with the part of `s` from `b` on, placed at `a`, an
      occurrence of `pat` in that part moves from `j` to `j - b + a`. */
  lemma SharedSuffixKeepsOccurrence(s: string, r: string, pat: string, a: nat, b: nat, j: nat)
    requires b <= j && OccursAt(s, pat, j)
    requires a <= |r| && r[a..] == s[b..]
    ensures OccursAt(r, pat, j - b + a)
  {
    var k := j - b + a;
    assert r[k..k + |pat|] == r[a..][j - b..j - b + |pat|];
    assert s[b..][j - b..j - b + |pat|] == s[j..j + |pat|];
  }

  /** The text the first `replace` inserts: the replacement with its `$`
      patterns expanded against the first match. */
  function InsertedText(s: string, pat: string, rep: string): string
    requires IndexOf(s, pat).Some?
  {
    var i := IndexOf(s, pat).value;
    Expand(rep, pat, s[..i], s[i + |pat|..])
  }

  /** Only the first occurrence is replaced: a later occurrence of the
      pattern survives, shifted by the length of the inserted text less the
      pattern's; a replacement without `$` is inserted as it is. */
  lemma LaterOccurrenceSurvives(s: string, pat: string, rep: string, j: nat)
    requires IndexOf(s, pat).Some? && IndexOf(s, pat).value + |pat| <= j
    requires OccursAt(s, pat, j)
    ensures OccursAt(ReplaceFirst(s, pat, rep), pat, j - |pat| + |InsertedText(s, pat, rep)|)
    ensures '$' !in rep ==> OccursAt(ReplaceFirst(s, pat, rep), pat, j - |pat| + |rep|)
  {
    var i := IndexOf(s, pat).value;
    var e := InsertedText(s, pat, rep);
    var r := ReplaceFirst(s, pat, rep);
    assert r[i + |e|..] == s[i + |pat|..];
    SharedSuffixKeepsOccurrence(s, r, pat, i + |e|, i + |pat|, j);
  }
}

=== FILE: language.dfy ===
/** The translation context of `src/components/LanguageProvider.tsx`: the
    chosen language, the lookup `t(key, options)` with its two fallbacks,
    and the `{name}` placeholder substitution. The two JSON tables are
    abstract maps from keys to strings. */
module Language {
  import opened Wrappers
  import opened JsString

  /** `'en' | 'no'`. */
  datatype Lang = En | No

  type Table = map<string, string>

  /** The imported tables: the English one is always there; the Norwegian
      one may be missing. */
  datatype Catalog = Catalog(en: Table, no: Option<Table>)

  /** What the provider puts in the context. */
  datatype Provider = Provider(catalog: Catalog, language: Lang)

  /** A freshly mounted provider speaks Norwegian. */
  function NewProvider(catalog: Catalog): (p: Provider)
    ensures p.language == No && p.catalog == catalog
  {
    Provider(catalog, No)
  }

  /** `setLanguage`. */
  function SetLanguage(p: Provider, lang: Lang): (r: Provider)
    ensures r.language == lang && r.catalog == p.catalog
  {
    p.(language := lang)
  }

  /** `translations[language] || translations.en`. */
  function TableOf(c: Catalog, lang: Lang): (t: Table)
    ensures lang == En || c.no.None? ==> t == c.en
    ensures lang == No && c.no.Some? ==> t == c.no.value
  {
    match lang
    case En => c.en
    case No => c.no.GetOr(c.en)
  }

  /** `translationSet[key] || key`: a missing or empty entry gives the key. */
  function Lookup(t: Table, key: string): (r: string)
    ensures key !in t || t[key] == "" ==> r == key
    ensures key in t && t[key] != "" ==> r == t[key]
  {
    if key in t && t[key] != "" then t[key] else key
  }

  /** A non-empty key never translates to the empty string. */
  lemma LookupNeverEmpty(t: Table, key: string)
    requires key != ""
    ensures Lookup(t, key) != ""
  {
  }

  /** `{name}`. */
  function Placeholder(name: string): (p: string)
    ensures |p| == |name| + 2 && p[0] == '{' && p[|p| - 1] == '}'
    ensures p[1..|p| - 1] == name
  {
    "{" + name + "}"
  }

  /** The `forEach` over the option keys, in order: each option replaces
      the first occurrence of its placeholder with its value as text, whose
      `$` patterns `replace` expands. */
  function Substitute(text: string, options: seq<(string, string)>): string
    decreases |options|
  {
    if |options| == 0 then text
    else Substitute(ReplaceFirst(text, Placeholder(options[0].0), options[0].1), options[1..])
  }

  /** `t(key, options)`: the entry of the current language's table (or the
      English one), or the key, with the options substituted. */
  function T(p: Provider, key: string, options: seq<(string, string)>): string {
    Substitute(Lookup(TableOf(p.catalog, p.language), key), options)
  }

  /** Without options the looked-up string is returned as it is. */
  lemma NoOptionsNoChange(p: Provider, key: string)
    ensures T(p, key, []) == Lookup(TableOf(p.catalog, p.language), key)
  {
  }

  /** Without a Norwegian table, Norwegian lookups read the English one. */
  lemma MissingTableFallsBack(c: Catalog, key: string, options: seq<(string, string)>)
    requires c.no.None?
    ensures T(Provider(c, No), key, options) == T(Provider(c, En), key, options)
  {
  }

  /** Substituting two runs of options is substituting them one after the
      other: each option acts on the text its predecessors left. */
  lemma {:induction false} SubstituteAppend(text: string, a: seq<(string, string)>, b: seq<(string, string)>)
    ensures Substitute(text, a + b) == Substitute(Substitute(text, a), b)
    decreases |a|
  {
    if |a| == 0 {
      assert a + b == b;
    } else {
      assert (a + b)[1..] == a[1..] + b;
      SubstituteAppend(ReplaceFirst(text, Placeholder(a[0].0), a[0].1), a[1..], b);
    }
  }

  /** A text without any of the options' placeholders comes back unchanged:
      placeholders without an option stay literal. */
  lemma {:induction false} NoPlaceholderNoChange(text: string, options: seq<(string, string)>)
    requires forall i :: 0 <= i < |options| ==> IndexOf(text, Placeholder(options[i].0)).None?
    ensures Substitute(text, options) == text
    decreases |options|
  {
    if |options| > 0 {
      assert IndexOf(text, Placeholder(options[0].0)).None?;
      assert forall i :: 0 <= i < |options[1..]| ==> options[1..][i] == options[i + 1];
      NoPlaceholderNoChange(text, options[1..]);
    }
  }

  /** A single option is a single `replace`. */
  lemma SubstituteOne(text: string, name: string, value: string)
    ensures Substitute(text, [(name, value)]) == ReplaceFirst(text, Placeholder(name), value)
  {
    assert [(name, value)][1..] == [];
  }

  /** A value of `$&` inserts the matched placeholder itself, so
      "Hi {name}" with the option `name: '$&'` stays "Hi {name}". */
  lemma MatchPatternKeepsPlaceholder()
    ensures Substitute("Hi {name}", [("name", "$&")]) == "Hi {name}"
  {
    var text := "Hi {name}";
    var p := Placeholder("name");
    assert OccursAt(text, p, 3);
    assert !OccursAt(text, p, 0) && !OccursAt(text, p, 1) && !OccursAt(text, p, 2);
    assert IndexOf(text, p) == Some(3);
    ExpandPatterns("", p, text[..3], text[9..]);
    assert "$&" + "" == "$&";
    assert [("name", "$&")][1..] == [];
  }

  /** `useLanguage()`: the provider's context, or the error thrown outside
      one. */
  function UseLanguage(context: Option<Provider>): (r: Result<Provider, string>)
    ensures context.Some? <==> r.Success?
    ensures r.Success? ==> r.value == context.value
    ensures r.Failure? ==> r.error == "useLanguage must be used within a LanguageProvider"
  {
    match context
    case Some(p) => Success(p)
    case None => Failure("useLanguage must be used within a LanguageProvider")
  }
}

=== FILE: legacy.dfy ===
/** The older generation of the data model, used by the create-session page
    (`src/app/create-session/page.tsx`) and the home page (`src/app/page.tsx`):
    an item holds its duration as "mm:ss" text and a repetition count, and
    sessions live under their own storage key. Totals may be `NaN`, which is
    `None` here. */
module Legacy {
  import opened Wrappers
  import opened Decimal
  import opened JsString
  import opened JsNumber
  import opened TimeCodec
  import opened IdList
  import opened Storage

  /** An item of the create-session page. A duration the stored data lacks
      reads as the empty string. */
  datatype LegacyItem = LegacyItem(id: string, title: string, duration: string, color: string, repetitions: int)

  datatype LegacySession = LegacySession(id: string, name: string, items: seq<LegacyItem>)

  function LegacyItemId(w: LegacyItem): string {
    w.id
  }

  function LegacySessionId(s: LegacySession): string {
    s.id
  }

  // ---------------------------------------------------------------------
  // Totals

  /** `(minutes * 60 + seconds) * item.repetitions`, where `read` is how the
      page turns the duration text into seconds (`NaN` is `None`). */
  function ItemSecondsWith(read: string -> Option<int>, w: LegacyItem): Option<int> {
    match read(w.duration)
    case None => None
    case Some(v) => Some(v * w.repetitions)
  }

  /** `+` on numbers that may be `NaN`. */
  function Plus(x: Option<int>, y: Option<int>): (r: Option<int>)
    ensures r.Some? <==> x.Some? && y.Some?
    ensures r.Some? ==> r.value == x.value + y.value
  {
    if x.Some? && y.Some? then Some(x.value + y.value) else None
  }

  /** The create-session page's running sum over every item. */
  function CreateTotalWith(read: string -> Option<int>, items: seq<LegacyItem>): Option<int> {
    if |items| == 0 then Some(0)
    else Plus(CreateTotalWith(read, items[..|items| - 1]), ItemSecondsWith(read, items[|items| - 1]))
  }

  /** The home page's running sum, which skips items whose duration is
      empty. */
  function HomeTotalWith(read: string -> Option<int>, items: seq<LegacyItem>): Option<int> {
    if |items| == 0 then Some(0)
    else
      var last := items[|items| - 1];
      var rest := HomeTotalWith(read, items[..|items| - 1]);
      if last.duration == "" then rest else Plus(rest, ItemSecondsWith(read, last))
  }

  /** Both pages read a duration with `split(':').map(Number)`, which is
      `parseTimeToSeconds`. */
  function ItemSeconds(w: LegacyItem): Option<int> {
    ItemSecondsWith(ParseTimeToSeconds, w)
  }

  function CreateTotal(items: seq<LegacyItem>): Option<int> {
    CreateTotalWith(ParseTimeToSeconds, items)
  }

  function HomeTotal(items: seq<LegacyItem>): Option<int> {
    HomeTotalWith(ParseTimeToSeconds, items)
  }

  /** The items whose duration is not empty, in order. */
  function WithDuration(items: seq<LegacyItem>): (r: seq<LegacyItem>)
    ensures |r| <= |items|
    ensures forall i :: 0 <= i < |r| ==> r[i].duration != "" && r[i] in items
  {
    if |items| == 0 then []
    else
      var rest := WithDuration(items[..|items| - 1]);
      var last := items[|items| - 1];
      if last.duration == "" then rest else rest + [last]
  }

  /** The home page's total is the create-session page's total over the items
      that have a duration. */
  lemma {:induction false} HomeSkipsEmpty(read: string -> Option<int>, items: seq<LegacyItem>)
    ensures HomeTotalWith(read, items) == CreateTotalWith(read, WithDuration(items))
  {
    if |items| > 0 {
      var p := items[..|items| - 1];
      HomeSkipsEmpty(read, p);
      var w := WithDuration(p);
      if items[|items| - 1].duration != "" {
        assert (w + [items[|items| - 1]])[..|w|] == w;
      }
    }
  }

  /** The sum splits over concatenation. */
  lemma {:induction false} CreateTotalAppend(read: string -> Option<int>, a: seq<LegacyItem>, b: seq<LegacyItem>)
    ensures CreateTotalWith(read, a + b) == Plus(CreateTotalWith(read, a), CreateTotalWith(read, b))
    decreases |b|
  {
    if |b| > 0 {
      var b' := b[..|b| - 1];
      assert (a + b)[..|a + b| - 1] == a + b';
      CreateTotalAppend(read, a, b');
    } else {
      assert a + b == a;
    }
  }

  /** The sum is a number exactly when every item's seconds are. */
  lemma {:induction false} CreateTotalIsNumber(read: string -> Option<int>, items: seq<LegacyItem>)
    ensures CreateTotalWith(read, items).Some?
        <==> forall i :: 0 <= i < |items| ==> ItemSecondsWith(read, items[i]).Some?
  {
    if |items| > 0 {
      var p := items[..|items| - 1];
      CreateTotalIsNumber(read, p);
      assert forall i :: 0 <= i < |p| ==> p[i] == items[i];
    }
  }

  /** The total as displayed: "MM:SS" as `formatTime` prints it, and
      "NaN:NaN" when the sum is `NaN`. */
  function FormatTotalDuration(total: Option<int>): (r: string)
    ensures total.None? ==> r == "NaN:NaN"
  {
    match total
    case None => "NaN:NaN"
    case Some(t) => FormatTime(t)
  }

  /** A numeric, non-negative total is displayed as a canonical clock that
      reads back as the total. */
  lemma DisplayedTotalReadsBack(total: Option<int>)
    requires total.Some? && total.value >= 0
    ensures CanonicalClock(FormatTotalDuration(total))
    ensures ParseTimeToSeconds(FormatTotalDuration(total)) == Some(total.value)
  {
    FormatTimeSpec(total.value);
    ParseFormatRoundTrip(total.value);
  }

  /** The page's opening items: warm-up, actions and cool-down, once each. */
  const DefaultItems: seq<LegacyItem> := [
    LegacyItem("1", "Warm-up", "10:00", "#ffcc00", 1),
    LegacyItem("2", "Actions", "30:00", "#66cc33", 1),
    LegacyItem("3", "Cooldown", "10:00", "#3399ff", 1)
  ]

  /** The default items total fifty minutes, displayed as "50:00". */
  lemma DefaultItemsTotalFiftyMinutes()
    ensures CreateTotal(DefaultItems) == Some(3000)
    ensures FormatTotalDuration(CreateTotal(DefaultItems)) == "50:00"
  {
    var items := DefaultItems;
    TenMinutes(items[0].duration);
    ThirtyMinutes(items[1].duration);
    TenMinutes(items[2].duration);
    OnceEachTotal(ParseTimeToSeconds, items);
    ShowsFiftyMinutes(3000, "50:00");
  }

  /** Three items repeated once each total the sum of their durations. */
  lemma OnceEachTotal(read: string -> Option<int>, items: seq<LegacyItem>)
    requires |items| == 3
    requires items[0].repetitions == 1 && items[1].repetitions == 1 && items[2].repetitions == 1
    requires read(items[0].duration) == Some(600)
    requires read(items[1].duration) == Some(1800)
    requires read(items[2].duration) == Some(600)
    ensures CreateTotalWith(read, items) == Some(3000)
  {
    assert items[..2][..1] == items[..1];
    assert items[..1][..0] == [];
    assert items[..3] == items;
    assert CreateTotalWith(read, items[..1]) == Some(600);
    assert CreateTotalWith(read, items[..2]) == Some(2400);
  }

  lemma TenMinutes(t: string)
    requires t == "10:00"
    ensures ParseTimeToSeconds(t) == Some(600)
  {
    var m, z := "10", "00";
    assert t == m + ":" + z;
    assert Value(m) * 60 + Value(z) == 600;
    DigitClockParts(m, z);
    ParseTimeToSecondsSpec(t);
  }

  lemma ThirtyMinutes(t: string)
    requires t == "30:00"
    ensures ParseTimeToSeconds(t) == Some(1800)
  {
    var m, z := "30", "00";
    assert t == m + ":" + z;
    assert Value(m) * 60 + Value(z) == 1800;
    DigitClockParts(m, z);
    ParseTimeToSecondsSpec(t);
  }

  lemma NoMinutes(t: string)
    requires t == "00:00"
    ensures ParseTimeToSeconds(t) == Some(0)
  {
    var m, z := "00", "00";
    assert t == m + ":" + z;
    assert Value(m) * 60 + Value(z) == 0;
    DigitClockParts(m, z);
    ParseTimeToSecondsSpec(t);
  }

  lemma ShowsFiftyMinutes(n: nat, t: string)
    requires n / 60 == 50 && n % 60 == 0 && t == "50:00"
    ensures FormatTime(n) == t
  {
    var a, b := "50", "00";
    FiftyMinutes(n, a, b);
    assert t == a + ":" + b;
  }

  lemma FiftyMinutes(n: nat, a: string, b: string)
    requires n / 60 == 50 && n % 60 == 0 && a == "50" && b == "00"
    ensures FormatTime(n) == a + ":" + b
  {
    FormatTimeFields(n);
    assert NatToString(5) == "5";
    assert NatToString(0) == "0";
    assert NatToString(50) == "50";
  }

  /** A duration without a colon makes the whole total `NaN`. */
  lemma NoColonIsNaN(items: seq<LegacyItem>, i: nat)
    requires i < |items| && ':' !in items[i].duration
    ensures CreateTotal(items).None?
    ensures FormatTotalDuration(CreateTotal(items)) == "NaN:NaN"
  {
    ParseTimeToSecondsSpec(items[i].duration);
    assert ItemSecondsWith(ParseTimeToSeconds, items[i]).None?;
    CreateTotalIsNumber(ParseTimeToSeconds, items);
  }

  // ---------------------------------------------------------------------
  // Editing on the create-session page

  /** The fields the page's inputs change; the repetitions input arrives as
      what `parseInt` made of it. */
  datatype LegacyEdit =
    | EditTitle(title: string)
    | EditDuration(duration: string)
    | EditColor(color: string)
    | EditRepetitions(parsed: Option<int>)

  /** The item with one field replaced; repetitions are
      `parseInt(value) || 1`, so `NaN` and 0 become 1. */
  function ApplyEdit(w: LegacyItem, e: LegacyEdit): (r: LegacyItem)
    ensures r.id == w.id
    ensures e.EditRepetitions? ==> r.repetitions != 0
    ensures e.EditRepetitions? && (e.parsed.None? || e.parsed == Some(0)) ==> r.repetitions == 1
    ensures !e.EditTitle? ==> r.title == w.title
    ensures !e.EditDuration? ==> r.duration == w.duration
    ensures !e.EditColor? ==> r.color == w.color
    ensures !e.EditRepetitions? ==> r.repetitions == w.repetitions
  {
    match e
    case EditTitle(t) => w.(title := t)
    case EditDuration(d) => w.(duration := d)
    case EditColor(c) => w.(color := c)
    case EditRepetitions(p) => w.(repetitions := OrDefault(p, 1))
  }

  /** `handleItemChange(id, field, value)`: every item with the id gets the
      edit; the others are kept, in order. */
  function HandleItemChange(items: seq<LegacyItem>, id: string, e: LegacyEdit): (r: seq<LegacyItem>)
    ensures |r| == |items|
    ensures forall i :: 0 <= i < |items| ==>
              r[i] == (if items[i].id == id then ApplyEdit(items[i], e) else items[i])
  {
    if |items| == 0 then []
    else
      var w := items[0];
      [if w.id == id then ApplyEdit(w, e) else w] + HandleItemChange(items[1..], id, e)
  }

  /** The item `addItem` appends at time `now`. */
  function NewLegacyItem(now: int): LegacyItem {
    LegacyItem(IntToString(now), "New Item", "00:00", "#cccccc", 1)
  }

  /** `addItem`: one new item at the end. */
  function AddItem(items: seq<LegacyItem>, now: int): (r: seq<LegacyItem>)
    ensures |r| == |items| + 1 && r[..|items|] == items
    ensures r[|items|].duration == "00:00" && r[|items|].repetitions == 1
    ensures r[|items|].title == "New Item" && r[|items|].color == "#cccccc"
  {
    var r := items + [NewLegacyItem(now)];
    assert r[..|items|] == items;
    r
  }

  /** A new item lasts "00:00", so adding it leaves the total as it was. */
  lemma AddItemKeepsTotal(items: seq<LegacyItem>, now: int)
    ensures CreateTotal(AddItem(items, now)) == CreateTotal(items)
  {
    var x := NewLegacyItem(now);
    NoMinutes(x.duration);
    assert ItemSecondsWith(ParseTimeToSeconds, x) == Some(0);
    CreateTotalAppend(ParseTimeToSeconds, items, [x]);
    assert [x][..0] == [];
  }

  /** `deleteItem`: the items with the id are gone, the rest keep their
      order. */
  function DeleteItem(items: seq<LegacyItem>, id: string): (r: seq<LegacyItem>)
    ensures forall i :: 0 <= i < |r| ==> r[i].id != id
    ensures forall w :: w in items && w.id != id <==> w in r
  {
    RemovePartition(items, LegacyItemId, id);
    var r := RemoveWhere(items, LegacyItemId, id);
    assert forall i :: 0 <= i < |r| ==> LegacyItemId(r[i]) != id;
    r
  }

  // ---------------------------------------------------------------------
  // Saving and deleting sessions

  /** What pressing "Save" leads to: a refusal for a blank name, an uncaught
      parse error for malformed stored text, or the new storage entry. */
  datatype SaveOutcome = NameRequired | ParseFailed | Saved(slot: Slot<LegacySession>)

  /** `handleSave`: a name that is empty after trimming is refused;
      otherwise the session (id from the current time) is appended to the
      stored list. */
  function HandleSave(name: string, items: seq<LegacyItem>, slot: Slot<LegacySession>, now: int): (r: SaveOutcome)
    ensures r == NameRequired <==> forall i :: 0 <= i < |name| ==> IsJsSpace(name[i])
    ensures r == ParseFailed <==> r != NameRequired && slot.Malformed?
    ensures r.Saved? ==> r.slot == Stored(ReadList(slot).value + [LegacySession(IntToString(now), name, items)])
  {
    TrimIsEmpty(name);
    if Trim(name) == "" then NameRequired
    else
      match ReadList(slot)
      case None => ParseFailed
      case Some(list) => Saved(Stored(list + [LegacySession(IntToString(now), name, items)]))
  }

  /** The home page: the shown list and the storage entry. */
  datatype Home = Home(slot: Slot<LegacySession>, shown: seq<LegacySession>)

  /** `deleteSession(id)`: only on confirmation, the stored list without the
      sessions with that id is written back and shown. Malformed stored
      text throws (`None`). */
  function DeleteSession(h: Home, id: string, confirmed: bool): (r: Option<Home>)
    ensures !confirmed ==> r == Some(h)
    ensures confirmed ==> (r.None? <==> h.slot.Malformed?)
    ensures confirmed && r.Some? ==> r.value.slot == Stored(r.value.shown)
    ensures confirmed && r.Some? ==> forall s :: s in r.value.shown ==> s.id != id
  {
    if !confirmed then Some(h)
    else
      match ReadList(h.slot)
      case None => None
      case Some(list) =>
        var kept := RemoveWhere(list, LegacySessionId, id);
        assert forall s :: s in kept ==> s.id != id by {
          RemovePartition(list, LegacySessionId, id);
        }
        Some(Home(Stored(kept), kept))
  }

  /** Deleting keeps every other stored session, in order. */
  lemma DeleteSessionKeepsOthers(h: Home, id: string)
    requires h.slot.Stored?
    ensures DeleteSession(h, id, true).value.shown == RemoveWhere(h.slot.value, LegacySessionId, id)
    ensures forall s :: s in h.slot.value && s.id != id ==> s in DeleteSession(h, id, true).value.shown
  {
    RemovePartition(h.slot.value, LegacySessionId, id);
  }
}

=== FILE: pace.dfy ===
/** `calculatePace` of `src/lib/utils.ts`: the running pace, in minutes and
    seconds per kilometre, of a treadmill speed in km/h. Arithmetic is on
    exact reals. */
module Pace {
  import opened Wrappers
  import opened Decimal
  import opened TimeCodec

  /** A pace, or none for a speed that is not positive. */
  datatype PaceValue = NoPace | PerKm(minutes: nat, seconds: nat)

  /** The seconds per kilometre a pace stands for. */
  function TotalSeconds(p: PaceValue): nat {
    if p.NoPace? then 0 else p.minutes * 60 + p.seconds
  }

  /** `Math.round`: halves round up. */
  function Round(x: real): (n: int)
    ensures x - 0.5 < n as real <= x + 0.5
  {
    (x + 0.5).Floor
  }

  /** The source's arithmetic: whole minutes of `60 / speed`, then the
      fraction of a minute turned into seconds and rounded. Nothing carries
      a rounded-up 60 seconds into the minutes. */
  function PaceAsWritten(speed: real): (p: PaceValue)
    ensures speed <= 0.0 <==> p.NoPace?
    ensures p.PerKm? ==> p.seconds <= 60
  {
    if speed <= 0.0 then NoPace
    else
      var minutesPerKm := 60.0 / speed;
      var paceMinutes := minutesPerKm.Floor;
      var paceSeconds := Round((minutesPerKm - paceMinutes as real) * 60.0);
      PerKm(paceMinutes, paceSeconds)
  }

  /** "--:--", or both fields printed and padded to two digits. */
  function FormatPace(p: PaceValue): (s: string)
    ensures p.NoPace? <==> s == "--:--"
  {
    match p
    case NoPace => "--:--"
    case PerKm(m, s) =>
      var mm := PadStart2(NatToString(m));
      PadStart2Value(NatToString(m));
      var r := mm + ":" + PadStart2(NatToString(s));
      assert r[0] == mm[0] && IsDigit(mm[0]) && "--:--"[0] == '-';
      r
  }

  /** `calculatePace(speedKph)` as written. */
  function CalculatePaceAsWritten(speed: real): string {
    FormatPace(PaceAsWritten(speed))
  }

  /** The source's pace is the nearest whole second to the exact pace,
      `3600 / speed` seconds per kilometre. */
  lemma PaceAsWrittenIsNearest(speed: real)
    requires speed > 0.0
    ensures var p := PaceAsWritten(speed);
      var total := (p.minutes * 60 + p.seconds) as real;
      3600.0 / speed - 0.5 < total <= 3600.0 / speed + 0.5
  {
    var mpk := 60.0 / speed;
    assert mpk * 60.0 == 3600.0 / speed;
  }

  /** At 10.01 km/h the exact pace is 5 minutes and 59.64 seconds; rounding
      the seconds gives 60 and the source prints "05:60". */
  lemma SixtySecondsAtTenPointZeroOne()
    ensures PaceAsWritten(10.01) == PerKm(5, 60)
    ensures CalculatePaceAsWritten(10.01) == "05:60"
  {
    var mpk := 60.0 / 10.01;
    assert mpk == 6000.0 / 1001.0;
    assert mpk.Floor == 5;
    assert (mpk - 5.0) * 60.0 == 59700.0 / 1001.0;
    assert Round(59700.0 / 1001.0) == 60;
    assert NatToString(5) == "5";
    assert NatToString(60) == "60" by {
      assert NatToString(6) == "6";
    }
  }

  /** The pace with a rounded-up minute carried over. */
  function PaceCorrected(speed: real): (p: PaceValue)
    ensures speed <= 0.0 <==> p.NoPace?
    ensures p.PerKm? ==> p.seconds < 60
  {
    match PaceAsWritten(speed)
    case NoPace => NoPace
    case PerKm(m, s) => if s == 60 then PerKm(m + 1, 0) else PerKm(m, s)
  }

  /** `calculatePace(speedKph)` with the carry. */
  function CalculatePace(speed: real): string {
    FormatPace(PaceCorrected(speed))
  }

  /** The carry keeps the number of seconds per kilometre, so the corrected
      pace is still the nearest whole second, and it differs from the
      source's only where the source shows 60 seconds. */
  lemma PaceCorrectedKeepsTotal(speed: real)
    requires speed > 0.0
    ensures var p, q := PaceCorrected(speed), PaceAsWritten(speed);
      && p.minutes * 60 + p.seconds == q.minutes * 60 + q.seconds
      && (q.seconds < 60 ==> p == q)
  {
  }

  /** The corrected pace prints exactly as `formatTime` prints its seconds
      per kilometre, so it is a canonical clock that reads back as that
      number. */
  lemma CalculatePaceIsClock(speed: real)
    requires speed > 0.0
    ensures CalculatePace(speed) == FormatTime(TotalSeconds(PaceCorrected(speed)))
    ensures ParseTimeToSeconds(CalculatePace(speed)) == Some(TotalSeconds(PaceCorrected(speed)))
  {
    PaceClock(PaceCorrected(speed));
  }

  lemma PaceClock(p: PaceValue)
    requires p.PerKm? && p.seconds < 60
    ensures FormatPace(p) == FormatTime(TotalSeconds(p))
    ensures ParseTimeToSeconds(FormatPace(p)) == Some(TotalSeconds(p))
  {
    var m, s := p.minutes, p.seconds;
    assert p == PerKm(m, s);
    var n := TotalSeconds(p);
    assert n == m * 60 + s;
    PaceIsClock(m, s, n);
    ParseFormatRoundTrip(n);
  }

  /** A pace of under a minute's worth of seconds prints as the clock of its
      total seconds. */
  lemma PaceIsClock(m: nat, s: nat, n: nat)
    requires s < 60 && n == m * 60 + s
    ensures FormatPace(PerKm(m, s)) == FormatTime(n)
  {
    MinutesAndSeconds(m, s, n);
    assert JsRem60(n) == s;
    assert FormatTime(n) == PadStart2(NatToString(m)) + ":" + PadStart2(NatToString(s));
  }
}

=== FILE: session_form.dfy ===
/** The handlers of `SessionForm.tsx` over a draft session, every field of
    which may be missing (`Partial<WorkoutSession>`). The current time and
    the random numbers used in new ids are inputs. */
module SessionForm {
  import opened Wrappers
  import opened Decimal
  import opened Types
  import opened Colors
  import opened Totals
  import opened IdList
  import opened ItemForm

  /** `Partial<WorkoutSession>`. */
  datatype Draft = Draft(
    id: Option<string>,
    name: Option<string>,
    description: Option<string>,
    showPace: Option<bool>,
    items: Option<seq<WorkoutItem>>,
    createdAt: Option<string>,
    lastUsedAt: Option<string>,
    totalTime: Option<int>)

  /** The id an item is found by. */
  function ItemId(w: WorkoutItem): string {
    w.id
  }

  /** `draft.items || []`. */
  function ItemsOf(d: Draft): seq<WorkoutItem> {
    d.items.GetOr([])
  }

  /** The draft's total agrees with its items. */
  predicate Synced(d: Draft) {
    d.items.Some? ==> d.totalTime == Some(CalculateTotalTime(d.items.value))
  }

  /** The effect that runs whenever the items change: `totalTime` becomes the
      items' total; a draft without items is left alone. */
  function SyncTotal(d: Draft): (r: Draft)
    ensures Synced(r)
    ensures r.(totalTime := d.totalTime) == d
    ensures Synced(d) ==> r == d
  {
    if d.items.Some? then d.(totalTime := Some(CalculateTotalTime(d.items.value))) else d
  }

  /** `handleNameChange`. */
  function HandleNameChange(d: Draft, name: string): (r: Draft)
    ensures r.name == Some(name) && r.(name := d.name) == d
    ensures Synced(d) ==> Synced(r)
  {
    d.(name := Some(name))
  }

  /** `handleItemUpdate`: every item with the updated one's id is replaced by
      it; the list keeps its length and order. */
  function HandleItemUpdate(d: Draft, updated: WorkoutItem): (r: Draft)
    ensures r.items.Some? && |r.items.value| == |ItemsOf(d)|
    ensures forall i :: 0 <= i < |ItemsOf(d)| ==>
              r.items.value[i] == (if ItemsOf(d)[i].id == updated.id then updated else ItemsOf(d)[i])
    ensures r.(items := d.items) == d
  {
    d.(items := Some(ReplaceWhere(ItemsOf(d), ItemId, updated.id, updated)))
  }

  /** `handleItemDelete`: the items with the id are gone and the others keep
      their order. */
  function HandleItemDelete(d: Draft, id: string): (r: Draft)
    ensures r.items.Some?
    ensures forall i :: 0 <= i < |r.items.value| ==> r.items.value[i].id != id
    ensures forall w :: w in ItemsOf(d) && w.id != id <==> w in r.items.value
    ensures r.items == Some(RemoveWhere(ItemsOf(d), ItemId, id))
    ensures r.(items := d.items) == d
  {
    var items := RemoveWhere(ItemsOf(d), ItemId, id);
    assert forall i :: 0 <= i < |items| ==> ItemId(items[i]) != id;
    RemovePartition(ItemsOf(d), ItemId, id);
    d.(items := Some(items))
  }

  /** `${x}` of an optional string: a missing one prints as "undefined". */
  function Interpolate(x: Option<string>): string {
    x.GetOr("undefined")
  }

  /** `item-${session?.id}-${now}`: the id given to a new or copied item. */
  function NewItemId(d: Draft, now: int): string {
    "item-" + Interpolate(d.id) + "-" + TimeText(now)
  }

  /** The item `handleAddItem` creates. */
  function NewItem(d: Draft, now: int): (w: WorkoutItem)
    ensures w.itemType == Action && w.color == ActionColors[0]
    ensures w.timer == 60 && w.sets == 1 && w.speed == 0.0 && w.incline == 0.0
    ensures w.subItems == [] && w.id == NewItemId(d, now) && w.description == "New Item"
  {
    WorkoutItem(NewItemId(d, now), Action, "New Item", 0.0, 0.0, 60, 1, ActionColors[0], [])
  }

  /** `handleAddItem`: the new item is appended; existing items stay as they
      are. */
  function HandleAddItem(d: Draft, now: int): (r: Draft)
    ensures r.items == Some(ItemsOf(d) + [NewItem(d, now)])
    ensures r.(items := d.items) == d
  {
    d.(items := Some(ItemsOf(d) + [NewItem(d, now)]))
  }

  /** Adding an item adds one minute to the synchronised total. */
  lemma AddItemAddsAMinute(d: Draft, now: int)
    ensures SyncTotal(HandleAddItem(d, now)).totalTime == Some(CalculateTotalTime(ItemsOf(d)) + 60)
  {
    TotalAppend(ItemsOf(d), [NewItem(d, now)]);
    assert [NewItem(d, now)][..0] == [];
  }

  /** `handleMoveItem(id, up ? 'up' : 'down')`: swaps the item with its
      neighbour. When there is nothing to move (no items, an unknown id, the
      first item moving up, the last moving down) the draft is returned as
      it was. */
  function HandleMoveItem(d: Draft, id: string, up: bool): (r: Draft)
    ensures r.(items := d.items) == d
    ensures d.items.None? ==> r == d
    ensures d.items.Some? ==> r.items.Some? && multiset(r.items.value) == multiset(d.items.value)
    ensures !Contains(ItemsOf(d), ItemId, id) ==> r == d
  {
    if d.items.None? then d else d.(items := Some(Move(d.items.value, ItemId, id, up)))
  }

  /** Moving an item that is not first up and then down restores the draft. */
  lemma MoveUpThenDownRestores(d: Draft, id: string)
    requires d.items.Some? && FindIndex(d.items.value, ItemId, id) > 0
    ensures HandleMoveItem(HandleMoveItem(d, id, true), id, false) == d
  {
    MoveUpThenDown(d.items.value, ItemId, id);
  }

  /** A move only reorders, so the total is unchanged. */
  lemma MoveKeepsTotal(d: Draft, id: string, up: bool)
    requires d.items.Some?
    ensures CalculateTotalTime(ItemsOf(HandleMoveItem(d, id, up))) == CalculateTotalTime(ItemsOf(d))
  {
    assert ItemsOf(HandleMoveItem(d, id, up)) == Move(d.items.value, ItemId, id, up);
    MoveListKeepsTotal(d.items.value, id, up);
  }

  lemma MoveListKeepsTotal(s: seq<WorkoutItem>, id: string, up: bool)
    ensures CalculateTotalTime(Move(s, ItemId, id, up)) == CalculateTotalTime(s)
  {
    var i := FindIndex(s, ItemId, id);
    if i >= 0 {
      var j := if up then i - 1 else i + 1;
      if 0 <= j < |s| {
        assert Move(s, ItemId, id, up) == Swap(s, i, j);
        SwapKeepsTotal(s, i, j);
      }
    }
  }

  /** Exchanging two items leaves the total as it was. */
  lemma SwapKeepsTotal(s: seq<WorkoutItem>, i: nat, j: nat)
    requires i < |s| && j < |s|
    ensures CalculateTotalTime(Swap(s, i, j)) == CalculateTotalTime(s)
  {
    var t := s[i := s[j]];
    TotalReplaceAt(s, i, s[j]);
    TotalReplaceAt(t, j, s[i]);
    assert Swap(s, i, j) == t[j := s[i]];
  }

  /** Overwriting one item changes the total by the difference of the two
      items' times. */
  lemma TotalReplaceAt(s: seq<WorkoutItem>, k: nat, x: WorkoutItem)
    requires k < |s|
    ensures CalculateTotalTime(s[k := x]) == CalculateTotalTime(s) - ItemTime(s[k]) + ItemTime(x)
  {
    var a, c := s[..k], s[k + 1..];
    assert s == a + [s[k]] + c;
    assert s[k := x] == a + [x] + c;
    TotalOfThree(a, s[k], c);
    TotalOfThree(a, x, c);
  }

  lemma TotalOfThree(a: seq<WorkoutItem>, x: WorkoutItem, c: seq<WorkoutItem>)
    ensures CalculateTotalTime(a + [x] + c) == CalculateTotalTime(a) + ItemTime(x) + CalculateTotalTime(c)
  {
    TotalAppend(a + [x], c);
    TotalAppend(a, [x]);
    assert [x][..0] == [];
  }

  // ---------------------------------------------------------------------
  // Duplication

  /** The sub-items of a copy: each keeps everything but its id, which
      becomes `sub-${newId}-${Math.random()}`; `noise(i)` is the text of the
      random number drawn for the i-th sub-item. */
  function ReIdSubItems(subs: seq<SubItem>, newId: string, noise: nat -> string): (r: seq<SubItem>)
    ensures |r| == |subs|
    ensures forall i :: 0 <= i < |subs| ==> r[i] == subs[i].(id := "sub-" + newId + "-" + noise(i))
  {
    seq(|subs|, i requires 0 <= i < |subs| => subs[i].(id := "sub-" + newId + "-" + noise(i)))
  }

  /** The copy `handleItemDuplicate` inserts. */
  function DuplicateOf(w: WorkoutItem, newId: string, noise: nat -> string): WorkoutItem {
    w.(id := newId, subItems := ReIdSubItems(w.subItems, newId, noise))
  }

  /** `handleItemDuplicate(w)`: a copy of `w` with a fresh id goes right after
      the first item with `w`'s id, or at the end when there is none. */
  function HandleItemDuplicate(d: Draft, w: WorkoutItem, now: int, noise: nat -> string): (r: Draft)
    ensures r.items.Some? && |r.items.value| == |ItemsOf(d)| + 1
    ensures multiset(r.items.value) == multiset(ItemsOf(d)) + multiset{DuplicateOf(w, NewItemId(d, now), noise)}
    ensures !Contains(ItemsOf(d), ItemId, w.id) ==> r.items.value == ItemsOf(d) + [DuplicateOf(w, NewItemId(d, now), noise)]
    ensures r.(items := d.items) == d
  {
    d.(items := Some(InsertAfter(ItemsOf(d), ItemId, w.id, DuplicateOf(w, NewItemId(d, now), noise))))
  }

  /** The copy differs from the original only in its own id and its
      sub-items' ids, and it sits right behind the original. */
  lemma DuplicateEffect(d: Draft, w: WorkoutItem, now: int, noise: nat -> string, i: int)
    requires i == FindIndex(ItemsOf(d), ItemId, w.id) && i >= 0
    ensures var c := HandleItemDuplicate(d, w, now, noise).items.value[i + 1];
      && c.id == NewItemId(d, now)
      && c.(id := w.id, subItems := w.subItems) == w
      && |c.subItems| == |w.subItems|
      && (forall k :: 0 <= k < |w.subItems| ==> c.subItems[k].(id := w.subItems[k].id) == w.subItems[k])
    ensures HandleItemDuplicate(d, w, now, noise).items.value[..i + 1] == ItemsOf(d)[..i + 1]
    ensures HandleItemDuplicate(d, w, now, noise).items.value[i + 2..] == ItemsOf(d)[i + 1..]
  {
    InsertAfterEffect(ItemsOf(d), ItemId, w.id, DuplicateOf(w, NewItemId(d, now), noise), i);
  }

  /** Giving sub-items new ids does not change their durations. */
  lemma {:induction false} ReIdKeepsTimes(subs: seq<SubItem>, newId: string, noise: nat -> string)
    ensures TimerSum(ReIdSubItems(subs, newId, noise)) == TimerSum(subs)
    ensures TimerSum(OmittedSubs(ReIdSubItems(subs, newId, noise))) == TimerSum(OmittedSubs(subs))
  {
    if |subs| > 0 {
      var r := ReIdSubItems(subs, newId, noise);
      var n := |subs| - 1;
      assert r[..n] == ReIdSubItems(subs[..n], newId, noise);
      ReIdKeepsTimes(subs[..n], newId, noise);
      assert r[n].timer == subs[n].timer && r[n].omitForLastSet == subs[n].omitForLastSet;
    }
  }

  /** Duplicating an item adds that item's time to the draft's total. */
  lemma DuplicateAddsItemTime(d: Draft, w: WorkoutItem, now: int, noise: nat -> string)
    ensures CalculateTotalTime(ItemsOf(HandleItemDuplicate(d, w, now, noise)))
         == CalculateTotalTime(ItemsOf(d)) + ItemTime(w)
  {
    var s := ItemsOf(d);
    var c := DuplicateOf(w, NewItemId(d, now), noise);
    DuplicateKeepsTime(w, NewItemId(d, now), noise);
    var i := FindIndex(s, ItemId, w.id);
    var k := if i != -1 then i + 1 else |s|;
    var r := InsertAfter(s, ItemId, w.id, c);
    assert ItemsOf(HandleItemDuplicate(d, w, now, noise)) == r;
    assert r == InsertAt(s, k, c);
    TotalInsertAt(s, k, c);
  }

  /** A copy takes as long as its original. */
  lemma DuplicateKeepsTime(w: WorkoutItem, newId: string, noise: nat -> string)
    ensures ItemTime(DuplicateOf(w, newId, noise)) == ItemTime(w)
  {
    ReIdKeepsTimes(w.subItems, newId, noise);
  }

  /** Inserting an item anywhere adds its time to the total. */
  lemma TotalInsertAt(s: seq<WorkoutItem>, k: nat, x: WorkoutItem)
    requires k <= |s|
    ensures CalculateTotalTime(InsertAt(s, k, x)) == CalculateTotalTime(s) + ItemTime(x)
  {
    var a, c := s[..k], s[k..];
    assert InsertAt(s, k, x) == a + [x] + c;
    TotalOfThree(a, x, c);
    assert s == a + c;
    TotalAppend(a, c);
  }

  /** Every handler that changes the items, followed by the effect, leaves a
      draft whose total agrees with its items. */
  lemma HandlersThenSyncAgree(d: Draft, w: WorkoutItem, id: string, up: bool, now: int, noise: nat -> string)
    ensures Synced(SyncTotal(HandleItemUpdate(d, w)))
    ensures Synced(SyncTotal(HandleItemDelete(d, id)))
    ensures Synced(SyncTotal(HandleAddItem(d, now)))
    ensures Synced(SyncTotal(HandleMoveItem(d, id, up)))
    ensures Synced(SyncTotal(HandleItemDuplicate(d, w, now, noise)))
    ensures Synced(d) ==> Synced(HandleMoveItem(d, id, up))
  {
    if d.items.Some? && Synced(d) {
      MoveKeepsTotal(d, id, up);
    }
  }
}

=== FILE: session_list.dfy ===
/** `WorkoutSessionList.tsx`: the stored sessions as a sorted list, with
    duplicate, delete and the pace toggle. The list the component shows is a
    value next to the store; the current time (as a number and as an ISO
    string) and the answer to the delete confirmation are inputs. */
module SessionList {
  import opened Wrappers
  import opened Decimal
  import opened Types
  import opened IdList
  import opened Storage

  // ---------------------------------------------------------------------
  // Sorting

  /** The columns a list can be sorted by. */
  datatype SortKey = CreatedAt | LastUsedAt | TotalTime

  datatype SortOrder = Asc | Desc

  /** The list opens sorted by last use, most recent first. */
  const DefaultSortKey: SortKey := LastUsedAt
  const DefaultSortOrder: SortOrder := Desc

  /** What a missing last-use date compares as. */
  const Epoch: string := "1970-01-01T00:00:00.000Z"

  /** A sort key's value: the dates are strings, the total a number. */
  datatype KeyValue = Text(text: string) | Number(n: int)

  /** JavaScript's `<` on two strings: code-unit by code-unit, a proper
      prefix first. */
  predicate StrLess(a: string, b: string) {
    if |b| == 0 then false
    else if |a| == 0 then true
    else if a[0] != b[0] then a[0] < b[0]
    else StrLess(a[1..], b[1..])
  }

  /** `a[sortBy]`, with a missing or empty `lastUsedAt` read as the epoch
      (`valA || '1970-01-01T00:00:00.000Z'`). */
  function KeyOf(s: WorkoutSession, col: SortKey): (v: KeyValue)
    ensures col == TotalTime <==> v.Number?
  {
    match col
    case CreatedAt => Text(s.createdAt)
    case LastUsedAt =>
      Text(if s.lastUsedAt.Some? && s.lastUsedAt.value != "" then s.lastUsedAt.value else Epoch)
    case TotalTime => Number(s.totalTime)
  }

  /** `valA < valB` on two values of the same column. */
  predicate Below(x: KeyValue, y: KeyValue) {
    match x
    case Text(a) => y.Text? && StrLess(a, y.text)
    case Number(m) => y.Number? && m < y.n
  }

  /** The comparator handed to `sort`: negative when `a` goes first. */
  function Compare(a: WorkoutSession, b: WorkoutSession, col: SortKey, order: SortOrder): (c: int)
    ensures c in {-1, 0, 1}
    ensures c == 0 <==> !Below(KeyOf(a, col), KeyOf(b, col)) && !Below(KeyOf(b, col), KeyOf(a, col))
    ensures Below(KeyOf(a, col), KeyOf(b, col)) ==> c == (if order == Asc then -1 else 1)
    ensures Below(KeyOf(b, col), KeyOf(a, col)) ==> c == (if order == Asc then 1 else -1)
  {
    var x, y := KeyOf(a, col), KeyOf(b, col);
    assert !(Below(x, y) && Below(y, x)) by {
      if x.Text? && y.Text? { StrLessTotal(x.text, y.text); }
    }
    if Below(x, y) then (if order == Asc then -1 else 1)
    else if Below(y, x) then (if order == Asc then 1 else -1)
    else 0
  }

  lemma {:induction false} StrLessIrreflexive(a: string)
    ensures !StrLess(a, a)
  {
    if |a| > 0 {
      StrLessIrreflexive(a[1..]);
    }
  }

  /** JavaScript's string order is a strict total order. */
  lemma {:induction false} StrLessTotal(a: string, b: string)
    ensures !(StrLess(a, b) && StrLess(b, a))
    ensures a != b ==> StrLess(a, b) || StrLess(b, a)
  {
    if |a| > 0 && |b| > 0 && a[0] == b[0] {
      StrLessTotal(a[1..], b[1..]);
      if a[1..] == b[1..] {
        assert a == [a[0]] + a[1..] && b == [b[0]] + b[1..];
      }
    }
  }

  lemma {:induction false} StrLessTransitive(a: string, b: string, c: string)
    requires StrLess(a, b) && StrLess(b, c)
    ensures StrLess(a, c)
  {
    if |a| > 0 && a[0] == b[0] && b[0] == c[0] {
      StrLessTransitive(a[1..], b[1..], c[1..]);
    }
  }

  /** Equal keys compare as 0, swapping the arguments negates the result and
      flipping the order negates every result. */
  lemma CompareSymmetries(a: WorkoutSession, b: WorkoutSession, col: SortKey, order: SortOrder)
    ensures KeyOf(a, col) == KeyOf(b, col) ==> Compare(a, b, col, order) == 0
    ensures Compare(a, b, col, order) == -Compare(b, a, col, order)
    ensures Compare(a, b, col, Desc) == -Compare(a, b, col, Asc)
  {
    var x, y := KeyOf(a, col), KeyOf(b, col);
    if x.Text? {
      StrLessTotal(x.text, y.text);
      StrLessIrreflexive(x.text);
    }
  }

  /** "Does not go after": the relation a sorted list keeps between
      neighbours. */
  predicate NotAfter(a: WorkoutSession, b: WorkoutSession, col: SortKey, order: SortOrder) {
    Compare(a, b, col, order) <= 0
  }

  lemma NotAfterTotal(a: WorkoutSession, b: WorkoutSession, col: SortKey, order: SortOrder)
    ensures NotAfter(a, b, col, order) || NotAfter(b, a, col, order)
  {
    CompareSymmetries(a, b, col, order);
  }

  lemma NotAfterTransitive(a: WorkoutSession, b: WorkoutSession, c: WorkoutSession, col: SortKey, order: SortOrder)
    requires NotAfter(a, b, col, order) && NotAfter(b, c, col, order)
    ensures NotAfter(a, c, col, order)
  {
    var x, y, z := KeyOf(a, col), KeyOf(b, col), KeyOf(c, col);
    if x.Text? {
      StrLessTotal(x.text, y.text);
      StrLessTotal(y.text, z.text);
      StrLessTotal(x.text, z.text);
      if StrLess(x.text, y.text) && StrLess(y.text, z.text) { StrLessTransitive(x.text, y.text, z.text); }
      if StrLess(z.text, y.text) && StrLess(y.text, x.text) { StrLessTransitive(z.text, y.text, x.text); }
    }
  }

  /** Every session goes no later than its successor. */
  predicate Sorted(s: seq<WorkoutSession>, col: SortKey, order: SortOrder) {
    forall i :: 0 <= i < |s| - 1 ==> NotAfter(s[i], s[i + 1], col, order)
  }

  /** Places `x` before the first session that should come after it. */
  function Insert(x: WorkoutSession, s: seq<WorkoutSession>, col: SortKey, order: SortOrder): (r: seq<WorkoutSession>)
    ensures multiset(r) == multiset(s) + multiset{x}
    ensures |r| == |s| + 1 && (r[0] == x || (|s| > 0 && r[0] == s[0]))
    ensures Sorted(s, col, order) ==> Sorted(r, col, order)
  {
    if |s| == 0 then [x]
    else if Compare(x, s[0], col, order) < 0 then
      if Sorted(s, col, order) then SortedCons(x, s, col, order); [x] + s
      else [x] + s
    else
      var rest := Insert(x, s[1..], col, order);
      assert s == [s[0]] + s[1..];
      if Sorted(s, col, order) then
        SortedTail(s, col, order);
        InsertBehindHead(x, s, rest, col, order);
        [s[0]] + rest
      else [s[0]] + rest
  }

  /** When `x` does not go before the head, the head followed by a sorted
      insertion into the tail is sorted. */
  lemma InsertBehindHead(x: WorkoutSession, s: seq<WorkoutSession>, rest: seq<WorkoutSession>, col: SortKey, order: SortOrder)
    requires |s| > 0 && Sorted(s, col, order) && Compare(x, s[0], col, order) >= 0
    requires Sorted(rest, col, order) && |rest| > 0
    requires rest[0] == x || (|s| > 1 && rest[0] == s[1])
    ensures Sorted([s[0]] + rest, col, order)
  {
    NotAfterTotal(x, s[0], col, order);
    if rest[0] != x {
      assert NotAfter(s[0], s[1], col, order);
    }
    SortedCons(s[0], rest, col, order);
  }

  lemma SortedTail(s: seq<WorkoutSession>, col: SortKey, order: SortOrder)
    requires Sorted(s, col, order) && |s| > 0
    ensures Sorted(s[1..], col, order)
  {
    forall i | 0 <= i < |s[1..]| - 1 ensures NotAfter(s[1..][i], s[1..][i + 1], col, order) {
      assert s[1..][i] == s[i + 1] && s[1..][i + 1] == s[i + 2];
    }
  }

  lemma SortedCons(y: WorkoutSession, s: seq<WorkoutSession>, col: SortKey, order: SortOrder)
    requires Sorted(s, col, order) && (|s| == 0 || NotAfter(y, s[0], col, order))
    ensures Sorted([y] + s, col, order)
  {
    var r := [y] + s;
    forall i | 0 <= i < |r| - 1 ensures NotAfter(r[i], r[i + 1], col, order) {
      if i > 0 { assert r[i] == s[i - 1] && r[i + 1] == s[i]; }
    }
  }

  /** `[...sessions].sort(comparator)`: a new sorted list of the same
      sessions; the list sorted is not changed. */
  function SortSessions(s: seq<WorkoutSession>, col: SortKey, order: SortOrder): (r: seq<WorkoutSession>)
    ensures multiset(r) == multiset(s) && |r| == |s|
    ensures Sorted(r, col, order)
  {
    if |s| == 0 then []
    else
      assert s == s[..|s| - 1] + [s[|s| - 1]];
      Insert(s[|s| - 1], SortSessions(s[..|s| - 1], col, order), col, order)
  }

  /** In a sorted list every earlier session goes no later than every later
      one, not just its neighbour. */
  lemma {:induction false} SortedPairwise(s: seq<WorkoutSession>, col: SortKey, order: SortOrder, i: nat, j: nat)
    requires Sorted(s, col, order) && i < j < |s|
    ensures NotAfter(s[i], s[j], col, order)
    decreases j - i
  {
    if j > i + 1 {
      SortedPairwise(s, col, order, i + 1, j);
      NotAfterTransitive(s[i], s[i + 1], s[j], col, order);
    }
  }

  /** Under the default order a session that was never used goes after every
      session used after the epoch. */
  lemma NeverUsedSortsLast(s: seq<WorkoutSession>, i: nat, j: nat)
    requires Sorted(s, DefaultSortKey, DefaultSortOrder)
    requires i < |s| && j < |s|
    requires s[i].lastUsedAt.None?
    requires s[j].lastUsedAt.Some? && StrLess(Epoch, s[j].lastUsedAt.value)
    ensures j < i
  {
    var col, order := DefaultSortKey, DefaultSortOrder;
    assert KeyOf(s[i], col) == Text(Epoch);
    assert !StrLess(Epoch, "");
    StrLessTotal(Epoch, s[j].lastUsedAt.value);
    assert Compare(s[i], s[j], col, order) == 1;
    if i < j {
      SortedPairwise(s, col, order, i, j);
    } else if i == j {
      StrLessIrreflexive(Epoch);
    }
  }

  // ---------------------------------------------------------------------
  // Duplicate, delete, toggle

  /** What the component holds: the store and the list it shows. */
  datatype View = View(store: Store, sessions: seq<WorkoutSession>)

  /** The list when the component mounts: what the store holds. */
  function Load(store: Store): (v: View)
    ensures v.sessions == GetWorkoutSessions(store)
  {
    View(store, GetWorkoutSessions(store))
  }

  /** The copy `handleDuplicate` saves: every field kept except the id, the
      name, which gets " (Copy)", and the creation date. */
  function CopyOf(s: WorkoutSession, now: int, nowIso: string): (c: WorkoutSession)
    ensures c.(id := s.id, name := s.name, createdAt := s.createdAt) == s
    ensures c.name == s.name + " (Copy)" && c.createdAt == nowIso
  {
    s.(id := "session-" + IntToString(now), name := s.name + " (Copy)", createdAt := nowIso)
  }

  /** `handleDuplicate(id)`: the copy of the first shown session with the id
      is saved, and the list is reloaded from the store. An id that is not
      shown changes nothing. */
  function HandleDuplicate(v: View, id: string, now: int, nowIso: string): (r: View)
    ensures !Contains(v.sessions, SessionId, id) ==> r == v
    ensures Contains(v.sessions, SessionId, id) ==> r.sessions == GetWorkoutSessions(r.store)
    ensures Contains(v.sessions, SessionId, id) ==>
              r.store == SaveWorkoutSession(v.store, CopyOf(Find(v.sessions, SessionId, id).value, now, nowIso))
  {
    match Find(v.sessions, SessionId, id)
    case None => v
    case Some(s) => Load(SaveWorkoutSession(v.store, CopyOf(s, now, nowIso)))
  }

  /** When storage works, the copy is then found in the store under its new
      id. */
  lemma DuplicateIsStored(v: View, id: string, now: int, nowIso: string)
    requires v.store.Available?
    requires Contains(v.sessions, SessionId, id)
    ensures var c := CopyOf(Find(v.sessions, SessionId, id).value, now, nowIso);
      GetWorkoutSession(HandleDuplicate(v, id, now, nowIso).store, c.id) == Some(c)
  {
    SaveThenGet(v.store, CopyOf(Find(v.sessions, SessionId, id).value, now, nowIso));
  }

  /** Duplicating saves the copy and nothing else: every id other than the
      copy's finds in the store what it found before. */
  lemma DuplicateKeepsOthers(v: View, id: string, now: int, nowIso: string, other: string)
    requires Contains(v.sessions, SessionId, id)
    requires other != CopyOf(Find(v.sessions, SessionId, id).value, now, nowIso).id
    ensures GetWorkoutSession(HandleDuplicate(v, id, now, nowIso).store, other) == GetWorkoutSession(v.store, other)
  {
    SaveKeepsOthers(v.store, CopyOf(Find(v.sessions, SessionId, id).value, now, nowIso), other);
  }

  /** `handleDelete(id)`: only on confirmation, the sessions with the id are
      deleted and the list is reloaded from the store. */
  function HandleDelete(v: View, id: string, confirmed: bool): (r: View)
    ensures !confirmed ==> r == v
    ensures confirmed ==> r.sessions == GetWorkoutSessions(r.store)
    ensures confirmed && v.store.Available? ==> forall s :: s in r.sessions ==> s.id != id
    ensures confirmed ==> r.store == DeleteWorkoutSession(v.store, id)
    ensures confirmed && v.store.Available? ==>
              r.sessions == RemoveWhere(GetWorkoutSessions(v.store), SessionId, id)
  {
    if confirmed then
      var store := DeleteWorkoutSession(v.store, id);
      assert v.store.Available? ==> forall s :: s in GetWorkoutSessions(store) ==> s.id != id by {
        if v.store.Available? { DeleteRemovesAll(v.store, id); }
      }
      Load(store)
    else v
  }

  /** `handleTogglePace(id)`: the first shown session with the id, with
      `showPace` flipped, is saved, and every shown session with that id is
      replaced by it; the list is not reloaded. */
  function HandleTogglePace(v: View, id: string): (r: View)
    ensures !Contains(v.sessions, SessionId, id) ==> r == v
    ensures |r.sessions| == |v.sessions|
    ensures forall i :: 0 <= i < |v.sessions| && v.sessions[i].id != id ==> r.sessions[i] == v.sessions[i]
    ensures forall i :: 0 <= i < |v.sessions| && v.sessions[i].id == id ==>
              r.sessions[i] == Find(v.sessions, SessionId, id).value.(showPace := !Find(v.sessions, SessionId, id).value.showPace)
  {
    match Find(v.sessions, SessionId, id)
    case None => v
    case Some(s) =>
      var updated := s.(showPace := !s.showPace);
      View(SaveWorkoutSession(v.store, updated), ReplaceWhere(v.sessions, SessionId, id, updated))
  }

  /** When one shown session has the id, toggling twice gives back the
      shown list. */
  lemma TogglePaceTwice(v: View, id: string, k: int)
    requires OnlyAt(v.sessions, SessionId, id, k)
    ensures HandleTogglePace(HandleTogglePace(v, id), id).sessions == v.sessions
  {
    var s := v.sessions[k];
    ToggleOnce(v, id, k);
    ToggleOnce(HandleTogglePace(v, id), id, k);
    assert v.sessions[k := s.(showPace := !s.showPace)][k := s] == v.sessions;
  }

  /** A toggle flips the one session with the id, which keeps its place. */
  lemma ToggleOnce(v: View, id: string, k: int)
    requires OnlyAt(v.sessions, SessionId, id, k)
    ensures var s := v.sessions[k];
      HandleTogglePace(v, id).sessions == v.sessions[k := s.(showPace := !s.showPace)]
    ensures OnlyAt(HandleTogglePace(v, id).sessions, SessionId, id, k)
  {
    var s := v.sessions[k];
    var t := s.(showPace := !s.showPace);
    assert FirstAt(v.sessions, SessionId, id, k);
    FindIndexIsFirst(v.sessions, SessionId, id, k);
    ReplaceWhereOnly(v.sessions, SessionId, id, t, k);
    var r := v.sessions[k := t];
    assert forall i :: 0 <= i < |r| ==> SessionId(r[i]) == SessionId(v.sessions[i]);
  }

  /** With distinct ids and working storage, the shown list stays what the
      store holds after a toggle. */
  lemma TogglePaceKeepsViewInSync(v: View, id: string)
    requires v.store.Available? && v.sessions == GetWorkoutSessions(v.store)
    requires UniqueIds(v.sessions, SessionId)
    ensures HandleTogglePace(v, id).sessions == GetWorkoutSessions(HandleTogglePace(v, id).store)
  {
    if Contains(v.sessions, SessionId, id) {
      var s := Find(v.sessions, SessionId, id).value;
      UpsertIsReplaceWhenUnique(v.sessions, SessionId, s.(showPace := !s.showPace));
    }
  }
}

=== FILE: steppers.dfy ===
/** The two stepper controls of `src/components/ui`: `NumberStepper`, a
    number between optional limits moved by a step, and `TimeInput`, a
    duration in seconds moved by 15 seconds and typed as "mm:ss". Each
    handler yields the value the control hands to `onChange`. */
module Steppers {
  import opened Wrappers
  import opened JsNumber
  import opened TimeCodec

  // ---------------------------------------------------------------------
  // NumberStepper

  /** A limit that may be infinite: `-Infinity` as a minimum, `Infinity` as
      a maximum. */
  datatype Limit = Infinite | Finite(bound: real)

  /** The props of a `NumberStepper`. */
  datatype Stepper = Stepper(value: real, min: Limit, max: Limit, step: real)

  /** A stepper with the default props: unbounded, step 1. */
  function DefaultStepper(value: real): (s: Stepper)
    ensures s.min.Infinite? && s.max.Infinite? && s.step == 1.0
  {
    Stepper(value, Infinite, Infinite, 1.0)
  }

  predicate AtLeast(v: real, min: Limit) {
    min.Infinite? || min.bound <= v
  }

  predicate AtMost(v: real, max: Limit) {
    max.Infinite? || v <= max.bound
  }

  predicate InRange(s: Stepper) {
    AtLeast(s.value, s.min) && AtMost(s.value, s.max)
  }

  /** `Math.min(max, value + step)`: the larger of the two bounds it obeys. */
  function Increment(s: Stepper): (r: real)
    ensures AtMost(r, s.max) && r <= s.value + s.step
    ensures r == s.value + s.step || (s.max.Finite? && r == s.max.bound)
  {
    if s.max.Finite? && s.max.bound < s.value + s.step then s.max.bound else s.value + s.step
  }

  /** `Math.max(min, value - step)`: the smaller of the two bounds it obeys. */
  function Decrement(s: Stepper): (r: real)
    ensures AtLeast(r, s.min) && r >= s.value - s.step
    ensures r == s.value - s.step || (s.min.Finite? && r == s.min.bound)
  {
    if s.min.Finite? && s.min.bound > s.value - s.step then s.min.bound else s.value - s.step
  }

  /** `disabled={value <= min}`; never with an infinite minimum. */
  predicate DecrementDisabled(s: Stepper) {
    s.min.Finite? && s.value <= s.min.bound
  }

  /** `disabled={value >= max}`; never with an infinite maximum. */
  predicate IncrementDisabled(s: Stepper) {
    s.max.Finite? && s.value >= s.max.bound
  }

  /** From a value within the limits, both buttons land within the limits. */
  lemma StepsStayInRange(s: Stepper)
    requires InRange(s) && s.step >= 0.0
    ensures InRange(s.(value := Increment(s)))
    ensures InRange(s.(value := Decrement(s)))
  {
  }

  /** With a positive step and a value within the limits, a button is
      disabled exactly when pressing it would not change the value. */
  lemma DisabledExactlyWhenStuck(s: Stepper)
    requires InRange(s) && s.step > 0.0
    ensures DecrementDisabled(s) <==> Decrement(s) == s.value
    ensures IncrementDisabled(s) <==> Increment(s) == s.value
  {
  }

  /** Typed input: `parseFloat(text) || 0`, given what `parseFloat` read;
      `NaN` and zero give 0 and nothing is clamped to the limits. */
  function TypedValue(parsed: Option<real>): (r: real)
    ensures parsed.Some? ==> r == parsed.value
    ensures parsed.None? ==> r == 0.0
  {
    OrZeroReal(parsed)
  }

  /** A typed value beyond the maximum is handed on as it is. */
  lemma TypedValueNotClamped(s: Stepper, x: real)
    requires s.max.Finite? && x > s.max.bound
    ensures !InRange(s.(value := TypedValue(Some(x))))
  {
  }

  // ---------------------------------------------------------------------
  // TimeInput

  /** The default step of a `TimeInput`, in seconds. */
  const TimeStep := 15

  /** `value + step`. */
  function TimeIncrement(value: int, step: int): int {
    value + step
  }

  /** `Math.max(0, value - step)`: one step down, stopping at zero. */
  function TimeDecrement(value: int, step: int): (r: int)
    ensures r >= 0
    ensures r >= value - step
    ensures r == 0 || r == value - step
  {
    if value - step < 0 then 0 else value - step
  }

  /** Stepping down and back up from a value of at least one step returns
      to it. */
  lemma DecrementThenIncrement(value: int, step: int)
    requires value >= step
    ensures TimeIncrement(TimeDecrement(value, step), step) == value
  {
  }

  /** From a non-negative value, stepping up and back down returns to it. */
  lemma IncrementThenDecrement(value: int, step: int)
    requires value >= 0 && step >= 0
    ensures TimeDecrement(TimeIncrement(value, step), step) == value
  {
  }

  /** Stepping down from below one step lands on zero. */
  lemma DecrementStopsAtZero(value: int, step: int)
    requires value < step
    ensures TimeDecrement(value, step) == 0
  {
  }

  /** The text field shows `formatTime(value)`. */
  function TimeShown(value: int): string {
    FormatTime(value)
  }

  /** Typed "mm:ss": each part through `parseInt(part, 10) || 0`; without a
      colon the seconds part is missing and the value is `NaN`. */
  function TimeTyped(text: string): (r: Option<int>)
    ensures r.Some? <==> ':' in text
    ensures DigitClock(text) ==> r == Some(ClockValue(text))
  {
    ParseSteppedTime(text)
  }

  /** What the field shows for a non-negative value reads back as it. */
  lemma ShownTimeReadsBack(value: nat)
    ensures TimeTyped(TimeShown(value)) == Some(value)
    ensures CanonicalClock(TimeShown(value))
  {
    SteppedFormatRoundTrip(value);
    FormatTimeSpec(value);
  }
}

=== FILE: storage.dfy ===
/** The session store of `src/lib/storage.ts`. Browser storage is a value:
    either unavailable, or available with whatever the "workout-sessions"
    key holds. JSON text is not modelled; a stored value is either a list of
    sessions or text that does not parse. */
module Storage {
  import opened Wrappers
  import opened Types
  import opened IdList

  /** What `getItem(key)` yields and how it parses: no entry, the empty
      string, text that `JSON.parse` rejects, or a list. */
  datatype Slot<T> = Absent | Blank | Malformed | Stored(value: seq<T>)

  /** `localStorage`, or its absence (the `isLocalStorageAvailable` probe
      failing). */
  datatype Store = Unavailable | Available(slot: Slot<WorkoutSession>)

  /** `JSON.parse(getItem(key) || '[]')` as the pages write it: an absent
      or empty entry reads as an empty list, and malformed text throws
      (`None`). */
  function ReadList<T>(slot: Slot<T>): Option<seq<T>> {
    match slot
    case Absent => Some([])
    case Blank => Some([])
    case Malformed => None
    case Stored(list) => Some(list)
  }

  /** The id a session is stored under. */
  function SessionId(s: WorkoutSession): string {
    s.id
  }

  /** `getWorkoutSessions()`: the stored list, and an empty one when storage
      is unavailable, the key is absent or empty, or the text is malformed. */
  function GetWorkoutSessions(store: Store): (r: seq<WorkoutSession>)
    ensures store.Available? && store.slot.Stored? ==> r == store.slot.value
    ensures store.Unavailable? || !store.slot.Stored? ==> r == []
  {
    match store
    case Unavailable => []
    case Available(slot) =>
      match slot
      case Stored(sessions) => sessions
      case _ => []
  }

  /** `saveWorkoutSessions(sessions)`: overwrites the key when storage is
      available and does nothing otherwise. */
  function SaveWorkoutSessions(store: Store, sessions: seq<WorkoutSession>): (r: Store)
    ensures store.Unavailable? ==> r == store
    ensures store.Available? ==> GetWorkoutSessions(r) == sessions
  {
    if store.Unavailable? then store else Available(Stored(sessions))
  }

  /** `getWorkoutSession(id)`: the first stored session with the id. */
  function GetWorkoutSession(store: Store, id: string): (r: Option<WorkoutSession>)
    ensures r.Some? ==> r.value.id == id && r.value in GetWorkoutSessions(store)
    ensures r.Some? ==> exists j :: FirstAt(GetWorkoutSessions(store), SessionId, id, j) && GetWorkoutSessions(store)[j] == r.value
    ensures r.None? <==> forall s :: s in GetWorkoutSessions(store) ==> s.id != id
  {
    var r := Find(GetWorkoutSessions(store), SessionId, id);
    assert r.None? <==> forall s :: s in GetWorkoutSessions(store) ==> s.id != id by {
      assert forall s :: s in GetWorkoutSessions(store) ==> SessionId(s) == s.id;
    }
    r
  }

  /** `saveWorkoutSession(session)`: the stored list with the session
      upserted by id, written back. */
  function SaveWorkoutSession(store: Store, session: WorkoutSession): Store {
    SaveWorkoutSessions(store, Upsert(GetWorkoutSessions(store), SessionId, session))
  }

  /** `deleteWorkoutSession(id)`: the stored list without the sessions that
      have the id, written back. */
  function DeleteWorkoutSession(store: Store, id: string): Store {
    SaveWorkoutSessions(store, RemoveWhere(GetWorkoutSessions(store), SessionId, id))
  }

  /** When storage is available, a saved session is what a lookup of its id
      returns. */
  lemma SaveThenGet(store: Store, session: WorkoutSession)
    requires store.Available?
    ensures GetWorkoutSession(SaveWorkoutSession(store, session), session.id) == Some(session)
  {
  }

  /** Saving a session whose id is stored replaces its first occurrence in
      place; saving one with a new id appends it. */
  lemma SaveReplacesOrAppends(store: Store, session: WorkoutSession, i: int)
    requires store.Available?
    requires i == FindIndex(GetWorkoutSessions(store), SessionId, session.id)
    ensures i >= 0 ==> GetWorkoutSessions(SaveWorkoutSession(store, session))
                       == GetWorkoutSessions(store)[i := session]
    ensures i == -1 ==> GetWorkoutSessions(SaveWorkoutSession(store, session))
                        == GetWorkoutSessions(store) + [session]
  {
    if i >= 0 {
      UpsertReplaces(GetWorkoutSessions(store), SessionId, session, i);
    }
  }

  /** Saving the same session twice stores what saving it once stores. */
  lemma SaveIdempotent(store: Store, session: WorkoutSession)
    ensures SaveWorkoutSession(SaveWorkoutSession(store, session), session)
         == SaveWorkoutSession(store, session)
  {
    if store.Available? {
      UpsertIdempotent(GetWorkoutSessions(store), SessionId, session);
    }
  }

  /** Saving a session leaves the lookup of every other id as it was. */
  lemma SaveKeepsOthers(store: Store, session: WorkoutSession, id: string)
    requires id != session.id
    ensures GetWorkoutSession(SaveWorkoutSession(store, session), id) == GetWorkoutSession(store, id)
  {
    if store.Available? {
      UpsertKeepsOthers(GetWorkoutSessions(store), SessionId, session, id);
    }
  }

  /** Storage that holds an empty or malformed entry reads as empty, so the
      first save overwrites it with the one session. */
  lemma SaveOverUnreadable(store: Store, session: WorkoutSession)
    requires store.Available? && !store.slot.Stored?
    ensures SaveWorkoutSession(store, session) == Available(Stored([session]))
  {
  }

  /** After a delete no stored session has the id; the others stay, in their
      order, and deleting an id that is not stored rewrites the same list. */
  lemma DeleteRemovesAll(store: Store, id: string)
    requires store.Available?
    ensures GetWorkoutSession(DeleteWorkoutSession(store, id), id).None?
    ensures GetWorkoutSessions(DeleteWorkoutSession(store, id))
            == RemoveWhere(GetWorkoutSessions(store), SessionId, id)
    ensures forall s :: s in GetWorkoutSessions(store) && s.id != id
                    <==> s in GetWorkoutSessions(DeleteWorkoutSession(store, id))
    ensures (forall s :: s in GetWorkoutSessions(store) ==> s.id != id) ==>
              GetWorkoutSessions(DeleteWorkoutSession(store, id)) == GetWorkoutSessions(store)
  {
    var ss := GetWorkoutSessions(store);
    RemovePartition(ss, SessionId, id);
    if forall s :: s in ss ==> s.id != id {
      assert !Contains(ss, SessionId, id) by {
        forall j | 0 <= j < |ss| ensures SessionId(ss[j]) != id {
          assert ss[j] in ss;
        }
      }
      RemoveAbsent(ss, SessionId, id);
    }
  }

  /** Without storage nothing is saved or deleted and nothing is found. */
  lemma UnavailableIsInert(session: WorkoutSession, id: string)
    ensures SaveWorkoutSession(Unavailable, session) == Unavailable
    ensures DeleteWorkoutSession(Unavailable, id) == Unavailable
    ensures GetWorkoutSession(Unavailable, id).None?
  {
  }
}

=== FILE: time_codec.dfy ===
/** The "MM:SS" clock codec: `formatTime` and `parseTimeToSeconds` of
    `lib/time-utils.ts`, plus the two variants of the parser that the
    editing components carry locally (they share the formatter). */
module TimeCodec {
  import opened Wrappers
  import opened Decimal
  import opened JsString
  import opened JsNumber

  /** JavaScript's `%` on a positive divisor: the remainder takes the sign
      of the dividend (Dafny's `%` never goes negative). */
  function JsRem60(a: int): (r: int)
    ensures a >= 0 ==> r == a % 60
    ensures a < 0 ==> -60 < r <= 0 && r == -((-a) % 60)
  {
    if a >= 0 then a % 60 else -((-a) % 60)
  }

  /** `t` is "<digits>:<digits>": one colon, non-empty digit runs on both sides. */
  predicate DigitClock(t: string) {
    var parts := Split(t, ':');
    && |parts| == 2
    && AllDigits(parts[0]) && |parts[0]| >= 1
    && AllDigits(parts[1]) && |parts[1]| >= 1
  }

  function ClockMinutes(t: string): (m: string)
    requires DigitClock(t)
    ensures AllDigits(m) && |m| >= 1
  {
    Split(t, ':')[0]
  }

  function ClockSeconds(t: string): (s: string)
    requires DigitClock(t)
    ensures AllDigits(s) && |s| >= 1
  {
    Split(t, ':')[1]
  }

  /** The value a "<digits>:<digits>" string stands for, in seconds. */
  function ClockValue(t: string): nat
    requires DigitClock(t)
  {
    Value(ClockMinutes(t)) * 60 + Value(ClockSeconds(t))
  }

  /** The form `formatTime` produces: minutes padded to at least two digits
      without superfluous zeros beyond that, seconds exactly two digits below 60. */
  predicate CanonicalClock(t: string) {
    && DigitClock(t)
    && |ClockSeconds(t)| == 2 && Value(ClockSeconds(t)) < 60
    && |ClockMinutes(t)| >= 2
    && (|ClockMinutes(t)| == 2 || ClockMinutes(t)[0] != '0')
  }

  lemma DigitClockParts(a: string, b: string)
    requires AllDigits(a) && AllDigits(b) && |a| >= 1 && |b| >= 1
    ensures Split(a + ":" + b, ':') == [a, b]
    ensures DigitClock(a + ":" + b)
    ensures ClockMinutes(a + ":" + b) == a && ClockSeconds(a + ":" + b) == b
  {
    assert ':' !in a && ':' !in b by {
      assert forall i :: 0 <= i < |a| ==> a[i] != ':';
      assert forall i :: 0 <= i < |b| ==> b[i] != ':';
    }
    SplitTwo(a, b, ':');
  }

  lemma NatToStringShort(n: nat)
    requires n < 100
    ensures |NatToString(n)| <= 2
  {
  }

  /** `formatTime(seconds)`: `Math.floor(seconds / 60)` and `seconds % 60`,
      each printed and padded to two digits. */
  function FormatTime(seconds: int): string {
    PadStart2(IntToString(seconds / 60)) + ":" + PadStart2(IntToString(JsRem60(seconds)))
  }

  /** For a non-negative count `formatTime` prints a clock whose seconds
      field is two digits below 60 and whose minutes field, at least two
      digits long but never truncated, holds the whole minutes. */
  lemma FormatTimeSpec(seconds: int)
    ensures seconds >= 0 ==> CanonicalClock(FormatTime(seconds))
    ensures seconds >= 0 ==> Value(ClockMinutes(FormatTime(seconds))) == seconds / 60
    ensures seconds >= 0 ==> Value(ClockSeconds(FormatTime(seconds))) == seconds % 60
  {
    if seconds >= 0 {
      var m := PadStart2(IntToString(seconds / 60));
      var s := PadStart2(IntToString(JsRem60(seconds)));
      PadStart2Value(NatToString(seconds / 60));
      PadStart2Value(NatToString(seconds % 60));
      NatToStringShort(seconds % 60);
      DigitClockParts(m, s);
    }
  }

  /** A digit clock is its minutes and seconds fields around the colon. */
  lemma ClockSplit(t: string)
    requires DigitClock(t)
    ensures Split(t, ':') == [ClockMinutes(t), ClockSeconds(t)]
    ensures t == ClockMinutes(t) + ":" + ClockSeconds(t)
  {
    var parts := Split(t, ':');
    assert parts == [parts[0], parts[1]];
    SplitJoin(t, ':');
    assert parts[1..] == [parts[1]];
  }

  /** `parseTimeToSeconds(t)`: split at ':' and convert both parts with
      `Number`; a missing seconds part or an unparsable part is `NaN`. */
  function ParseTimeToSeconds(t: string): Option<int> {
    ParseParts(Split(t, ':'))
  }

  /** A digit clock reads as its minutes times 60 plus its seconds; a string
      without a colon has no seconds part and reads as `NaN`. */
  lemma ParseTimeToSecondsSpec(t: string)
    ensures DigitClock(t) ==> ParseTimeToSeconds(t) == Some(ClockValue(t))
    ensures ':' !in t ==> ParseTimeToSeconds(t).None?
  {
    ParsePartsOfClock(t);
  }

  lemma ParsePartsOfClock(t: string)
    ensures DigitClock(t) ==> ParseParts(Split(t, ':')) == Some(ClockValue(t))
  {
    if DigitClock(t) {
      ClockSplit(t);
      ParsePartsOfDigits(ClockMinutes(t), ClockSeconds(t));
    }
  }

  lemma ParsePartsOfDigits(a: string, b: string)
    requires AllDigits(a) && |a| >= 1 && AllDigits(b) && |b| >= 1
    ensures ParseParts([a, b]) == Some(Value(a) * 60 + Value(b))
  {
    NumberOfDigitString(a);
    NumberOfDigitString(b);
    ParsePartsValues(a, b, Value(a), Value(b));
  }

  lemma NumberOfDigitString(a: string)
    requires AllDigits(a) && |a| >= 1
    ensures Number(a) == Some(Value(a))
  {
  }

  lemma ParseIntOfDigitString(a: string)
    requires AllDigits(a) && |a| >= 1
    ensures ParseInt(a) == Some(Value(a))
  {
  }

  lemma ParsePartsValues(a: string, b: string, x: int, y: int)
    requires Number(a) == Some(x) && Number(b) == Some(y)
    ensures ParseParts([a, b]) == Some(x * 60 + y)
  {
  }

  function ParseParts(parts: seq<string>): Option<int>
    requires |parts| >= 1
  {
    if |parts| < 2 then None
    else
      var m, s := Number(parts[0]), Number(parts[1]);
      if m.Some? && s.Some? then Some(m.value * 60 + s.value) else None
  }

  /** Formatting then parsing gives back every non-negative duration. */
  lemma ParseFormatRoundTrip(seconds: nat)
    ensures ParseTimeToSeconds(FormatTime(seconds)) == Some(seconds)
  {
    FormattedClockValue(seconds);
    ParseTimeToSecondsSpec(FormatTime(seconds));
  }

  lemma FormattedClockValue(seconds: nat)
    ensures DigitClock(FormatTime(seconds))
    ensures ClockValue(FormatTime(seconds)) == seconds
  {
    FormatTimeSpec(seconds);
  }

  /** Parsing then formatting gives back every canonical clock string. */
  lemma {:induction false} FormatParseRoundTrip(t: string)
    requires CanonicalClock(t)
    ensures ParseTimeToSeconds(t).Some?
    ensures FormatTime(ParseTimeToSeconds(t).value) == t
  {
    var a, b := ClockMinutes(t), ClockSeconds(t);
    var v := ClockValue(t);
    assert ParseTimeToSeconds(t) == Some(v) by { ParseTimeToSecondsSpec(t); }
    assert v / 60 == Value(a) && v % 60 == Value(b) by { MinutesAndSeconds(Value(a), Value(b), v); }
    assert FormatTime(v) == PadStart2(NatToString(Value(a))) + ":" + PadStart2(NatToString(Value(b))) by {
      FormatTimeFields(v);
    }
    assert PadStart2(NatToString(Value(a))) == a by { PaddedOfValue(a); }
    assert PadStart2(NatToString(Value(b))) == b by { PaddedOfValue(b); }
    assert t == a + ":" + b by { ClockSplit(t); }
  }

  /** What `formatTime` prints for a non-negative count, field by field. */
  lemma FormatTimeFields(v: nat)
    ensures FormatTime(v) == PadStart2(NatToString(v / 60)) + ":" + PadStart2(NatToString(v % 60))
  {
  }

  /** A digit string of at least two characters with no superfluous zero
      beyond the padding is what `padStart(2, '0')` makes of its value. */
  lemma PaddedOfValue(m: string)
    requires AllDigits(m) && |m| >= 2 && (|m| == 2 || m[0] != '0')
    ensures PadStart2(NatToString(Value(m))) == m
  {
    if m[0] != '0' {
      NatToStringOfValue(m);
    } else {
      var d := m[1..];
      assert m == "0" + d;
      ValueLeadingZero(d);
      NatToStringOfValue(d);
    }
  }

  /** The duration field of the item and sub-item forms: split at ':',
      `Number` on each part, a missing or unparsable seconds part counts as
      0 (`seconds || 0`), an unparsable minutes part makes the whole `NaN`. */
  function ParseEditedTime(t: string): (r: Option<int>)
    ensures DigitClock(t) ==> r == Some(ClockValue(t))
    ensures ':' !in t ==> r == (if Number(t).Some? then Some(Number(t).value * 60) else None)
    ensures Number(Split(t, ':')[0]).None? <==> r.None?
  {
    EditedPartsOfClock(t);
    EditedParts(Split(t, ':'))
  }

  lemma EditedPartsOfClock(t: string)
    ensures DigitClock(t) ==> EditedParts(Split(t, ':')) == Some(ClockValue(t))
  {
    if DigitClock(t) {
      ClockSplit(t);
      EditedPartsOfDigits(ClockMinutes(t), ClockSeconds(t));
    }
  }

  lemma EditedPartsOfDigits(a: string, b: string)
    requires AllDigits(a) && |a| >= 1 && AllDigits(b) && |b| >= 1
    ensures EditedParts([a, b]) == Some(Value(a) * 60 + Value(b))
  {
    NumberOfDigitString(a);
    NumberOfDigitString(b);
    EditedPartsValues(a, b, Value(a), Value(b));
  }

  lemma EditedPartsValues(a: string, b: string, x: int, y: nat)
    requires Number(a) == Some(x) && Number(b) == Some(y)
    ensures EditedParts([a, b]) == Some(x * 60 + y)
  {
  }

  function EditedParts(parts: seq<string>): Option<int>
    requires |parts| >= 1
  {
    match Number(parts[0])
    case None => None
    case Some(m) =>
      var secs := if |parts| >= 2 then OrZero(Number(parts[1])) else 0;
      Some(m * 60 + secs)
  }

  /** The item forms read back what they display. */
  lemma EditedFormatRoundTrip(seconds: nat)
    ensures ParseEditedTime(FormatTime(seconds)) == Some(seconds)
  {
    FormattedClockValue(seconds);
  }

  /** The text field of `TimeInput`: split at ':', `parseInt(part, 10) || 0`
      on each part; without a colon the seconds part is missing and the
      sum is `NaN`. */
  function ParseSteppedTime(t: string): (r: Option<int>)
    ensures DigitClock(t) ==> r == Some(ClockValue(t))
    ensures r.Some? <==> ':' in t
  {
    SteppedPartsOfClock(t);
    SplitSingle(t, ':');
    SteppedParts(Split(t, ':'))
  }

  lemma SteppedPartsOfClock(t: string)
    ensures DigitClock(t) ==> SteppedParts(Split(t, ':')) == Some(ClockValue(t))
  {
    if DigitClock(t) {
      ClockSplit(t);
      SteppedPartsOfDigits(ClockMinutes(t), ClockSeconds(t));
    }
  }

  lemma SteppedPartsOfDigits(a: string, b: string)
    requires AllDigits(a) && |a| >= 1 && AllDigits(b) && |b| >= 1
    ensures SteppedParts([a, b]) == Some(Value(a) * 60 + Value(b))
  {
    ParseIntOfDigitString(a);
    ParseIntOfDigitString(b);
    SteppedPartsValues(a, b, Value(a), Value(b));
  }

  lemma SteppedPartsValues(a: string, b: string, x: nat, y: nat)
    requires AllDigits(a) && |a| >= 1 && AllDigits(b) && |b| >= 1
    requires ParseInt(a) == Some(x) && ParseInt(b) == Some(y)
    ensures SteppedParts([a, b]) == Some(x * 60 + y)
  {
  }

  lemma SplitSingle(s: string, sep: char)
    ensures sep in s <==> |Split(s, sep)| >= 2
  {
  }

  function SteppedParts(parts: seq<string>): Option<int>
    requires |parts| >= 1
  {
    if |parts| < 2 then None
    else Some(OrZero(ParseInt(parts[0])) * 60 + OrZero(ParseInt(parts[1])))
  }

  /** `TimeInput` reads back what it displays. */
  lemma SteppedFormatRoundTrip(seconds: nat)
    ensures ParseSteppedTime(FormatTime(seconds)) == Some(seconds)
  {
    FormattedClockValue(seconds);
  }
}

=== FILE: totals.dfy ===
/** Session duration arithmetic of `src/lib/utils.ts`: `calculateTotalTime`
    and `formatTotalTime`. */
module Totals {
  import opened Wrappers
  import opened Decimal
  import opened JsString
  import opened Types

  /** `subs.reduce((t, sub) => t + sub.timer, 0)`. */
  function TimerSum(subs: seq<SubItem>): int {
    if |subs| == 0 then 0 else TimerSum(subs[..|subs| - 1]) + subs[|subs| - 1].timer
  }

  /** `subs.filter(sub => sub.omitForLastSet)`. */
  function OmittedSubs(subs: seq<SubItem>): (r: seq<SubItem>)
    ensures |r| <= |subs|
    ensures forall s :: s in r ==> s in subs && s.omitForLastSet
    ensures forall s :: s in subs && s.omitForLastSet ==> s in r
  {
    if |subs| == 0 then []
    else
      var rest := OmittedSubs(subs[..|subs| - 1]);
      var last := subs[|subs| - 1];
      assert subs == subs[..|subs| - 1] + [last];
      if last.omitForLastSet then rest + [last] else rest
  }

  /** The seconds one item contributes: its own timer once per set and, when
      it has sub-items and at least one set, every sub-item once per set
      except that the ones marked `omitForLastSet` are taken back once. */
  function ItemTime(item: WorkoutItem): int {
    var parentTime := item.timer * item.sets;
    var subItemsTime :=
      if |item.subItems| > 0 && item.sets > 0
      then TimerSum(item.subItems) * item.sets - TimerSum(OmittedSubs(item.subItems))
      else 0;
    parentTime + subItemsTime
  }

  /** `calculateTotalTime(items)`: the left fold of `ItemTime`. */
  function CalculateTotalTime(items: seq<WorkoutItem>): int {
    if |items| == 0 then 0
    else CalculateTotalTime(items[..|items| - 1]) + ItemTime(items[|items| - 1])
  }

  // ---------------------------------------------------------------------
  // Sums split over concatenation

  lemma {:induction false} TimerSumAppend(a: seq<SubItem>, b: seq<SubItem>)
    ensures TimerSum(a + b) == TimerSum(a) + TimerSum(b)
    decreases |b|
  {
    if |b| > 0 {
      var b' := b[..|b| - 1];
      assert (a + b)[..|a + b| - 1] == a + b';
      TimerSumAppend(a, b');
    } else {
      assert a + b == a;
    }
  }

  lemma {:induction false} OmittedAppend(a: seq<SubItem>, b: seq<SubItem>)
    ensures OmittedSubs(a + b) == OmittedSubs(a) + OmittedSubs(b)
    decreases |b|
  {
    if |b| > 0 {
      var b' := b[..|b| - 1];
      assert (a + b)[..|a + b| - 1] == a + b';
      OmittedAppend(a, b');
    } else {
      assert a + b == a;
    }
  }

  /** The total of a concatenation is the sum of the totals: each item
      contributes independently of its neighbours. */
  lemma {:induction false} TotalAppend(a: seq<WorkoutItem>, b: seq<WorkoutItem>)
    ensures CalculateTotalTime(a + b) == CalculateTotalTime(a) + CalculateTotalTime(b)
    decreases |b|
  {
    if |b| > 0 {
      var b' := b[..|b| - 1];
      assert (a + b)[..|a + b| - 1] == a + b';
      TotalAppend(a, b');
    } else {
      assert a + b == a;
    }
  }

  /** The total is the sum of the items' times taken one by one from the
      front, the order the running session plays them in. */
  lemma {:induction false} TotalFromFront(items: seq<WorkoutItem>)
    requires |items| > 0
    ensures CalculateTotalTime(items) == ItemTime(items[0]) + CalculateTotalTime(items[1..])
  {
    assert items == [items[0]] + items[1..];
    TotalAppend([items[0]], items[1..]);
    assert [items[0]][..0] == [];
  }

  // ---------------------------------------------------------------------
  // An independent, set-by-set account of one item

  /** The seconds of one set of `item`: the item's timer, then each sub-item
      unless it is the last set and the sub-item is marked to be skipped. */
  function SetTime(item: WorkoutItem, lastSet: bool): int {
    item.timer + PlayedSum(item.subItems, lastSet)
  }

  /** The sub-item seconds that one set plays. */
  function PlayedSum(subs: seq<SubItem>, lastSet: bool): int {
    if |subs| == 0 then 0
    else
      var last := subs[|subs| - 1];
      PlayedSum(subs[..|subs| - 1], lastSet) + (if lastSet && last.omitForLastSet then 0 else last.timer)
  }

  /** The seconds of `n` sets played one after the other, the `n`-th being the
      last; `sets` is the number of sets the item asks for. */
  function SetsTime(item: WorkoutItem, n: nat): int {
    if n == 0 then 0 else SetsTime(item, n - 1) + SetTime(item, n == item.sets)
  }

  lemma {:induction false} PlayedSumSplit(subs: seq<SubItem>)
    ensures PlayedSum(subs, false) == TimerSum(subs)
    ensures PlayedSum(subs, true) == TimerSum(subs) - TimerSum(OmittedSubs(subs))
  {
    if |subs| > 0 {
      var init := subs[..|subs| - 1];
      var last := subs[|subs| - 1];
      PlayedSumSplit(init);
      if last.omitForLastSet {
        TimerSumAppend(OmittedSubs(init), [last]);
        assert [last][..0] == [];
      }
    }
  }

  lemma {:induction false} SetsTimeBeforeLast(item: WorkoutItem, n: nat)
    requires n < item.sets
    ensures SetsTime(item, n) == n * (item.timer + TimerSum(item.subItems))
  {
    if n > 0 {
      SetsTimeBeforeLast(item, n - 1);
      PlayedSumSplit(item.subItems);
    }
  }

  lemma Distribute(n: int, x: int, y: int)
    ensures (n - 1) * (x + y) + x + y == n * x + n * y
  {
    assert (n - 1) * (x + y) == n * (x + y) - (x + y);
  }

  /** `calculateTotalTime`'s closed formula agrees with playing the sets one
      by one: every set plays the timer and all sub-items, and the last set
      leaves out the sub-items marked `omitForLastSet`. */
  lemma ItemTimeBySets(item: WorkoutItem)
    requires item.sets >= 0
    ensures ItemTime(item) == SetsTime(item, item.sets)
  {
    var n := item.sets;
    if n > 0 {
      var subs := item.subItems;
      var x, y, o := item.timer, TimerSum(subs), TimerSum(OmittedSubs(subs));
      assert SetsTime(item, n - 1) == (n - 1) * (x + y) by {
        SetsTimeBeforeLast(item, n - 1);
      }
      assert SetTime(item, true) == x + y - o by {
        PlayedSumSplit(subs);
      }
      assert ItemTime(item) == n * x + n * y - o by {
        if |subs| == 0 {
          assert OmittedSubs(subs) == [];
        }
      }
      Distribute(n, x, y);
    }
  }

  // ---------------------------------------------------------------------
  // Bounds

  predicate NonNegativeTimers(subs: seq<SubItem>) {
    forall i :: 0 <= i < |subs| ==> subs[i].timer >= 0
  }

  /** With non-negative timers the skipped sub-items never outweigh all of
      them, so the last set never plays a negative amount. */
  lemma {:induction false} OmittedBounded(subs: seq<SubItem>)
    requires NonNegativeTimers(subs)
    ensures 0 <= TimerSum(OmittedSubs(subs)) <= TimerSum(subs)
  {
    if |subs| > 0 {
      var init := subs[..|subs| - 1];
      var last := subs[|subs| - 1];
      OmittedBounded(init);
      if last.omitForLastSet {
        TimerSumAppend(OmittedSubs(init), [last]);
        assert [last][..0] == [];
      }
    }
  }

  lemma ProductBounds(s: int, n: int, o: int)
    requires 0 <= o <= s && n > 0
    ensures s * n - o >= 0
  {
    assert s * n >= s * 1;
  }

  /** An item whose timers and set count are not negative takes a time that
      is not negative. */
  lemma ItemTimeNonNegative(item: WorkoutItem)
    requires item.timer >= 0 && item.sets >= 0 && NonNegativeTimers(item.subItems)
    ensures ItemTime(item) >= 0
  {
    assert item.timer * item.sets >= 0;
    if |item.subItems| > 0 && item.sets > 0 {
      OmittedBounded(item.subItems);
      ProductBounds(TimerSum(item.subItems), item.sets, TimerSum(OmittedSubs(item.subItems)));
    }
  }

  /** Items whose timers and set counts are not negative add up to a total
      that is not negative. */
  lemma {:induction false} TotalNonNegative(items: seq<WorkoutItem>)
    requires forall i :: 0 <= i < |items| ==> items[i].timer >= 0 && items[i].sets >= 0 && NonNegativeTimers(items[i].subItems)
    ensures CalculateTotalTime(items) >= 0
  {
    if |items| > 0 {
      TotalNonNegative(items[..|items| - 1]);
      ItemTimeNonNegative(items[|items| - 1]);
    }
  }

  /** An item with no sets contributes nothing, whatever its sub-items. */
  lemma ZeroSetsContributeNothing(item: WorkoutItem)
    requires item.sets == 0
    ensures ItemTime(item) == 0
  {
  }

  // ---------------------------------------------------------------------
  // formatTotalTime and its reader

  /** `formatTotalTime(totalSeconds)`: "<minutes>m <seconds>s" with unpadded
      numbers; a negative total prints as "0m 0s". */
  function FormatTotalTime(totalSeconds: int): (r: string)
    ensures |r| >= 5 && r[|r| - 1] == 's'
  {
    if totalSeconds < 0 then "0m 0s"
    else NatToString(totalSeconds / 60) + "m " + NatToString(totalSeconds % 60) + "s"
  }

  /** `formatTotalTime` on a number that may be `NaN` (`None`): the `isNaN`
      guard prints "0m 0s", as for a negative total. */
  function FormatTotalNumber(totalSeconds: Option<int>): (r: string)
    ensures totalSeconds.None? ==> r == "0m 0s"
    ensures totalSeconds.Some? ==> r == FormatTotalTime(totalSeconds.value)
    ensures ReadTotalTime(r) == Some(if totalSeconds.None? || totalSeconds.value < 0 then 0 else totalSeconds.value)
  {
    match totalSeconds
    case None =>
      FormatReadRoundTrip(-1);
      "0m 0s"
    case Some(t) =>
      FormatReadRoundTrip(t);
      FormatTotalTime(t)
  }

  /** Reads "<minutes>m <seconds>s" written the way `formatTotalTime` writes
      it: canonical decimal numbers, seconds below 60. */
  function ReadTotalTime(s: string): (r: Option<nat>)
    ensures r.Some? ==> 'm' in s
  {
    if 'm' !in s then None
    else
      var i := IndexOfChar(s, 'm');
      ReadAfterMinutes(s[..i], s[i + 1..])
  }

  /** The part after the 'm' must be " <seconds>s". */
  function ReadAfterMinutes(mins: string, rest: string): Option<nat> {
    if |rest| >= 3 && rest[0] == ' ' && rest[|rest| - 1] == 's'
    then ReadNumbers(mins, rest[1..|rest| - 1])
    else None
  }

  function ReadNumbers(mins: string, secs: string): Option<nat> {
    if Canonical(mins) && Canonical(secs) && Value(secs) < 60
    then Some(Value(mins) * 60 + Value(secs))
    else None
  }

  lemma IndexOfCharAfter(a: string, c: char, b: string)
    requires c !in a
    ensures c in a + [c] + b
    ensures IndexOfChar(a + [c] + b, c) == |a|
  {
    var s := a + [c] + b;
    assert s[|a|] == c;
    assert s[..|a|] == a;
  }

  /** Pieces of a printed total. */
  lemma TotalPieces(a: string, b: string)
    requires Canonical(a) && Canonical(b)
    ensures var s := a + "m " + b + "s";
      && 'm' in s && IndexOfChar(s, 'm') == |a|
      && s[..|a|] == a && s[|a| + 1..] == " " + b + "s"
  {
    var s := a + "m " + b + "s";
    assert 'm' !in a by {
      assert forall i :: 0 <= i < |a| ==> IsDigit(a[i]);
    }
    assert s == a + ['m'] + (" " + b + "s");
    IndexOfCharAfter(a, 'm', " " + b + "s");
  }

  /** A printed total is read as the value its two numbers stand for. */
  lemma ReadPieces(s: string, a: string, b: string)
    requires Canonical(a) && Canonical(b)
    requires s == a + "m " + b + "s"
    ensures ReadTotalTime(s) == ReadNumbers(a, b)
  {
    TotalPieces(a, b);
    var i := IndexOfChar(s, 'm');
    var rest := s[i + 1..];
    assert s[..i] == a;
    assert rest == " " + b + "s";
    assert rest[1..|rest| - 1] == b;
    assert ReadTotalTime(s) == ReadAfterMinutes(a, rest);
  }

  /** What the reader accepts is two canonical numbers around "m " and
      before "s", the seconds below 60. */
  lemma ReadShape(s: string) returns (a: string, b: string)
    requires ReadTotalTime(s).Some?
    ensures Canonical(a) && Canonical(b) && Value(b) < 60
    ensures s == a + "m " + b + "s"
    ensures ReadTotalTime(s) == ReadNumbers(a, b)
  {
    var i := IndexOfChar(s, 'm');
    a := s[..i];
    var rest := s[i + 1..];
    b := rest[1..|rest| - 1];
    assert ReadTotalTime(s) == ReadAfterMinutes(a, rest);
    assert ReadAfterMinutes(a, rest) == ReadNumbers(a, b);
    assert rest == " " + b + "s";
    assert s == s[..i] + [s[i]] + s[i + 1..];
  }

  /** `formatTotalTime` of a non-negative total, piece by piece. */
  lemma FormatPieces(n: nat)
    ensures FormatTotalTime(n) == NatToString(n / 60) + "m " + NatToString(n % 60) + "s"
  {
  }

  /** Every total `formatTotalTime` prints is read back: a negative total as
      0, any other as itself. */
  lemma FormatReadRoundTrip(t: int)
    ensures ReadTotalTime(FormatTotalTime(t)) == Some(if t < 0 then 0 else t)
  {
    var n: nat := if t < 0 then 0 else t;
    if t < 0 {
      assert NatToString(0) == "0";
      assert FormatTotalTime(t) == FormatTotalTime(0);
    }
    ReadFormatted(n);
  }

  lemma ReadFormatted(n: nat)
    ensures ReadTotalTime(FormatTotalTime(n)) == Some(n)
  {
    FormatPieces(n);
    var a, b := NatToString(n / 60), NatToString(n % 60);
    ReadPieces(FormatTotalTime(n), a, b);
    assert Value(a) == n / 60 && Value(b) == n % 60;
    assert ReadNumbers(a, b) == Some(n);
  }

  /** Every string the reader accepts is exactly what `formatTotalTime`
      prints for the value read. */
  lemma ReadFormatRoundTrip(s: string)
    requires ReadTotalTime(s).Some?
    ensures FormatTotalTime(ReadTotalTime(s).value) == s
  {
    var a, b := ReadShape(s);
    var v := ReadTotalTime(s).value;
    assert v == Value(a) * 60 + Value(b);
    MinutesAndSeconds(Value(a), Value(b), v);
    FormatPieces(v);
    NatToStringOfValue(a);
    NatToStringOfValue(b);
  }
}

=== FILE: types.dfy ===
/** The records a workout session is made of (`src/types.ts`). Numbers the
    forms keep as JavaScript numbers are `real` for speed and incline and
    `int` for the timer, the number of sets and the total time. The timer
    buttons and the "mm:ss" fields only ever produce whole seconds; the sets
    field is typed as a number and could hold a fraction, which this model
    does not represent. */
module Types {
  import opened Wrappers

  /** `WorkoutItemType`. */
  datatype ItemType = WarmUp | Action | CoolDown

  /** The string a type is stored and shown as. */
  function Label(t: ItemType): (s: string)
    ensures |s| > 0
  {
    match t
    case WarmUp => "Warm-up"
    case Action => "Action"
    case CoolDown => "Cool-down"
  }

  /** The type a stored string names, if any. */
  function ParseLabel(s: string): (r: Option<ItemType>)
    ensures r.Some? ==> Label(r.value) == s
  {
    if s == "Warm-up" then Some(WarmUp)
    else if s == "Action" then Some(Action)
    else if s == "Cool-down" then Some(CoolDown)
    else None
  }

  /** Every type is read back from its label, and only labels name a type. */
  lemma LabelRoundTrip(t: ItemType, s: string)
    ensures ParseLabel(Label(t)) == Some(t)
    ensures ParseLabel(s).Some? <==> s in {"Warm-up", "Action", "Cool-down"}
  {
  }

  /** Different types have different labels. */
  lemma LabelInjective(t: ItemType, u: ItemType)
    ensures Label(t) == Label(u) <==> t == u
  {
    LabelRoundTrip(t, Label(u));
    LabelRoundTrip(u, Label(t));
  }

  /** `SubItem`: one exercise or rest period inside an item. `timer` is in
      seconds; `omitForLastSet` skips it in the item's last set. */
  datatype SubItem = SubItem(
    id: string,
    description: string,
    speed: real,
    incline: real,
    timer: int,
    color: string,
    omitForLastSet: bool)

  /** `WorkoutItem`: a block repeated `sets` times, each set running the
      item's own timer and then its sub-items. */
  datatype WorkoutItem = WorkoutItem(
    id: string,
    itemType: ItemType,
    description: string,
    speed: real,
    incline: real,
    timer: int,
    sets: int,
    color: string,
    subItems: seq<SubItem>)

  /** `WorkoutSession`: `description` and `lastUsedAt` are optional fields;
      the dates are ISO 8601 strings; `totalTime` is in seconds. */
  datatype WorkoutSession = WorkoutSession(
    id: string,
    name: string,
    description: Option<string>,
    showPace: bool,
    items: seq<WorkoutItem>,
    createdAt: string,
    lastUsedAt: Option<string>,
    totalTime: int)
}

=== FILE: use_session.dfy ===
/** The `useSession(sessionId)` hook of `src/hooks/use-session.ts`: the
    state it holds and the effect that loads a session from the
    "intervalTimerSessions" entry. The effect only sets the fields its branch
    names, so whatever the state held before survives into the next run. */
module UseSession {
  import opened Wrappers
  import opened IdList
  import opened Storage

  /** `{ session, loading, error }`. */
  datatype SessionState<T> = SessionState(session: Option<T>, loading: bool, error: Option<string>)

  const NotFound := "Session not found."
  const LoadFailed := "Failed to load session data."

  /** The state before the effect has run: no session, loading, no error. */
  function Initial<T>(): SessionState<T> {
    SessionState(None, true, None)
  }

  /** One run of the effect on the previous state. Without a window nothing
      happens; an empty id only ends loading; otherwise the stored list is
      read (`None` for text that does not parse), and the first session with
      the id is shown, or an error is set, and loading ends. Every run
      with a window and an id sets one of the three outcomes; the field the
      outcome does not name keeps what the previous run left. */
  function LoadEffect<T>(prev: SessionState<T>, windowDefined: bool, sessionId: string,
                         slot: Slot<T>, key: T -> string): (r: SessionState<T>)
    ensures !windowDefined ==> r == prev
    ensures windowDefined ==> !r.loading
    ensures windowDefined && sessionId == "" ==> r.session == prev.session && r.error == prev.error
    ensures r.session != prev.session ==>
              && windowDefined && sessionId != "" && ReadList(slot).Some?
              && r.session.Some? && key(r.session.value) == sessionId
              && exists i :: FirstAt(ReadList(slot).value, key, sessionId, i)
                             && ReadList(slot).value[i] == r.session.value
    ensures r.error != prev.error ==> r.error == Some(NotFound) || r.error == Some(LoadFailed)
    ensures r.error == Some(LoadFailed) && prev.error != r.error ==> slot.Malformed?
    ensures windowDefined && sessionId != "" && ReadList(slot).Some?
            && Contains(ReadList(slot).value, key, sessionId) ==>
              r.session == Find(ReadList(slot).value, key, sessionId) && r.error == prev.error
    ensures windowDefined && sessionId != "" && ReadList(slot).Some?
            && !Contains(ReadList(slot).value, key, sessionId) ==>
              r.error == Some(NotFound) && r.session == prev.session
    ensures windowDefined && sessionId != "" && slot.Malformed? ==>
              r.error == Some(LoadFailed) && r.session == prev.session
  {
    if !windowDefined then prev
    else if sessionId == "" then prev.(loading := false)
    else
      match ReadList(slot)
      case None => prev.(error := Some(LoadFailed), loading := false)
      case Some(list) =>
        match Find(list, key, sessionId)
        case Some(s) => prev.(session := Some(s), loading := false)
        case None => prev.(error := Some(NotFound), loading := false)
  }

  /** `useSession(sessionId)` on its first render after mounting. */
  function UseSession<T>(windowDefined: bool, sessionId: string, slot: Slot<T>, key: T -> string): SessionState<T> {
    LoadEffect(Initial(), windowDefined, sessionId, slot, key)
  }

  /** The outcomes of a first load: still loading only without a window; a
      session exactly when the id is non-empty and stored; "Session not
      found." exactly when the list reads (an absent entry reads as empty) but
      holds no such id; "Failed to load session data." exactly when the
      stored text is malformed. */
  lemma FirstLoadOutcomes<T>(windowDefined: bool, sessionId: string, slot: Slot<T>, key: T -> string)
    ensures var r := UseSession(windowDefined, sessionId, slot, key);
      && (r.loading <==> !windowDefined)
      && (r.session.Some? <==>
            windowDefined && sessionId != "" && ReadList(slot).Some?
            && Contains(ReadList(slot).value, key, sessionId))
      && (r.session.Some? ==> key(r.session.value) == sessionId)
      && (r.error == Some(NotFound) <==>
            windowDefined && sessionId != "" && ReadList(slot).Some?
            && !Contains(ReadList(slot).value, key, sessionId))
      && (r.error == Some(LoadFailed) <==> windowDefined && sessionId != "" && slot.Malformed?)
      && (r.error.Some? ==> r.session.None?)
  {
    var r := UseSession(windowDefined, sessionId, slot, key);
    if windowDefined && sessionId != "" && ReadList(slot).Some? {
      var list := ReadList(slot).value;
      if Contains(list, key, sessionId) {
        assert r.session.Some?;
      }
    }
  }

  /** An absent entry holds no session, so every non-empty id is not found. */
  lemma AbsentEntryIsNotFound<T>(sessionId: string, key: T -> string)
    requires sessionId != ""
    ensures UseSession(true, sessionId, Absent, key) == SessionState(None, false, Some(NotFound))
  {
  }

  /** The session a previous run found stays in the state when the id
      changes to one that is not stored: the hook then reports both the old
      session and "Session not found.". */
  lemma StaleSessionSurvives<T>(first: string, second: string, list: seq<T>, key: T -> string)
    requires first != "" && second != ""
    requires Contains(list, key, first) && !Contains(list, key, second)
    ensures var r := LoadEffect(UseSession(true, first, Stored(list), key), true, second, Stored(list), key);
      && r.session.Some? && key(r.session.value) == first
      && r.error == Some(NotFound)
  {
  }
}

=== FILE: wrappers.dfy ===
/** Failure-carrying values: `Option` stands for JavaScript's `undefined`
    result of a failed lookup and for `NaN` from a failed numeric parse. */
module Wrappers {

  datatype Option<+T> = None | Some(value: T) {

    /** The contained value, or `default` when there is none. */
    function GetOr(default: T): T {
      match this
      case Some(v) => v
      case None => default
    }
  }

  datatype Result<+R, +E> = Success(value: R) | Failure(error: E)
}
